=== FILE: README.md ===
# A model of the untrue DOM reconciler and routers

This project models the core of the DOM binding of the "untrue" UI library in Dafny and proves properties of it. The model covers three parts.

**The reconciliation engine of `Tree.ts`.**
- A tree of *edges* mirrors the slots a component tree renders.
- Each edge may own a host node, a class component or a function component's hook runtime (*hookster*).
- Each edge caches the number of host nodes its subtree places into its host parent (`targetNodesCount`).
- A *target* is an insertion cursor over one host parent's child list (`Target.ts`).
- A render pass:
  - matches new child slots against the previous children, keyed slots first;
  - unmounts the unmatched children and moves the re-ordered ones;
  - renders each child through the cursor;
  - skips components with no pending update;
  - catches exceptions, advancing the cursor by the old count.
- A re-render rebuilds an edge's cursor from the cached counts of the edges before it, then pushes a changed count up to its ancestors.
- The update queue is flushed shallowest edge first.
- Unmounting tears a subtree down children-first.
- Element patching diffs the old and new props into attributes, handler properties and refs.

**The legacy engine of `Tree.js`.**
- It pairs children by a key-then-position rule from both sides.
- It finds an edge's insertion index by scanning the live subtree for DOM nodes (`findTargetIndex`, `findDomNodeIndex`) instead of keeping counts.
- It unmounts through a target that becomes null below the first removed DOM node.

**The pure decisions of the routers.**
- Location-path normalisation.
- The registered pattern and the filtering of the matcher's parameter object.
- The choice between a matched, a fallback and the default route.
- The location listener's skip rule.
- The per-route overrides of the rendered page.
- The route path relative to the base.
- Anchor-click interception, in the two variants of `RouterController.ts`/`Router.ts` and `RouterHistory.js`.
- The shared `popstate` registration of `RouterHistory.js` as `Router.js` mounts and unmounts routers.

The model is functional throughout:
- **Edges** are immutable rose trees addressed by paths of child indices, and an edge's parent is its path prefix.
- **The host document** is a map from node id to that node's ordered child sequence.
- **Fresh node and component identities** come from a counter.
- **Opaque collaborators** are the fields of an `Oracle` datatype: component and hook lifecycles, `Comparer.compare`, a component's rendered children, and the browser's `setAttribute` validation.
- **Route matching** is a `Matcher` function parameter: the crossroads pattern matcher that yields a parameter object or nothing.
- **Rendering depth** is bounded by `fuel`, which stands for the JavaScript call stack. When the fuel runs out, the edge fails as a `RangeError` caught by its `try` would make it fail.

Modules:
- `Wrappers`, `Seqs`: `Option` and sequence helpers.
- `Slots`: slots and `isEqual`.
- `Targets`: the host map and `Target.insert` / `remove`.
- `Edges`: the edge record, footprints and paths.
- `Matching`: the matching of `renderChildren`.
- `Moves`: `moveEdge`.
- `Patch`: `patchNode`.
- `Scheduler`: `queue`, `unqueue` and the depth sort.
- `Worlds`: the state a render changes.
- `Teardown`: `unmountEdge`.
- `Render`: `renderEdge` and the per-kind renders.
- `Accounting`: `createTarget` and `propagateTargetNodesCountDifference`.
- `Trees`: the `Tree` object.
- `Legacy`: `Tree.js`.
- `Locations`: location path, click handling and `RouterHistory` flags.
- `Routes`: route choice, listener and render.

Where the sources disagree, the model follows `Tree.ts`:
- `Edge.ts` lacks the `hookster` and `targetNodesCount` fields `Tree.ts` uses, and declares `slot` read-only although `Tree.ts:213` assigns it. The `Edge` datatype has the fields `Tree.ts` uses.
- A keyed slot in `Tree.ts` only scans by key, with no positional fallback. The positional fallback of `Tree.js` (line 199) never changes the pairing: `Legacy.PairIsMatchOne` proves that.

## Model

| member | source | states |
|---|---|---|
| Slots.IsEqual | src/Tree/Tree.ts:616-647 | two children are equal exactly when they denote the same unit: slots with the same content type and key, two of null/undefined/false, or two text-like values; every other pairing is unequal |
| Slots.EqualKeyedShareKey | src/Tree/Tree.ts:619-630 | a child equal to a keyed slot is itself a slot with that key and content type |
| Targets.NewTarget | src/Tree/Target.ts:2 | a new cursor starts at index 0 of its element |
| Targets.Insert | src/Tree/Target.ts:4-23 | the cursor advances by exactly one; the host is unchanged when the node at the index is the child; an index at or past the end (or negative) leaves the child last in the parent; otherwise the child ends up immediately before the node previously at the index, exactly once, with the other children in their old order; other parents lose at most the child |
| Targets.Remove | src/Tree/Target.ts:25-27 | the child leaves the cursor's parent, the other children keep their order, other parents are untouched and the index does not move |
| Targets.InsertArrives | src/Tree/Target.ts:4-23 | in a parent without repeated children, inserting a node not among those before the cursor keeps those nodes and puts the node at the cursor's index |
| Targets.BeforeNode | src/Tree/Target.ts:14-17 | `insertBefore` places the child right before the reference node, exactly once, and moves no other node |
| Edges.NewEdge | src/Tree/Edge.ts:4-11 | a new edge has no children, host node or owner, so its footprint is empty and the default count 0 is consistent with it |
| Edges.SlotSwapSound | src/Tree/Tree.ts:208-214 | giving a reused edge a new slot that `isEqual` accepts keeps its count consistent and its shape valid |
| Matching.ScanFrom | src/Tree/Tree.ts:183-194 | the key scan returns the first equal previous slot, and nothing exactly when none is equal |
| Matching.MatchOne | src/Tree/Tree.ts:180-204 | a keyed slot reuses the first previous child of equal type and key, and none exactly when no previous child is equal; any other slot reuses only the previous child at its own index, exactly when that one is `isEqual` |
| Matching.UnmatchedFrom | src/Tree/Tree.ts:224-232 | the unmounted previous children are exactly those no new slot reuses, in increasing order |
| Matching.UnmountedIffUnreused | src/Tree/Tree.ts:224-232 | a previous child is unmounted if and only if no new child's matching picks it |
| Matching.MatchInjective | src/Tree/Tree.ts:180-204 | with unique sibling keys, no previous child is reused by two new children |
| Matching.DuplicateKeysShare | src/Tree/Tree.ts:183-194 | two keyed siblings of the same type and key are both matched to the same previous child, which exists exactly when some previous slot compares equal to them |
| Moves.MoveEdge | src/Tree/Tree.ts:252-265 | a move advances the cursor by the size of the subtree's footprint; it changes nothing when that footprint already sits at the cursor; when the footprint's nodes are distinct and none is among the nodes before the cursor, the parent afterwards starts with those nodes and then the footprint, in order |
| Moves.MoveUpTo | src/Tree/Tree.ts:262-264 | moving the children in order advances the cursor by their joint footprint, and under the same conditions leaves the nodes before the cursor in place followed by that joint footprint, in order |
| Moves.ArriveAfter | src/Tree/Tree.ts:262-264 | two moves in a row land both footprints one after the other behind the untouched prefix |
| Patch.SwapRef | src/Tree/Tree.ts:697-703 | a previous `Ref` that is no longer the current one is nulled, a new `Ref` points at the target, and no other `Ref` changes |
| Patch.SwapRefTwice | src/Tree/Tree.ts:697-703 | repeating the ref swap changes nothing more |
| Patch.PatchReflects | src/Tree/Tree.ts:665-797 | an element that reflected the previous props reflects the new props under every key the host accepted: non-null non-function values as attributes, functions as handler properties, null and removed keys cleared; keys neither object has are untouched |
| Patch.PatchRefs | src/Tree/Tree.ts:691-781 | after a patch the refs are the previous ones with the old `ref` prop nulled if it was replaced and the new one pointing at the element |
| Patch.PatchNeverSetsKey | src/Tree/Tree.ts:686-689 | the `key` prop is never written to the element: an attribute named `key` can only disappear |
| Scheduler.Queue | src/Tree/Tree.ts:75-76 | the entry is appended behind the unchanged stack |
| Scheduler.Unqueue | src/Tree/Tree.ts:89-91 | every occurrence of the entry is removed and every other entry is kept |
| Scheduler.UnqueueAfterQueue | src/Tree/Tree.ts:75-91 | unqueueing undoes any queueing of the same entry |
| Scheduler.SortByDepth | src/Tree/Tree.ts:102-104 | the sorted stack is a permutation in ascending depth whose head is the first of the shallowest entries |
| Scheduler.Shallowest | src/Tree/Tree.ts:102-104 | the index found has minimal depth, and every entry before it is strictly deeper |
| Worlds.Unqueued | src/Tree/Tree.ts:278-280 | an edge owning a component or hook runtime leaves the queue; any other edge changes nothing |
| Worlds.Settle | src/Tree/Tree.ts:405-407 | `triggerRender` logs the owner as settled, may queue it again, and touches no host node |
| Worlds.CreateElement | src/Tree/Tree.ts:649-659 | a new element node has a fresh id, no children and no attributes |
| Worlds.CreateText | src/Tree/Tree.ts:660-662 | a new text node has a fresh id and empty text |
| Render.RenderEdge | src/Tree/Tree.ts:277-336 | the cursor advances by the edge's resulting count; the edge is skipped exactly when it has a snapshot, a constructed owner without pending update and a slot comparing equal, and then nothing but the unqueue happens; a failure the model raises (a throwing render, `updateProps` or `performUpdate`, or an exhausted stack) leaves the host and children alone, reports once and advances by the old count; a finished component settles last; a sound edge stays sound |
| Render.Dispatch | src/Tree/Tree.ts:312-326 | a slot that is rendered (not skipped) advances the cursor by its new count and keeps its slot and depth; a failure the model raises leaves the host alone; a finished component settles last |
| Render.Fail | src/Tree/Tree.ts:331-335 | a caught exception advances the cursor by the old count and appends one report |
| Render.RenderClass | src/Tree/Tree.ts:338-408 | an existing component is kept, a missing one is created; a throwing `updateProps` of an existing component fails the edge unchanged, exactly when the oracle says so; otherwise the render either fails with that component's error or finishes with the component settling last |
| Render.RenderFunction | src/Tree/Tree.ts:410-458 | the same for a function component's hook runtime, with a throwing `performUpdate` in place of `updateProps` |
| Render.AfterRender | src/Tree/Tree.ts:384-407 | a throwing render is reported and leaves edge and host as they were; rendered children are reconciled before the owner settles, so deeper owners settle first |
| Render.RenderNull | src/Tree/Tree.ts:520-524 | a null slot changes only its children and count, never fails, and advances the cursor by the new count |
| Render.RenderElement | src/Tree/Tree.ts:460-500 | an element edge keeps or creates its node, counts exactly one host node, and advances the cursor by one |
| Render.RenderText | src/Tree/Tree.ts:502-518 | a text edge keeps or creates its node, writes the text only when it differs from the previous slot's, counts one node and advances the cursor by one |
| Render.RenderChildren | src/Tree/Tree.ts:158-250 | one edge per new slot; the owners of exactly the unmatched previous children are torn down, in order, before any child renders; with sound previous children the new children are sound and the cursor advances by their joint footprint |
| Render.ChildFor | src/Tree/Tree.ts:206-214 | a matched slot reuses the previous child's edge with the new slot; an unmatched slot gets a new edge one level deeper than its parent |
| Render.RenderOne | src/Tree/Tree.ts:236-249 | the rendered child follows its matching and advances the cursor by its own count |
| Render.RenderUpTo | src/Tree/Tree.ts:236-249 | the first `k` children are rendered in order and the cursor advances by their joint footprint |
| Render.RenderChildrenFollows | src/Tree/Tree.ts:174-218 | each new child carries its slot; a matched child keeps the previous child's depth, owners and host node; a new child is one level below the parent |
| Accounting.AddPreceding | src/Tree/Tree.ts:832-838 | the sibling loop adds up the cached counts of exactly the preceding siblings |
| Accounting.CreateTargetWalk | src/Tree/Tree.ts:822-845 | the walk up through the ancestors with the sibling loop computes `CreateTarget`; on a consistent tree it finds the host parent at the number of host nodes before the edge |
| Accounting.CreateTargetPlaces | src/Tree/Tree.ts:822-845 | on a consistent tree the rebuilt cursor is the edge's host parent (the nearest ancestor node, or the tree element) at the number of host nodes preceding the edge there |
| Accounting.Propagate | src/Tree/Tree.ts:137-156 | the walk leaves the edge it starts from unchanged |
| Accounting.Lift | src/Tree/Tree.ts:137-156 | the top-down reference walk changes no node, slot, depth, owner or number of children, and leaves the edge at the path as it was |
| Accounting.PropagateIsLift | src/Tree/Tree.ts:137-156 | the bottom-up walk of the source equals the top-down reference |
| Accounting.ReattachSound | src/Tree/Tree.ts:122-130 | after a re-rendered subtree is put back, propagating its count difference makes the whole tree consistent again |
| Teardown.TearDown | src/Tree/Tree.ts:603-613 | an owner leaves the queue and its teardown is logged |
| Teardown.RemoveOwnNode | src/Tree/Tree.ts:571-577 | the edge's own host node, if any, leaves the cursor's parent and nothing else moves |
| Teardown.ClearRef | src/Tree/Tree.ts:579-585 | the slot's `Ref` loses its referent and other refs only keep theirs |
| Teardown.TearDownOwners | src/Tree/Tree.ts:603-613 | the component, then the hook runtime, leave the queue and are torn down |
| Teardown.UnmountInside | src/Tree/Tree.ts:571-591 | the node, the ref and every child are torn down before the edge's own owners |
| Teardown.UnmountEdge | src/Tree/Tree.ts:526-614 | every owner of the subtree is torn down in post-order and leaves the queue; exactly the subtree's top host nodes leave the cursor's parent; hosts outside the subtree keep their children; the slot's ref ends nulled and no ref gains a referent |
| Teardown.UnmountUpTo | src/Tree/Tree.ts:589-591 | the children are torn down in order, each subtree's owners in post-order |
| Teardown.UnmountAll | src/Tree/Tree.ts:224-232 | the unmatched previous children are torn down in order, and exactly their owners leave the queue; hosts outside their subtrees other than the cursor's parent keep their children; with well-shaped subtrees not containing the parent, the parent loses exactly their top host nodes |
| Trees.Unmount | src/Tree/Tree.ts:49-71 | without a root nothing changes; otherwise every owner is torn down in post-order, and root and queue are cleared |
| Trees.UnmountHost | src/Tree/Tree.ts:56-62 | unmount removes exactly the root's top host nodes from the tree element and leaves every host node outside the old tree alone |
| Trees.Mount | src/Tree/Tree.ts:24-47 | a previous root is torn down first; then the new root edge, at depth 0 for the slot, is rendered with no snapshot from index 0 of the tree element, and the tree keeps that render's edge and world; the root is sound |
| Trees.Cleared | src/Tree/Tree.ts:27-29 | the world `mount` renders into: with a previous root, its owners are torn down in post-order and the queue is emptied; otherwise the world is unchanged |
| Trees.MountRenders | src/Tree/Tree.ts:24-47 | the new root is never skipped; its count is the cursor's advance from index 0; a failed root render leaves exactly one report, and a component or hook root that rendered settles last |
| Trees.Request | src/Tree/Tree.ts:75-85 | a component's update request appends it to the queue and changes nothing else |
| Trees.FindOwner | src/Tree/Tree.ts:104-106 | a found path leads to an edge owned by the requested owner |
| Trees.FindOwnerComplete | src/Tree/Tree.ts:104-106 | every owner present in the tree is found |
| Trees.RerenderStep | src/Tree/Tree.ts:93-135 | an empty queue ends the flush; otherwise a minimum-depth queued owner is dropped when its edge left the tree, or its edge is rendered against its own snapshot through the cursor `createTarget` rebuilds, with the queue sorted by depth, and the result is put back at its path, with that render's status and world; a sound tree stays sound |
| Trees.Reattach | src/Tree/Tree.ts:122-130 | the re-rendered edge takes its place, and propagating a changed count keeps a sound tree sound |
| Trees.Flush | src/Tree/Tree.ts:93-135 | the flush stops early only with an empty queue, never shortens the log, and keeps the tree sound |
| Legacy.LegacyIsEqual | src/Tree/Tree.js:988-1026 | the legacy test equates exactly the same units as the current one |
| Legacy.Pair | src/Tree/Tree.js:187-205 | the partner is an equal node; a keyed node finds none exactly when no node is equal, and an unkeyed one exactly when the node at its index is not equal |
| Legacy.PairIsMatchOne | src/Tree/Tree.js:199-205 | the positional fallback after a failed key scan never finds anything, so the legacy pairing equals the current engine's matching |
| Legacy.Unmounts | src/Tree/Tree.js:178-212 | the unmount loop tears down exactly the previous children the key-then-position rule pairs with no new child |
| Legacy.RenderJobs | src/Tree/Tree.js:216-256 | every new child is rendered in order against its partner, one depth index deeper |
| Legacy.UnmountedNeverReused | src/Tree/Tree.js:178-256 | a previous child the unmount loop removes is never the partner of a new child |
| Legacy.KeptIsReused | src/Tree/Tree.js:178-256 | with unique previous keys, a previous child the unmount loop keeps is the partner of some new child |
| Legacy.UnmountsAreUnmatched | src/Tree/Tree.js:178-212 | with unique previous keys the legacy unmount set equals the current engine's |
| Legacy.FindDomNodeIndex | src/Tree/Tree.js:895-930 | the result is the position of the last host node the subtree places, or null when it places none |
| Legacy.ScanBack | src/Tree/Tree.js:909-929 | scanning the children last to first finds the position of the last host node they place |
| Legacy.FindDomNodeIndexExample | src/Tree/Tree.js:843-891 | the documented example gives AA to 0, AB to 2 and AC to null |
| Legacy.FindTargetIndex | src/Tree/Tree.js:760-815 | the index is one past the last host node preceding the edge up to the ancestor whose node is the target, or 0 when none precedes it |
| Legacy.FindTargetIndexTreeOneFirst | src/Tree/Tree.js:697-698 | the documented "tree 1" gives A and AA to 0 |
| Legacy.FindTargetIndexTreeOneSecond | src/Tree/Tree.js:699 | "tree 1" gives AB to 1 |
| Legacy.FindTargetIndexTreeOneThird | src/Tree/Tree.js:700 | "tree 1" gives AC to 2 |
| Legacy.FindTargetIndexTreeTwo | src/Tree/Tree.js:754-756 | "tree 2" gives AAA to 0, AAB to 1 and AAC to 2 |
| Legacy.PrecedingIsLead | src/Tree/Tree.js:769-814 | for the edge's host parent, the nodes the legacy scan climbs over are the nodes the cached counts stand for |
| Legacy.LegacyMatchesCounts | src/Tree/Tree.js:137-141 | on a consistent tree whose host parent starts with the nodes before the edge, the legacy scan and the current engine's rebuilt cursor agree |
| Legacy.DropComponent | src/Tree/Tree.js:89-97 | every item of that component leaves the stack and every other item is kept |
| Legacy.DropAfterQueue | src/Tree/Tree.js:75-97 | unqueueing a component undoes any queueing of it |
| Legacy.RemoveOwnNode | src/Tree/Tree.js:950-954 | a DOM node is removed only when there is both a node and a target |
| Legacy.NullRef | src/Tree/Tree.js:956-962 | the node's `Ref` loses its referent and other refs only keep theirs |
| Legacy.UnmountOwnComponent | src/Tree/Tree.js:981-985 | the edge's component leaves the stack and is torn down |
| Legacy.UnmountChildren | src/Tree/Tree.js:964-968 | the children are torn down in order through the handed-down target |
| Legacy.UnmountEdge | src/Tree/Tree.js:932-986 | components are torn down children first; only the topmost DOM nodes of the subtree leave the target, and nothing is removed without a target |
| Legacy.LegacyUnmount | src/Tree/Tree.js:49-73 | without a root nothing changes; otherwise the root is torn down and root and stack are cleared |
| Legacy.LegacyMount | src/Tree/Tree.js:24-47 | a previous root is unmounted first; the new root is rendered with no previous edge from index 0 of the tree's node at depth index 0 |
| Legacy.LegacyQueue | src/Tree/Tree.js:75-87 | the item is appended behind the unchanged stack |
| Legacy.RerenderPlan | src/Tree/Tree.js:99-145 | the stack is sorted by depth index as a permutation; the first item is rendered against its own snapshot through a target rebuilt by `findTargetIndex` |
| Legacy.FirstIsShallowest | src/Tree/Tree.js:108-110 | the item taken is a stack item of minimal depth index |
| Legacy.RebuiltTarget | src/Tree/Tree.js:137-141 | the rebuilt target is the item's target node at one past the last host node preceding the edge |
| Locations.LocationPath | src/Component/Router/RouterController.ts:80-82 | the location path is a slash followed by the pathname with one leading and one trailing slash removed |
| Locations.LocationPathUnwraps | src/Component/Router/Router.ts:99-101 | any pathname with at most one slash at each end normalises to a single slash and its middle |
| Locations.LocationPathOneSlashOnly | src/Router/Router.js:61-63 | only one slash goes at each end, and the empty and root pathnames both give "/" |
| Locations.BeforeHash | src/Component/Router/RouterController.ts:270-271 | the URL before its first '#': a prefix without '#' that is the whole URL exactly when it has none |
| Locations.OnClick | src/Component/Router/RouterController.ts:244-295 | foreign clicks go to the browser untouched; a link to a different document (fragments ignored) is pushed; a link to the same document is pushed exactly when it leaves a fragment for a URL without one; whatever is pushed is the link itself and the browser does nothing more; a click not pushed goes to the browser exactly when it is foreign or the link has a fragment |
| Locations.OnClickArrives | src/Component/Router/Router.ts:211-260 | every plain click reaches its link: it is pushed, or the browser follows a fragment link, or the window already shows the link |
| Locations.OnClickLegacy | src/Router/RouterHistory.js:47-89 | foreign clicks go to the browser untouched; a plain click is pushed exactly when it goes to a different document (fragments ignored); whatever is pushed is the link itself; a click not pushed goes to the browser exactly when it is foreign or the link has a fragment |
| Locations.OnClickVariants | src/Router/RouterHistory.js:73-88 | the two handlers differ exactly on a plain click from a fragment to the same document without one, which the legacy handler swallows |
| Locations.OnClickLegacyStaysOnFragment | src/Router/RouterHistory.js:81-88 | from "/p#top" the legacy handler swallows a click on "/p" that the newer handler pushes |
| Locations.Init | src/Router/RouterHistory.js:18-26 | `init` sets the flag, registers the listener only when the flag was clear, and otherwise changes nothing |
| Locations.Reset | src/Router/RouterHistory.js:28-32 | `reset` unregisters the listener and clears the flag |
| Locations.InitIdempotent | src/Router/RouterHistory.js:18-26 | a second `init` is a no-op |
| Locations.FlagTracksListener | src/Router/RouterHistory.js:18-32 | the flag is set exactly while the listener is registered |
| Locations.MountRouter | src/Router/Router.js:21-25 | mounting a router runs the shared `init` and adds the router to the mounted ones |
| Locations.UnmountRouter | src/Router/Router.js:27-31 | unmounting a router runs the shared `reset` and removes only that router |
| Locations.MountedHears | src/Router/Router.js:21-25 | a router hears back and forward navigation once mounted |
| Locations.SharedReset | src/Router/Router.js:21-31 | with two routers mounted, both hear back and forward navigation; after one unmounts, the other is still mounted but hears it no longer |
| Routes.WithoutMatcherOwn | src/Component/Router/RouterController.ts:171-180 | the copied parameters are exactly those whose key is not "request_", "vals_" or integer-parsable |
| Routes.DeleteKey | src/Component/Router/RouterController.ts:182-184 | deleting a key removes exactly the entries under it |
| Routes.FilterParams | src/Component/Router/Router.ts:133-154 | a route's params are exactly the matcher's entries with a kept key: no matcher keys, and no "rest*" for a nested route |
| Routes.FilterParamsKeepsPlaceholders | src/Component/Router/RouterController.ts:166-186 | an object of route placeholders alone passes through whole and in order |
| Routes.MatcherKeysDropped | src/Router/Router.js:104-110 | "request_", "vals_", "0", " -12px" and "0x1f" are matcher keys; "id", "0x" and "rest*" are not integer-parsable |
| Routes.RoutePattern | src/Component/Router/RouterController.ts:158-164 | the pattern is the base followed by the path (the bare path under the root base), and a nested route adds the `/:rest*:` tail |
| Routes.RoutePatternInjective | src/Component/Router/Router.ts:125-131 | under one base and nesting, different route paths register different patterns |
| Routes.DefaultRoute | src/Component/Router/Router.ts:110 | the default route has no path, no screen and no params |
| Routes.FindFallback | src/Component/Router/Router.ts:114-118 | the fallback is the first path-less route, and none exactly when every route has a path |
| Routes.FirstMatch | src/Component/Router/RouterController.ts:155-194 | the route whose handler runs is the first registered route whose pattern matches, and none exactly when none matches |
| Routes.ParseRoute | src/Component/Router/RouterController.ts:134-201 | the route has a path exactly when some route matches; it is then the first match, with its filtered params; otherwise it has no params and is the first path-less route of the list, or the default route when the list has none |
| Routes.Listen | src/Component/Router/RouterController.ts:95-123 | an unchanged location path is ignored; otherwise it is stored, and an update follows exactly when the parsed path or params differ from the rendered route's |
| Routes.OverrideDefined | src/Component/Router/Router.ts:181-191 | a route value overrides only when defined |
| Routes.Render | src/Component/Router/Router.ts:170-207 | the page shows the parsed route's screen under its path-and-params key; scroll, Template and data come from the route when defined, else from the props or the built-in defaults; the route and location path are stored |
| Routes.RenderThenListenIsQuiet | src/Component/Router/Router.ts:69-76 | right after a render the listener ignores the same location |
| Routes.ListenAfterRender | src/Router/Router.js:33-59 | after a render, a new location causes an update exactly when its route path or params differ |
| Routes.OverridePresent | src/Router/Router.js:154-168 | a property present on the route overrides, an undefined one as the built-in default; an absent one keeps the router's setting |
| Routes.OverrideVariants | src/Router/Router.js:154-168 | the `in` rule and the defined-only rule differ exactly on a present but undefined property when the router's setting is not the built-in default |
| Routes.RoutePath | src/Router/Router.js:172-178 | null for a nested route; the location path under the root base; "/" at the base itself; otherwise the location path without the base's length of leading characters |
| Routes.RoutePathUnderBase | src/Router/Router.js:172-178 | a location inside the base yields the rest of its path |
| Routes.RoutePathOutsideBase | src/Router/Router.js:175 | a location outside the base loses as many characters as the base has: "/app" and "/other/x" give "er/x" |
| Routes.RouteKey | src/Router/Router.js:182-183 | the default key is the route path; a plain key is used as is |
| Routes.RouteProps | src/Router/Router.js:185 | object props are used as is; function props are called with the route object |
| Routes.LegacyRender | src/Router/Router.js:136-200 | the container carries the scroll, key, screen, props and route object after the overrides; the page is the container alone exactly when Template is null, otherwise the Template with the same props and route around it |
| Routes.DefaultKeyIsRoutePath | src/Router/Router.js:143 | with no `uniqueKey` anywhere, the page is keyed by its route path |

## Left out

- Timing: the `setTimeout` batching of `queue` and the `clearTimeout` of `unmount` (`Tree.ts`, `Tree.js`). A flush is an explicit, step-bounded call (`Trees.Flush`).
- Error handling: the `queueMicrotask` rethrow of `ErrorHandler.ts` (not part of this model) and of `Tree.js`. A caught error is an entry in the world's log.
- DOM primitives: `document.createElement`, `createTextNode`, `insertBefore`, `appendChild`, `removeChild` and `setAttribute`. Nodes are fresh ids over the host map, and a failing `setAttribute` is an oracle answer.
- Collaborators of the "untrue" library are oracles:
  - `Component`, `Hookster` and their `initialize`, `updateProps`, `performUpdate`, `activate`/`deactivate`, `needsUpdate`, `render`, `triggerRender` and `triggerUnmount`. Of these only `render`, `updateProps` and `performUpdate` can throw in the model;
  - `Comparer.compare` and `compareDeep`; `Ref`; `Slot` internals.
- `slot.setChildren`: the rendered children are passed to the children pass directly.
- An exception thrown by `triggerRender` after the children rendered is not modelled. `Settle` cannot fail.
- A component constructor that throws is not modelled. The model constructs components with fresh ids.
- `Target.remove` throwing for a node that is not a child is not modelled. Removal from the model's sequence is a no-op then.
- `Edge.parent` is the path prefix. `clone` is the identity under value semantics, since edges are immutable values.
- The `Edge.ts` constructor's `parent` default is not modelled: a root edge is the empty path.
- Trees.RerenderStep drops a queued owner whose edge is no longer in the tree. The source would render that detached edge. `unmountEdge` unqueues every owner it tears down, so only a stale request reaches this case.
- Render.RenderEdge treats an edge whose component or hook runtime was never constructed as needing an update. The source dereferences the missing owner there, and the parent's `try` catches the resulting error. In the model this arises only after a stack-exhaustion failure.
- Render.RenderEdge: `triggerUnmount` cannot throw in the model. In the source (Tree.ts:606, 612), it is called during the unmount loop of `renderChildren` (Tree.ts:224-232), after `edge.children` was replaced (Tree.ts:220), with no `try` around it. Its exception reaches the edge's `catch` after some old host nodes were removed, with the new, unrendered children stored, and the cursor advances by the stale count. The failure clause covers only the failures the model raises.
- Render.RenderEdge: `needsUpdate` and `Comparer.compare` in the skip test (Tree.ts:282-305) run outside the `try` and cannot throw in the model. In the source their exception would reach the parent's `catch`.
- Render.Dispatch: its failure clause has the same limit as `RenderEdge`'s: a throwing `triggerUnmount` is not modelled.
- Render.RenderChildren: sibling slots that share a type and a key are outside the modelled domain; the contracts that need a single reuse (`Matching.MatchInjective`, `Legacy.KeptIsReused`, `Legacy.UnmountsAreUnmatched`) require unique keys among the new or the previous siblings. In the source, both positions receive the same `Edge` object (`Matching.DuplicateKeysShare`, Tree.ts:183-194). The second `child.slot = slot` (Tree.ts:213) overwrites the first, the second snapshot clone (Tree.ts:211) already carries the first new slot, and the one host node is inserted twice. The model instead renders two independent copies of that previous child.
- Render.RenderEdge: its contract states the cursor accounting, the skip and failure paths, the settle order and soundness, but not the order of host children after a render. Host placement is stated for `Insert`, `Remove`, `MoveEdge`/`MoveUpTo` and teardown separately.
- Moves.MoveEdge: the parent's nodes after the footprint, and the moved nodes' former parents, are not stated. Placement is stated only when the parent repeats no child and no moved node sits before the cursor, the situation inside a render.
- Moves.MoveUpTo: the same limits as `MoveEdge`.
- Fuel: `fuel` bounds the nesting depth of a render. Its exhaustion is the only stack overflow modelled, and only at entry to an edge's render.
- Legacy.RerenderPlan: the legacy renders are not modelled, so `mount` and `rerender` stop at the render call. These are `renderEdge`, `renderComponent`, `renderFunction`, `renderElement`, `renderString`, `renderNull`, `createChildren`, `createDomNode` and `patchDomNode`. They differ from the current engine's renders in ways the model does not cover:
  - the legacy `renderEdge` (Tree.js:259-297) keeps no count of host nodes and has no skip test;
  - it first gives the edge the previous children, so a failed edge keeps them;
  - its `catch` rethrows through `queueMicrotask`;
  - the legacy `patchDomNode` removes a dropped attribute or handler without checking for a null previous value (Tree.js:611-620), which `Tree.ts:783` guards.
- Legacy.LegacyMount: like `RerenderPlan`, it stops at the render call.
- The `Detached` plan of the legacy `rerender` names an item whose edge left the tree. The legacy `unqueue` removes such items, so it is not expected to arise.
- Crossroads matching is a function parameter. Its handler runs for the first matching route in registration order, since all routes share one priority.
- `JSON.stringify` of the route object as the page key: the key is kept as the route object itself.
- Routes.MatcherKeysDropped: `parseInt` of a digit string too long for a double gives `Infinity`, which `Number.isInteger` rejects. The model counts every such key as integer-parsable.
- The `Scroller` components, `window.history`, `window.location`, `popstate`/`locationchange` event dispatch, `RouterHistory.emitLocationChange` and `Component/Router/RouterHistory.ts` are browser I/O. They are parameters or left out.
- The `use`/`bind`/`wrapRouter` plumbing of `RouterController.ts` is left out, as is mounting a tree into `document.head`.

## Findings

| source | as written | input that shows it | evidently intended | confidence | as-written member | corrected member |
|---|---|---|---|---|---|---|
| src/Router/RouterHistory.js:81-88 | on a plain click whose URL, without its fragment, equals the window's, the handler returns whether the link has a '#' and never pushes | window at "/p#top", click on a link to "/p" (same target, primary button, no modifiers): the handler returns false without pushing, so the click does nothing | leaving a fragment for the same document without one pushes the link, as `RouterController.ts:284-290` and `Router.ts:249-255` do | medium, not executed | Locations.OnClickLegacy (shown by Locations.OnClickLegacyStaysOnFragment) | Locations.OnClick (proved by Locations.OnClickArrives) |

=== FILE: accounting.dfy ===
/**
 * Tree.ts `createTarget` (lines 822-845) and
 * `propagateTargetNodesCountDifference` (lines 137-156): the cursor an edge
 * renders through is rebuilt from the cached counts of the edges before it,
 * and a changed count is pushed up to the ancestors that share its host
 * parent. An edge is addressed by its path of child indices from the root;
 * its parent is the path without the last index.
 */
module Accounting {
  import opened Targets
  import opened Edges

  // ---- createTarget ------------------------------------------------------

  /** The cached counts of the first `j` children, added up. */
  function CountBefore(p: Edge, j: nat): int
    requires j <= |p.children|
  {
    if j == 0 then 0 else CountBefore(p, j - 1) + p.children[j - 1].count
  }

  /**
   * The sibling loop of `createTarget` (Tree.ts:832-836): from the preceding
   * sibling down to the first, each one's cached count is added to the index.
   */
  method AddPreceding(p: Edge, j: nat, start: int) returns (index: int)
    requires j <= |p.children|
    ensures index == start + CountBefore(p, j)
  {
    index := start;
    var i := j;
    while i > 0
      invariant 0 <= i <= j
      invariant index == start + CountBefore(p, j) - CountBefore(p, i)
    {
      i := i - 1;
      index := index + p.children[i].count;
    }
  }

  /**
   * `createTarget(edge, targetIndex)` for the edge at `path` below `root`,
   * inside the tree's own host element `element`: add the counts of the
   * preceding siblings, stop at a parent that owns a host node, otherwise go
   * on from the parent; at the root the tree element is the host parent.
   */
  function CreateTarget(root: Edge, path: seq<nat>, element: NodeId, index: int): (r: Target)
    requires ValidPath(root, path)
    decreases |path|
  {
    if |path| == 0 then Target(element, index)
    else
      var up := path[..|path| - 1];
      AtParent(root, path);
      var parent := At(root, up);
      var index' := index + CountBefore(parent, path[|path| - 1]);
      if parent.node.Some? then Target(parent.node.value, index')
      else CreateTarget(root, up, element, index')
  }

  /**
   * `createTarget` as Tree.ts writes it (lines 822-845): the sibling loop
   * `AddPreceding`, then a return at a parent with a host node or a call on
   * the parent. It computes `CreateTarget`, so on a consistent tree it finds
   * the host parent at the number of host nodes before the edge.
   */
  method CreateTargetWalk(root: Edge, path: seq<nat>, element: NodeId, index: int) returns (t: Target)
    requires ValidPath(root, path)
    ensures t == CreateTarget(root, path, element, index)
    ensures Consistent(root) ==> t == Target(HostParent(root, path, element), index + |Lead(root, path)|)
    decreases |path|
  {
    if Consistent(root) {
      CreateTargetPlaces(root, path, element, index);
    }
    if |path| == 0 {
      return Target(element, index);
    }
    var up := path[..|path| - 1];
    AtParent(root, path);
    var parent := At(root, up);
    var index' := AddPreceding(parent, path[|path| - 1], index);
    if parent.node.Some? {
      return Target(parent.node.value, index');
    }
    t := CreateTargetWalk(root, up, element, index');
  }

  /**
   * Every strict ancestor of the edge at `path`, from the root's child on
   * the path down to the edge's parent, owns no host node: the edge's host
   * nodes sit directly in the host parent `root` is placed in.
   */
  predicate NodeFree(root: Edge, path: seq<nat>)
    requires ValidPath(root, path)
    decreases |path|
  {
    |path| == 0 || (root.node.None? && NodeFree(root.children[path[0]], path[1..]))
  }

  /**
   * The host parent of the edge at `path`, stated top-down: the node of its
   * deepest strict ancestor that owns one, or `element` when none does.
   */
  function HostParent(root: Edge, path: seq<nat>, element: NodeId): NodeId
    requires ValidPath(root, path)
    decreases |path|
  {
    if |path| == 0 then element
    else HostParent(root.children[path[0]], path[1..], if root.node.Some? then root.node.value else element)
  }

  /**
   * The host nodes that precede the edge at `path` in its host parent,
   * stated top-down over the subtrees' footprints: at each level the
   * footprints of the earlier siblings, kept only while no ancestor below
   * owns a host node of its own.
   */
  function Lead(root: Edge, path: seq<nat>): seq<NodeId>
    requires ValidPath(root, path)
    decreases |path|
  {
    if |path| == 0 then []
    else
      var c := root.children[path[0]];
      if NodeFree(c, path[1..]) then ChildrenNodes(root, path[0]) + Lead(c, path[1..])
      else Lead(c, path[1..])
  }

  /** Node-freedom one level deeper: the extra ancestor must own no node either. */
  lemma {:induction false} NodeFreeLast(root: Edge, up: seq<nat>, j: nat)
    requires ValidPath(root, up + [j])
    ensures ValidPath(root, up) && j < |At(root, up).children|
    ensures NodeFree(root, up + [j]) == (NodeFree(root, up) && At(root, up).node.None?)
    decreases |up|
  {
    AtParent(root, up + [j]);
    assert (up + [j])[..|up|] == up;
    if |up| > 0 {
      assert (up + [j])[1..] == up[1..] + [j];
      NodeFreeLast(root.children[up[0]], up[1..], j);
    }
  }

  /** Lead and host parent one level deeper, read off at the bottom instead of the top. */
  lemma {:induction false} LeadLast(root: Edge, up: seq<nat>, j: nat, element: NodeId)
    requires ValidPath(root, up + [j])
    ensures ValidPath(root, up) && j < |At(root, up).children|
    ensures At(root, up).node.Some? ==>
              && Lead(root, up + [j]) == ChildrenNodes(At(root, up), j)
              && HostParent(root, up + [j], element) == At(root, up).node.value
    ensures At(root, up).node.None? ==>
              && Lead(root, up + [j]) == Lead(root, up) + ChildrenNodes(At(root, up), j)
              && HostParent(root, up + [j], element) == HostParent(root, up, element)
    decreases |up|
  {
    AtParent(root, up + [j]);
    assert (up + [j])[..|up|] == up;
    if |up| == 0 {
      assert up + [j] == [j];
      assert [j][1..] == [];
    } else {
      var c := root.children[up[0]];
      var element' := if root.node.Some? then root.node.value else element;
      assert (up + [j])[0] == up[0];
      assert (up + [j])[1..] == up[1..] + [j];
      LeadLast(c, up[1..], j, element');
      NodeFreeLast(c, up[1..], j);
    }
  }

  /** A sound parent's earlier children add up to their footprint. */
  lemma {:induction false} CountBeforeFootprint(p: Edge, j: nat)
    requires j <= |p.children| && forall i :: 0 <= i < |p.children| ==> Consistent(p.children[i])
    ensures CountBefore(p, j) == |ChildrenNodes(p, j)|
  {
    if j > 0 {
      CountBeforeFootprint(p, j - 1);
    }
  }

  lemma {:induction false} AtConsistent(root: Edge, path: seq<nat>)
    requires Consistent(root) && ValidPath(root, path)
    ensures Consistent(At(root, path))
    decreases |path|
  {
    if |path| > 0 {
      AtConsistent(root.children[path[0]], path[1..]);
    }
  }

  /**
   * On a consistent tree the rebuilt cursor is the edge's true place: its
   * host parent, at the number of host nodes that precede it there.
   */
  lemma {:induction false} CreateTargetPlaces(root: Edge, path: seq<nat>, element: NodeId, index: int)
    requires Consistent(root) && ValidPath(root, path)
    ensures CreateTarget(root, path, element, index) == Target(HostParent(root, path, element), index + |Lead(root, path)|)
    decreases |path|
  {
    if |path| > 0 {
      var up := path[..|path| - 1];
      var j := path[|path| - 1];
      assert path == up + [j];
      LeadLast(root, up, j, element);
      AtConsistent(root, up);
      CountBeforeFootprint(At(root, up), j);
      if At(root, up).node.None? {
        CreateTargetPlaces(root, up, element, index + CountBefore(At(root, up), j));
      }
    }
  }

  // ---- propagateTargetNodesCountDifference ---------------------------------

  /**
   * `propagateTargetNodesCountDifference(edge, difference)` for the edge at
   * `path`: climb to the parent; stop at the root or at a parent that owns a
   * host node; otherwise add the difference to the parent's count and go on
   * from the parent.
   */
  function Propagate(root: Edge, path: seq<nat>, difference: int): (r: Edge)
    requires ValidPath(root, path)
    ensures ValidPath(r, path) && At(r, path) == At(root, path)
    decreases |path|
  {
    if |path| == 0 then root
    else
      var up := path[..|path| - 1];
      AtParent(root, path);
      var parent := At(root, up);
      if parent.node.Some? then root
      else
        var root' := ReplaceAt(root, up, parent.(count := parent.count + difference));
        var r := Propagate(root', up, difference);
        assert ValidPath(r, path) && At(r, path) == At(root, path) by {
          assert path == up + [path[|path| - 1]];
          AtParent(root, path);
          AtExtend(r, up, path[|path| - 1]);
        }
        r
  }

  /** A child index below a valid path extends it. */
  lemma {:induction false} AtExtend(e: Edge, up: seq<nat>, j: nat)
    requires ValidPath(e, up) && j < |At(e, up).children|
    ensures ValidPath(e, up + [j]) && At(e, up + [j]) == At(e, up).children[j]
    decreases |up|
  {
    if |up| == 0 {
      assert up + [j] == [j];
      assert [j][1..] == [];
    } else {
      assert (up + [j])[0] == up[0];
      assert (up + [j])[1..] == up[1..] + [j];
      AtExtend(e.children[up[0]], up[1..], j);
    }
  }

  /**
   * The same walk stated top-down: every strict ancestor whose chain down to
   * the edge's parent owns no host node gains `difference`; nothing else
   * changes.
   */
  function Lift(root: Edge, path: seq<nat>, difference: int): (r: Edge)
    requires ValidPath(root, path)
    ensures ValidPath(r, path) && At(r, path) == At(root, path)
    ensures r.node == root.node && r.slot == root.slot && r.depth == root.depth
    ensures r.component == root.component && r.hookster == root.hookster && |r.children| == |root.children|
    decreases |path|
  {
    if |path| == 0 then root
    else
      var c := Lift(root.children[path[0]], path[1..], difference);
      var r := root.(children := root.children[path[0] := c]);
      if NodeFree(root, path) then r.(count := root.count + difference) else r
  }

  /** Propagation leaves the node of every strict ancestor as it was. */
  lemma {:induction false} NodeFreeReplace(root: Edge, path: seq<nat>, x: Edge)
    requires ValidPath(root, path)
    ensures ValidPath(ReplaceAt(root, path, x), path)
    ensures NodeFree(ReplaceAt(root, path, x), path) == NodeFree(root, path)
    decreases |path|
  {
    if |path| > 0 {
      NodeFreeReplace(root.children[path[0]], path[1..], x);
    }
  }

  /** The climb's first step, seen from the top: a parent with a host node stops it. */
  lemma {:induction false} LiftStops(root: Edge, up: seq<nat>, j: nat, difference: int)
    requires ValidPath(root, up + [j])
    ensures ValidPath(root, up)
    ensures At(root, up).node.Some? ==> Lift(root, up + [j], difference) == root
    decreases |up|
  {
    AtParent(root, up + [j]);
    assert (up + [j])[..|up|] == up;
    NodeFreeLast(root, up, j);
    if |up| == 0 {
      assert up + [j] == [j];
      assert [j][1..] == [];
      assert root.children[j := root.children[j]] == root.children;
    } else {
      var i := up[0];
      var c := root.children[i];
      assert (up + [j])[0] == i;
      assert (up + [j])[1..] == up[1..] + [j];
      LiftStops(c, up[1..], j, difference);
      assert root.children[i := c] == root.children;
    }
  }

  /** The climb's first step, seen from the top: a parent without one gains the difference and the climb goes on. */
  lemma {:induction false} LiftGoes(root: Edge, up: seq<nat>, j: nat, difference: int)
    requires ValidPath(root, up + [j])
    ensures ValidPath(root, up)
    ensures At(root, up).node.None? ==>
              Lift(root, up + [j], difference)
              == Lift(ReplaceAt(root, up, At(root, up).(count := At(root, up).count + difference)), up, difference)
    decreases |up|
  {
    AtParent(root, up + [j]);
    assert (up + [j])[..|up|] == up;
    NodeFreeLast(root, up, j);
    var p := At(root, up);
    if p.node.None? {
      if |up| == 0 {
        assert up + [j] == [j];
        LiftGoesTop(root, j, difference);
      } else {
        assert (up + [j])[1..] == up[1..] + [j];
        LiftGoes(root.children[up[0]], up[1..], j, difference);
        LiftGoesStep(root, up, j, difference);
      }
    }
  }

  /** One level of `LiftGoes`, given the level below. */
  lemma LiftGoesStep(root: Edge, up: seq<nat>, j: nat, difference: int)
    requires |up| > 0 && ValidPath(root, up + [j]) && ValidPath(root, up) && At(root, up).node.None?
    requires NodeFree(root, up + [j]) == NodeFree(root, up)
    requires var c := root.children[up[0]];
             var p := At(root, up);
             && ValidPath(c, up[1..]) && At(c, up[1..]) == p
             && ValidPath(c, up[1..] + [j])
             && Lift(c, up[1..] + [j], difference) == Lift(ReplaceAt(c, up[1..], p.(count := p.count + difference)), up[1..], difference)
    ensures Lift(root, up + [j], difference)
            == Lift(ReplaceAt(root, up, At(root, up).(count := At(root, up).count + difference)), up, difference)
  {
    var i := up[0];
    var c := root.children[i];
    var p := At(root, up);
    assert (up + [j])[0] == i;
    assert (up + [j])[1..] == up[1..] + [j];
    var p' := p.(count := p.count + difference);
    NodeFreeReplace(root, up, p');
    var root' := ReplaceAt(root, up, p');
    assert root'.children[i] == ReplaceAt(c, up[1..], p');
    var c' := Lift(c, up[1..] + [j], difference);
    assert c' == Lift(root'.children[i], up[1..], difference);
    assert root'.children[i := c'] == root.children[i := c'];
  }

  lemma LiftGoesTop(root: Edge, j: nat, difference: int)
    requires j < |root.children| && root.node.None?
    ensures ValidPath(root, [j])
    ensures Lift(root, [j], difference) == root.(count := root.count + difference)
  {
    assert [j][1..] == [];
    assert NodeFree(root, [j]);
    assert Lift(root.children[j], [], difference) == root.children[j];
    assert root.children[j := root.children[j]] == root.children;
  }

  /** The bottom-up climb of the source and the top-down description agree. */
  lemma {:induction false} PropagateIsLift(root: Edge, path: seq<nat>, difference: int)
    requires ValidPath(root, path)
    ensures Propagate(root, path, difference) == Lift(root, path, difference)
    decreases |path|
  {
    if |path| > 0 {
      var up := path[..|path| - 1];
      var j := path[|path| - 1];
      assert path == up + [j];
      LiftStops(root, up, j, difference);
      LiftGoes(root, up, j, difference);
      var p := At(root, up);
      if p.node.None? {
        PropagateIsLift(ReplaceAt(root, up, p.(count := p.count + difference)), up, difference);
      }
    }
  }

  /** Swapping child `i` changes the footprint of the first `k` children by the size difference, once `i < k`. */
  lemma {:induction false} ChildSwapFootprint(e: Edge, f: Edge, i: nat, c: Edge, k: nat)
    requires i < |e.children| && k <= |e.children| && f.children == e.children[i := c]
    ensures |ChildrenNodes(f, k)| == |ChildrenNodes(e, k)| + (if i < k then |TopNodes(c)| - |TopNodes(e.children[i])| else 0)
  {
    if k > 0 {
      ChildSwapFootprint(e, f, i, c, k - 1);
    }
  }

  /**
   * After a re-render replaces a subtree, propagating its count difference
   * makes the whole tree consistent again: every ancestor whose footprint
   * grew or shrank is exactly the one the walk adjusted.
   */
  lemma {:induction false} ReattachSound(root: Edge, path: seq<nat>, sub: Edge)
    requires Sound(root) && ValidPath(root, path) && Sound(sub)
    ensures var r := Lift(ReplaceAt(root, path, sub), path, sub.count - At(root, path).count);
            && Sound(r)
            && |TopNodes(r)| == |TopNodes(root)| + (if NodeFree(root, path) then sub.count - At(root, path).count else 0)
    decreases |path|
  {
    var d := sub.count - At(root, path).count;
    if |path| > 0 {
      var i := path[0];
      var c := root.children[i];
      var replaced := ReplaceAt(root, path, sub);
      assert replaced.children[i] == ReplaceAt(c, path[1..], sub);
      ReattachSound(c, path[1..], sub);
      var c' := Lift(ReplaceAt(c, path[1..], sub), path[1..], d);
      NodeFreeReplace(root, path, sub);
      var r := Lift(replaced, path, d);
      assert r.children == root.children[i := c'];
      ChildSwapFootprint(root, r, i, c', |root.children|);
      SoundIntro(r);
    }
  }
}

=== FILE: edges.dfy ===
/**
 * The reconciler's node record (Edge.ts, with the fields Tree.ts uses) and
 * the host-node footprint of a subtree that its cached count stands for.
 * Edges form an immutable rose tree; a parent is the path prefix of a child.
 */
module Edges {
  import opened Wrappers
  import opened Slots
  import opened Targets

  /** Identity of a live class component or hook runtime. */
  type OwnerId = nat

  datatype Edge = Edge(
    slot: Child,
    depth: nat,
    children: seq<Edge>,
    node: Option<NodeId>,
    component: Option<OwnerId>,
    hookster: Option<OwnerId>,
    count: int)

  /** The component or hook runtime the edge owns, if any (the identity the update queue holds). */
  function OwnerOf(e: Edge): Option<OwnerId> {
    if e.component.Some? then e.component else e.hookster
  }

  /** The host nodes the first `k` children contribute to their host parent, in order. */
  function ChildrenNodes(e: Edge, k: nat): seq<NodeId>
    requires k <= |e.children|
    decreases e, 0, k
  {
    if k == 0 then [] else ChildrenNodes(e, k - 1) + TopNodes(e.children[k - 1])
  }

  /**
   * The host nodes this edge's subtree places into its host parent: its own
   * node if it has one (descendants live inside it), otherwise its children's.
   */
  function TopNodes(e: Edge): seq<NodeId>
    decreases e, 1
  {
    if e.node.Some? then [e.node.value] else ChildrenNodes(e, |e.children|)
  }

  /** The cached count of every edge in the subtree equals the size of its footprint. */
  predicate Consistent(e: Edge)
    decreases e
  {
    && e.count == |TopNodes(e)|
    && forall i :: 0 <= i < |e.children| ==> Consistent(e.children[i])
  }

  /**
   * The structural invariant renders keep: only element and text edges own
   * a host node, ignorable and text edges have no children, only class
   * edges own a component and only function edges a hook runtime.
   */
  predicate Shaped(e: Edge)
    decreases e
  {
    && (e.node.Some? ==> IsElement(e.slot) || e.slot.Text?)
    && (e.slot.Ignored? || e.slot.Text? ==> e.children == [])
    && (e.component.Some? ==> IsClass(e.slot))
    && (e.hookster.Some? ==> IsFunction(e.slot))
    && forall i :: 0 <= i < |e.children| ==> Shaped(e.children[i])
  }

  /**
   * `new Edge(slot, depth)`: no children, node, component or hook runtime,
   * hence an empty footprint the cached count 0 already describes.
   */
  function NewEdge(slot: Child, depth: nat): (e: Edge)
    ensures e.slot == slot && e.depth == depth
    ensures TopNodes(e) == [] && Consistent(e) && Shaped(e)
    ensures OwnerOf(e).None?
  {
    Edge(slot, depth, [], None, None, None, 0)
  }

  /** The footprint of the first `k` children depends only on those children. */
  lemma {:induction false} ChildrenNodesPrefix(e: Edge, f: Edge, k: nat)
    requires k <= |e.children| && k <= |f.children| && e.children[..k] == f.children[..k]
    ensures ChildrenNodes(e, k) == ChildrenNodes(f, k)
  {
    if k > 0 {
      assert e.children[k - 1] == e.children[..k][k - 1] == f.children[k - 1];
      assert e.children[..k - 1] == e.children[..k][..k - 1];
      assert f.children[..k - 1] == f.children[..k][..k - 1];
      ChildrenNodesPrefix(e, f, k - 1);
    }
  }

  /** Two edges with the same host node and children have the same footprint. */
  lemma SameFootprint(e: Edge, f: Edge)
    requires e.node == f.node && e.children == f.children
    ensures TopNodes(e) == TopNodes(f)
  {
    ChildrenNodesPrefix(e, f, |e.children|);
  }

  /** The cached count and the structural invariant hold together. */
  predicate Sound(e: Edge) {
    Consistent(e) && Shaped(e)
  }

  /** Soundness one level at a time: sound children, a matching count and the local shape. */
  lemma SoundIntro(f: Edge)
    requires forall i :: 0 <= i < |f.children| ==> Sound(f.children[i])
    requires f.count == |TopNodes(f)|
    requires f.node.Some? ==> IsElement(f.slot) || f.slot.Text?
    requires f.slot.Ignored? || f.slot.Text? ==> f.children == []
    requires f.component.Some? ==> IsClass(f.slot)
    requires f.hookster.Some? ==> IsFunction(f.slot)
    ensures Sound(f)
  {
  }

  /**
   * Reusing an edge for a slot `isEqual` to its own keeps it sound: the
   * footprint does not depend on the slot, and equal slots have the same kind.
   */
  lemma SlotSwapSound(e: Edge, s: Child)
    requires Sound(e) && IsEqual(s, e.slot)
    ensures Sound(e.(slot := s))
  {
    ChildrenNodesPrefix(e, e.(slot := s), |e.children|);
  }

  /** The owners of the subtree in post-order: every child subtree, then the edge's own. */
  function ChildrenOwners(e: Edge, k: nat): seq<OwnerId>
    requires k <= |e.children|
    decreases e, 0, k
  {
    if k == 0 then [] else ChildrenOwners(e, k - 1) + PostOrder(e.children[k - 1])
  }

  function OwnList(e: Edge): seq<OwnerId> {
    (if e.component.Some? then [e.component.value] else [])
    + (if e.hookster.Some? then [e.hookster.value] else [])
  }

  function PostOrder(e: Edge): seq<OwnerId>
    decreases e, 1
  {
    ChildrenOwners(e, |e.children|) + OwnList(e)
  }

  /** Every host node some edge of the subtree owns. */
  function AllNodes(e: Edge): set<NodeId>
    decreases e
  {
    (if e.node.Some? then {e.node.value} else {})
    + set i, n | 0 <= i < |e.children| && n in AllNodes(e.children[i]) :: n
  }

  // ---- paths -----------------------------------------------------------

  /** A path of child indices from `e` down to one of its descendants. */
  predicate ValidPath(e: Edge, path: seq<nat>)
    decreases |path|
  {
    |path| == 0 || (path[0] < |e.children| && ValidPath(e.children[path[0]], path[1..]))
  }

  function At(e: Edge, path: seq<nat>): Edge
    requires ValidPath(e, path)
    decreases |path|
  {
    if |path| == 0 then e else At(e.children[path[0]], path[1..])
  }

  /** `e` with the descendant at `path` replaced by `sub`. */
  function ReplaceAt(e: Edge, path: seq<nat>, sub: Edge): (r: Edge)
    requires ValidPath(e, path)
    ensures ValidPath(r, path) && At(r, path) == sub
    ensures |path| > 0 ==> |r.children| == |e.children|
    decreases |path|
  {
    if |path| == 0 then sub
    else e.(children := e.children[path[0] := ReplaceAt(e.children[path[0]], path[1..], sub)])
  }

  lemma {:induction false} AtPrefix(e: Edge, path: seq<nat>, m: nat)
    requires ValidPath(e, path) && m <= |path|
    ensures ValidPath(e, path[..m]) && ValidPath(At(e, path[..m]), path[m..])
    ensures At(At(e, path[..m]), path[m..]) == At(e, path)
    decreases |path|
  {
    if m > 0 {
      assert path[..m][1..] == path[1..][..m - 1];
      assert path[m..] == path[1..][m - 1..];
      AtPrefix(e.children[path[0]], path[1..], m - 1);
    }
  }

  lemma {:induction false} AtParent(e: Edge, path: seq<nat>)
    requires ValidPath(e, path) && |path| > 0
    ensures ValidPath(e, path[..|path| - 1])
    ensures path[|path| - 1] < |At(e, path[..|path| - 1]).children|
    ensures At(e, path) == At(e, path[..|path| - 1]).children[path[|path| - 1]]
  {
    AtPrefix(e, path, |path| - 1);
    var p := At(e, path[..|path| - 1]);
    assert path[|path| - 1..] == [path[|path| - 1]];
    assert [path[|path| - 1]][1..] == [];
  }
}

=== FILE: legacy.dfy ===
/**
 * The legacy reconciler of Tree.js. It reuses the `Edge` record of the
 * current engine. In Tree.js terms, `slot` is the edge's node, `node` is its
 * DOM node and `component` its component; hook runtimes and cached counts do
 * not exist there. The insertion point is not kept in cached counts: it is
 * found again on every rerender by scanning the live edges
 * (`findTargetIndex` / `findDomNodeIndex`).
 */
module Legacy {
  import opened Wrappers
  import opened Seqs
  import opened Slots
  import opened Targets
  import opened Edges
  import opened Patch
  import opened Scheduler
  import opened Worlds
  import opened Teardown
  import opened Matching
  import opened Accounting

  // ---- isEqual and the two matching loops of renderChildren ---------------

  /**
   * Tree.js `isEqual(edge, currentEdge)` on the two edges' nodes: nodes of
   * the same type and key, two ignorable values, or two text values.
   */
  function LegacyIsEqual(node: Child, currentNode: Child): (r: bool)
    ensures r <==> IdentityOf(node) == IdentityOf(currentNode)
    ensures r == IsEqual(node, currentNode)
  {
    if node.SlotChild? then
      if !currentNode.SlotChild? then false
      else node.slot.contentType == currentNode.slot.contentType && node.slot.key == currentNode.slot.key
    else if node.Ignored? then currentNode.Ignored?
    else !currentNode.Ignored? && !currentNode.SlotChild?
  }

  /**
   * The partner `x` at position `i` finds among `others` (Tree.js:187-205
   * for a previous child, 225-243 for a new one): a keyed node first scans
   * for an equal node; when that finds nothing, or the node has no key, the
   * node at the same index is taken if it is equal.
   */
  function Pair(x: Child, i: nat, others: seq<Child>): (r: Option<nat>)
    ensures r.Some? ==> r.value < |others| && IsEqual(x, others[r.value])
    ensures r.None? <==>
              && (IsKeyed(x) ==> forall j :: 0 <= j < |others| ==> !IsEqual(x, others[j]))
              && !(i < |others| && IsEqual(x, others[i]))
    ensures IsKeyed(x) && r.Some? ==> forall j :: 0 <= j < r.value ==> !IsEqual(x, others[j])
    ensures !IsKeyed(x) ==> (r.Some? <==> i < |others| && IsEqual(x, others[i])) && (r.Some? ==> r.value == i)
  {
    var scanned := if IsKeyed(x) then ScanFrom(x, others, 0) else None;
    if scanned.Some? then scanned
    else if i < |others| && LegacyIsEqual(x, others[i]) then Some(i)
    else None
  }

  /**
   * The positional fallback Tree.js adds for keyed nodes never changes the
   * outcome: a keyed node equal to the node at its own index is found by the
   * key scan already. The legacy pairing is the current engine's matching.
   */
  lemma PairIsMatchOne(x: Child, i: nat, others: seq<Child>)
    ensures Pair(x, i, others) == MatchOne(x, i, others)
  {
  }

  /** The previous children, from position `j` on, that the unmount loop tears down, in order. */
  function UnmountsFrom(slots: seq<Child>, prevSlots: seq<Child>, j: nat): (r: seq<nat>)
    requires j <= |prevSlots|
    ensures forall x :: x in r <==> j <= x < |prevSlots| && Pair(prevSlots[x], x, slots).None?
    ensures forall a, b :: 0 <= a < b < |r| ==> r[a] < r[b]
    ensures forall a :: 0 <= a < |r| ==> j <= r[a]
    decreases |prevSlots| - j
  {
    if j == |prevSlots| then []
    else if Pair(prevSlots[j], j, slots).None? then [j] + UnmountsFrom(slots, prevSlots, j + 1)
    else UnmountsFrom(slots, prevSlots, j + 1)
  }

  /** The unmount loop of Tree.js `renderChildren` (lines 178-212). */
  function Unmounts(slots: seq<Child>, prevSlots: seq<Child>): (r: seq<nat>)
    ensures forall x :: x in r <==> 0 <= x < |prevSlots| && Pair(prevSlots[x], x, slots).None?
  {
    UnmountsFrom(slots, prevSlots, 0)
  }

  /** A child of the render loop: its node, the previous child it is rendered against, and its depth index. */
  datatype Job = Job(slot: Child, prev: Option<nat>, depthIndex: int)

  /**
   * The render loop of Tree.js `renderChildren` (lines 216-256): every new
   * child is paired with a previous child by the key-then-position rule and
   * rendered one level deeper.
   */
  function RenderJobs(slots: seq<Child>, prevSlots: seq<Child>, depthIndex: int): (r: seq<Job>)
    ensures |r| == |slots|
    ensures forall i :: 0 <= i < |r| ==>
              && r[i].slot == slots[i] && r[i].depthIndex == depthIndex + 1
              && r[i].prev == MatchOne(slots[i], i, prevSlots)
  {
    PairsAreMatches(slots, prevSlots);
    seq(|slots|, i requires 0 <= i < |slots| => Job(slots[i], Pair(slots[i], i, prevSlots), depthIndex + 1))
  }

  lemma PairsAreMatches(slots: seq<Child>, prevSlots: seq<Child>)
    ensures forall i :: 0 <= i < |slots| ==> Pair(slots[i], i, prevSlots) == MatchOne(slots[i], i, prevSlots)
  {
    forall i | 0 <= i < |slots| {
      PairIsMatchOne(slots[i], i, prevSlots);
    }
  }

  /**
   * The two loops agree one way for any input: a previous child the unmount
   * loop tears down is never the partner of a new child.
   */
  lemma UnmountedNeverReused(slots: seq<Child>, prevSlots: seq<Child>, j: nat, i: nat)
    requires j < |prevSlots| && i < |slots| && Pair(prevSlots[j], j, slots).None?
    ensures Pair(slots[i], i, prevSlots) != Some(j)
  {
  }

  /**
   * And the other way when the previous siblings' keys are unique: a previous
   * child the unmount loop keeps is the partner of some new child.
   */
  lemma KeptIsReused(slots: seq<Child>, prevSlots: seq<Child>, j: nat)
    requires DistinctKeys(prevSlots)
    requires j < |prevSlots| && Pair(prevSlots[j], j, slots).Some?
    ensures exists i :: 0 <= i < |slots| && Pair(slots[i], i, prevSlots) == Some(j)
  {
    var i := Pair(prevSlots[j], j, slots).value;
    assert IsEqual(slots[i], prevSlots[j]);
    if IsKeyed(prevSlots[j]) {
      var p := Pair(slots[i], i, prevSlots);
      assert IsKeyed(slots[i]);
      assert p.Some? && p.value <= j;
      if p.value < j {
        assert IsKeyed(prevSlots[p.value]) && IsEqual(prevSlots[p.value], prevSlots[j]);
        assert false;
      }
    } else {
      assert i == j && !IsKeyed(slots[i]);
    }
  }

  /**
   * With unique previous keys, the legacy unmount loop tears down exactly
   * the previous children the current engine's matching leaves unused.
   */
  lemma UnmountsAreUnmatched(slots: seq<Child>, prevSlots: seq<Child>)
    requires DistinctKeys(prevSlots)
    ensures forall j :: j in Unmounts(slots, prevSlots) <==> j in Unmatched(Match(slots, prevSlots), |prevSlots|)
  {
    var m := Match(slots, prevSlots);
    PairsAreMatches(slots, prevSlots);
    forall j | 0 <= j < |prevSlots|
      ensures j in Unmounts(slots, prevSlots) <==> Some(j) !in m
    {
      if Pair(prevSlots[j], j, slots).None? {
        forall i | 0 <= i < |slots| ensures m[i] != Some(j) {
          UnmountedNeverReused(slots, prevSlots, j, i);
        }
      } else {
        KeptIsReused(slots, prevSlots, j);
        var i :| 0 <= i < |slots| && Pair(slots[i], i, prevSlots) == Some(j);
        assert m[i] == Some(j);
      }
    }
  }

  // ---- findDomNodeIndex / findTargetIndex --------------------------------

  /** The index just past the last node of `nodes` in `kids`, or 0 for no nodes. */
  function AfterLast(nodes: seq<NodeId>, kids: seq<NodeId>): int {
    if |nodes| == 0 then 0 else IndexOf(kids, nodes[|nodes| - 1]) + 1
  }

  /** The position in `kids` of the last node of `nodes`, or `None` for no nodes. */
  function LastIndex(nodes: seq<NodeId>, kids: seq<NodeId>): Option<int> {
    if |nodes| == 0 then None else Some(IndexOf(kids, nodes[|nodes| - 1]))
  }

  /**
   * Tree.js `findDomNodeIndex(edge, targetDomNode)`, with `kids` the
   * target's `childNodes`: the edge's own DOM node, or else the first hit
   * scanning its children last to first. That is the position of the last
   * host node the subtree places, or `None` when it places none (a node
   * missing from `kids` gives `indexOf`'s -1, which is not `null`).
   */
  function FindDomNodeIndex(e: Edge, kids: seq<NodeId>): (r: Option<int>)
    ensures r == LastIndex(TopNodes(e), kids)
    decreases e, 1
  {
    if e.node.Some? then Some(IndexOf(kids, e.node.value))
    else ScanBack(e, |e.children|, kids)
  }

  /** The loop over children `k-1` down to 0, stopping at the first that places a host node. */
  function ScanBack(e: Edge, k: nat, kids: seq<NodeId>): (r: Option<int>)
    requires k <= |e.children|
    ensures r == LastIndex(ChildrenNodes(e, k), kids)
    decreases e, 0, k
  {
    if k == 0 then None
    else
      var c := e.children[k - 1];
      assert ChildrenNodes(e, k) == ChildrenNodes(e, k - 1) + TopNodes(c);
      match FindDomNodeIndex(c, kids)
      case Some(j) => Some(j)
      case None => ScanBack(e, k - 1, kids)
  }

  /**
   * Tree.js `findTargetIndex(edge, targetDomNode)` for the edge at `path`:
   * 0 at the root; one past the last host node placed by an earlier
   * sibling; 0 when the parent's DOM node is the target; otherwise the
   * parent's own answer.
   */
  function FindTargetIndex(root: Edge, path: seq<nat>, target: NodeId, kids: seq<NodeId>): (r: int)
    requires ValidPath(root, path)
    ensures r == AfterLast(Preceding(root, path, target), kids)
    decreases |path|
  {
    if |path| == 0 then 0
    else
      AtParent(root, path);
      var up := path[..|path| - 1];
      var parent := At(root, up);
      var index := path[|path| - 1];
      var scanned := ScanBack(parent, index, kids);
      PrecedingStep(root, path, target, kids);
      if scanned.Some? then scanned.value + 1
      else if parent.node == Some(target) then 0
      else FindTargetIndex(root, up, target, kids)
  }

  /** One level of `Preceding`, read through `AfterLast`: the earlier siblings' nodes, if any, decide. */
  lemma PrecedingStep(root: Edge, path: seq<nat>, target: NodeId, kids: seq<NodeId>)
    requires ValidPath(root, path) && |path| > 0
    ensures ValidPath(root, path[..|path| - 1]) && path[|path| - 1] <= |At(root, path[..|path| - 1]).children|
    ensures var parent := At(root, path[..|path| - 1]);
            var before := ChildrenNodes(parent, path[|path| - 1]);
            AfterLast(Preceding(root, path, target), kids) ==
              if |before| > 0 then IndexOf(kids, before[|before| - 1]) + 1
              else if parent.node == Some(target) then 0
              else AfterLast(Preceding(root, path[..|path| - 1], target), kids)
  {
    AtParent(root, path);
    var up := path[..|path| - 1];
    var before := ChildrenNodes(At(root, up), path[|path| - 1]);
    if At(root, up).node != Some(target) && |before| == 0 {
      assert Preceding(root, up, target) + before == Preceding(root, up, target);
    }
  }

  /**
   * The host nodes that come before the edge at `path` in `target`: at each
   * level up, the nodes of the earlier siblings, until the ancestor whose
   * DOM node is `target` (or the root).
   */
  function Preceding(root: Edge, path: seq<nat>, target: NodeId): seq<NodeId>
    requires ValidPath(root, path)
    decreases |path|
  {
    if |path| == 0 then []
    else
      AtParent(root, path);
      var up := path[..|path| - 1];
      var parent := At(root, up);
      var before := ChildrenNodes(parent, path[|path| - 1]);
      if parent.node == Some(target) then before else Preceding(root, up, target) + before
  }

  /**
   * When `target` is the edge's host parent, the nodes the legacy scan
   * climbs over are the ones the current engine's cursor counts.
   */
  lemma {:induction false} PrecedingIsLead(root: Edge, path: seq<nat>, element: NodeId)
    requires ValidPath(root, path)
    ensures Preceding(root, path, HostParent(root, path, element)) == Lead(root, path)
    decreases |path|
  {
    if |path| > 0 {
      var up := path[..|path| - 1];
      var j := path[|path| - 1];
      assert path == up + [j];
      LeadLast(root, up, j, element);
      var target := HostParent(root, path, element);
      if At(root, up).node.None? {
        PrecedingIsLead(root, up, element);
      }
    }
  }

  /** In a sequence without repeats, a member's first position is its position. */
  lemma {:induction false} IndexOfNoDup(s: seq<NodeId>, i: nat)
    requires NoDup(s) && i < |s|
    ensures IndexOf(s, s[i]) == i
    decreases i
  {
    if i > 0 {
      assert NoDup(s[1..]) by {
        forall a, b | 0 <= a < b < |s[1..]| ensures s[1..][a] != s[1..][b] {
          assert s[1..][a] == s[a + 1] && s[1..][b] == s[b + 1];
        }
      }
      IndexOfNoDup(s[1..], i - 1);
      assert s[1..][i - 1] == s[i];
    }
  }

  /**
   * The two engines put a rerendered edge at the same place. On a tree whose
   * cached counts are consistent, when the host parent's children start
   * with the nodes rendered before the edge and repeat none, the legacy scan
   * of the live tree yields the index the current engine's `createTarget`
   * computes from counts.
   */
  lemma LegacyMatchesCounts(root: Edge, path: seq<nat>, element: NodeId, kids: seq<NodeId>)
    requires Consistent(root) && ValidPath(root, path)
    requires NoDup(kids) && Lead(root, path) <= kids
    ensures var t := CreateTarget(root, path, element, 0);
            FindTargetIndex(root, path, t.element, kids) == t.index
  {
    CreateTargetPlaces(root, path, element, 0);
    PrecedingIsLead(root, path, element);
    var lead := Lead(root, path);
    if |lead| > 0 {
      assert kids[|lead| - 1] == lead[|lead| - 1];
      IndexOfNoDup(kids, |lead| - 1);
    }
  }

  // ---- unmountEdge -------------------------------------------------------

  /** Tree.js `StackItem`: a queued component, the edge's place, its target and depth index. */
  datatype Item = Item(component: OwnerId, path: seq<nat>, target: Target, depthIndex: int)

  /** What the legacy reconciler changes besides its edges. */
  datatype State = State(host: Host, refs: Refs, stack: seq<Item>, log: seq<Event>)

  /** The components of a subtree, children first and in order, the edge's own last. */
  function Components(e: Edge): seq<OwnerId>
    decreases e, 1
  {
    ComponentsUpTo(e, |e.children|) + (if e.component.Some? then [e.component.value] else [])
  }

  function ComponentsUpTo(e: Edge, k: nat): seq<OwnerId>
    requires k <= |e.children|
    decreases e, 0, k
  {
    if k == 0 then [] else ComponentsUpTo(e, k - 1) + Components(e.children[k - 1])
  }

  /** Tree.js `unqueue(edge)`: every item whose edge has this component leaves the stack, the rest keep their order. */
  function DropComponent(stack: seq<Item>, component: OwnerId): (r: seq<Item>)
    ensures forall x :: x in r <==> x in stack && x.component != component
    ensures (forall x :: x in stack ==> x.component != component) ==> r == stack
    decreases |stack|
  {
    if |stack| == 0 then []
    else if stack[0].component == component then DropComponent(stack[1..], component)
    else
      assert stack == [stack[0]] + stack[1..];
      [stack[0]] + DropComponent(stack[1..], component)
  }

  /** Unqueueing a component undoes every `queue` of it and nothing else. */
  lemma {:induction false} DropAfterQueue(stack: seq<Item>, item: Item)
    ensures DropComponent(Queue(stack, item), item.component) == DropComponent(stack, item.component)
    decreases |stack|
  {
    if |stack| == 0 {
      assert Queue(stack, item) == [item];
      assert [item][1..] == [];
    } else {
      assert Queue(stack, item)[1..] == Queue(stack[1..], item);
      DropAfterQueue(stack[1..], item);
    }
  }

  /** Going from `before` to `after`, the stack lost exactly the items of the components `gone`. */
  ghost predicate ItemsDropped(before: seq<Item>, after: seq<Item>, gone: seq<OwnerId>) {
    forall x :: x in after <==> x in before && x.component !in gone
  }

  lemma ItemsDroppedStep(s0: seq<Item>, s1: seq<Item>, s2: seq<Item>, a: seq<OwnerId>, b: seq<OwnerId>)
    requires ItemsDropped(s0, s1, a) && ItemsDropped(s1, s2, b)
    ensures ItemsDropped(s0, s2, a + b)
  {
  }

  /**
   * The host effect of a teardown through a possibly null target: with no
   * target nothing moves; otherwise exactly the nodes `gone` leave the
   * target's element and every other host node keeps its children.
   */
  ghost predicate Removed(before: Host, after: Host, target: Option<Target>, gone: seq<NodeId>) {
    if target.None? then after == before
    else
      && Lost(before, after, target.value.element, gone)
      && forall p :: p != target.value.element ==> Kids(after, p) == Kids(before, p)
  }

  lemma RemovedStep(h0: Host, h1: Host, h2: Host, target: Option<Target>, a: seq<NodeId>, b: seq<NodeId>)
    requires Removed(h0, h1, target, a) && Removed(h1, h2, target, b)
    ensures Removed(h0, h2, target, a + b)
  {
    if target.Some? {
      LostStep(h0, h1, h2, target.value.element, a, b);
    }
  }

  /**
   * Tree.js `unmountEdge(edge, target)` (lines 932-986): an edge with a DOM
   * node removes it from the target and hands its children a null target,
   * so only the topmost host nodes of the subtree are removed; the node's
   * ref is nulled; the children are torn down in order; the component is
   * unqueued and unmounted last.
   */
  function UnmountEdge(e: Edge, target: Option<Target>, s: State): (r: State)
    ensures r.log == s.log + TornDowns(Components(e))
    ensures ItemsDropped(s.stack, r.stack, Components(e))
    ensures Removed(s.host, r.host, target, TopNodes(e))
    ensures OnlyNulled(s.refs, r.refs)
    decreases e, 1
  {
    var s1 := RemoveOwnNode(e, target, s);
    var s2 := NullRef(e, s1);
    var s3 := UnmountChildren(e, |e.children|, Handed(e, target), s2);
    var r := UnmountOwnComponent(e, s3);
    TornDownsAppend(ComponentsUpTo(e, |e.children|), OwnComponent(e));
    ItemsDroppedStep(s.stack, s3.stack, r.stack, ComponentsUpTo(e, |e.children|), OwnComponent(e));
    UnmountHostStep(e, target, s.host, s1.host, r.host);
    r
  }

  /** The target the children are torn down through: none once the edge's own DOM node has been removed. */
  function Handed(e: Edge, target: Option<Target>): Option<Target> {
    if e.node.Some? && target.Some? then None else target
  }

  /** `target.remove(domNode)` when there are both a DOM node and a target. */
  function RemoveOwnNode(e: Edge, target: Option<Target>, s: State): (r: State)
    ensures r == s.(host := r.host)
    ensures e.node.Some? && target.Some? ==> r.host == Remove(s.host, target.value, e.node.value).host
    ensures !(e.node.Some? && target.Some?) ==> r == s
  {
    if e.node.Some? && target.Some? then s.(host := Remove(s.host, target.value, e.node.value).host) else s
  }

  /** `ref.setValue(null)` for the node's `Ref`, if it has one. */
  function NullRef(e: Edge, s: State): (r: State)
    ensures r == s.(refs := r.refs)
    ensures OnlyNulled(s.refs, r.refs)
    ensures e.slot.SlotChild? && e.slot.slot.ref.Some? ==>
              e.slot.slot.ref.value in r.refs && r.refs[e.slot.slot.ref.value].None?
  {
    if e.slot.SlotChild? && e.slot.slot.ref.Some? then s.(refs := s.refs[e.slot.slot.ref.value := None]) else s
  }

  /** The edge's component, as a list of zero or one. */
  function OwnComponent(e: Edge): seq<OwnerId> {
    if e.component.Some? then [e.component.value] else []
  }

  /** `unqueue(edge)` and `triggerUnmount()` for the edge's component, if any. */
  function UnmountOwnComponent(e: Edge, s: State): (r: State)
    ensures r == s.(stack := r.stack, log := r.log)
    ensures r.log == s.log + TornDowns(OwnComponent(e))
    ensures ItemsDropped(s.stack, r.stack, OwnComponent(e))
  {
    if e.component.Some? then
      s.(stack := DropComponent(s.stack, e.component.value), log := s.log + [TornDown(e.component.value)])
    else s
  }

  /** The host bookkeeping of `UnmountEdge`, from the removal of its own node and the children's teardown. */
  lemma UnmountHostStep(e: Edge, target: Option<Target>, h0: Host, h1: Host, h2: Host)
    requires e.node.Some? && target.Some? ==> h1 == Remove(h0, target.value, e.node.value).host
    requires !(e.node.Some? && target.Some?) ==> h1 == h0
    requires Removed(h1, h2, Handed(e, target), ChildrenNodes(e, |e.children|))
    ensures Removed(h0, h2, target, TopNodes(e))
  {
    if target.Some? {
      var n := target.value.element;
      if e.node.Some? {
        WithoutIsMinus(Kids(h0, n), e.node.value);
        assert Elems([e.node.value]) == {e.node.value};
      } else {
        MinusNothing(Kids(h0, n));
        assert Elems([]) == {};
      }
    }
  }

  /** Tear down the first `k` children through the same target, in order. */
  function UnmountChildren(e: Edge, k: nat, target: Option<Target>, s: State): (r: State)
    requires k <= |e.children|
    ensures r.log == s.log + TornDowns(ComponentsUpTo(e, k))
    ensures ItemsDropped(s.stack, r.stack, ComponentsUpTo(e, k))
    ensures Removed(s.host, r.host, target, ChildrenNodes(e, k))
    ensures OnlyNulled(s.refs, r.refs)
    decreases e, 0, k
  {
    if k == 0 then
      RemovedNothing(s.host, target);
      s
    else
      var c := e.children[k - 1];
      var before := UnmountChildren(e, k - 1, target, s);
      var r := UnmountEdge(c, target, before);
      TornDownsAppend(ComponentsUpTo(e, k - 1), Components(c));
      ItemsDroppedStep(s.stack, before.stack, r.stack, ComponentsUpTo(e, k - 1), Components(c));
      RemovedStep(s.host, before.host, r.host, target, ChildrenNodes(e, k - 1), TopNodes(c));
      r
  }

  lemma RemovedNothing(h: Host, target: Option<Target>)
    ensures Removed(h, h, target, [])
  {
    if target.Some? {
      MinusNothing(Kids(h, target.value.element));
      assert Elems([]) == {};
    }
  }

  // ---- the tree: mount, unmount, rerender --------------------------------

  /** The root edge, the state, and the DOM node the tree renders into (`this.domNode`). */
  datatype LegacyTree = LegacyTree(root: Option<Edge>, state: State, element: NodeId)

  /**
   * Tree.js `unmount()` (lines 49-73): a no-op without a root; otherwise the
   * root is torn down from a fresh target on the tree's node, and root and
   * stack are cleared.
   */
  function LegacyUnmount(tr: LegacyTree): (r: LegacyTree)
    ensures r.root.None? && r.element == tr.element
    ensures tr.root.None? ==> r == tr
    ensures tr.root.Some? ==>
              && r.state.stack == []
              && r.state.log == tr.state.log + TornDowns(Components(tr.root.value))
              && Removed(tr.state.host, r.state.host, Some(NewTarget(tr.element)), TopNodes(tr.root.value))
  {
    if tr.root.None? then tr
    else
      var s := UnmountEdge(tr.root.value, Some(NewTarget(tr.element)), tr.state);
      LegacyTree(None, s.(stack := []), tr.element)
  }

  /**
   * Tree.js `mount(node)` (lines 24-48) up to its render call: any previous
   * root is unmounted first, then a new root edge for `node` is rendered with
   * no previous edge, from index 0 of the tree's node, at depth index 0.
   */
  function LegacyMount(tr: LegacyTree, node: Child): (r: (LegacyTree, Job, Target))
    ensures r.0.element == tr.element && r.0.root.Some?
    ensures r.0.root.value.slot == node && r.0.root.value.children == [] && r.0.root.value.node.None?
    ensures r.0.root.value.component.None?
    ensures r.0.state == (if tr.root.Some? then LegacyUnmount(tr) else tr).state
    ensures r.1 == Job(node, None, 0) && r.2 == Target(tr.element, 0)
  {
    var cleared := if tr.root.Some? then LegacyUnmount(tr) else tr;
    (cleared.(root := Some(NewEdge(node, 0))), Job(node, None, 0), NewTarget(tr.element))
  }

  /** Tree.js `queue(edge, target, depthIndex)`: push a new item. */
  function LegacyQueue(tr: LegacyTree, item: Item): (r: LegacyTree)
    ensures r.root == tr.root && r.element == tr.element
    ensures r.state == tr.state.(stack := r.state.stack)
    ensures |r.state.stack| == |tr.state.stack| + 1 && r.state.stack[..|tr.state.stack|] == tr.state.stack
    ensures r.state.stack[|tr.state.stack|] == item
  {
    tr.(state := tr.state.(stack := Queue(tr.state.stack, item)))
  }

  /** What one `rerender()` call renders next. */
  datatype Plan =
    | Idle
    | Rerender(item: Item, target: Target)
    /** The item's edge is no longer in the tree (not a state `unqueue` lets arise). */
    | Detached(item: Item)

  function DepthIndexOf(): Item -> int {
    (x: Item) => x.depthIndex
  }

  /**
   * Tree.js `rerender()` (lines 99-145) up to its render call: sort the
   * stack ascending by depth index (stably), take its first item, and
   * rebuild its target by `findTargetIndex` over the target node's current
   * children. The item is not popped: rendering the component unqueues it.
   */
  function RerenderPlan(tr: LegacyTree): (r: (seq<Item>, Plan))
    ensures |tr.state.stack| == 0 <==> r.1.Idle?
    ensures multiset(r.0) == multiset(tr.state.stack) && SortedBy(r.0, DepthIndexOf())
    ensures !r.1.Idle? ==>
              && r.1.item == r.0[0] && r.1.item in tr.state.stack
              && forall x :: x in tr.state.stack ==> r.1.item.depthIndex <= x.depthIndex
    ensures !r.1.Idle? ==> r.1.item == tr.state.stack[Shallowest(tr.state.stack, DepthIndexOf())]
    ensures r.1.Rerender? ==>
              && tr.root.Some? && ValidPath(tr.root.value, r.1.item.path)
              && r.1.target.element == r.1.item.target.element
              && r.1.target.index == AfterLast(Preceding(tr.root.value, r.1.item.path, r.1.target.element),
                                               Kids(tr.state.host, r.1.target.element))
    ensures r.1.Detached? ==> tr.root.None? || !ValidPath(tr.root.value, r.1.item.path)
  {
    var sorted := SortByDepth(tr.state.stack, DepthIndexOf());
    if |sorted| == 0 then (sorted, Idle)
    else
      var item := sorted[0];
      FirstIsShallowest(tr.state.stack, sorted);
      if tr.root.Some? && ValidPath(tr.root.value, item.path) then
        (sorted, Rerender(item, RebuiltTarget(tr.root.value, item.path, item.target.element, tr.state.host)))
      else (sorted, Detached(item))
  }

  /** The head of a sorted permutation of the stack is one of its shallowest items. */
  lemma FirstIsShallowest(stack: seq<Item>, sorted: seq<Item>)
    requires |sorted| > 0 && multiset(sorted) == multiset(stack) && SortedBy(sorted, DepthIndexOf())
    ensures sorted[0] in stack
    ensures forall x :: x in stack ==> sorted[0].depthIndex <= x.depthIndex
  {
    assert sorted[0] in multiset(sorted);
    forall x | x in stack ensures sorted[0].depthIndex <= x.depthIndex {
      assert x in multiset(sorted);
      var k :| 0 <= k < |sorted| && sorted[k] == x;
      if k > 0 {
        assert DepthIndexOf()(sorted[0]) <= DepthIndexOf()(sorted[k]);
      }
    }
  }

  /** The target `rerender` rebuilds for the edge at `path`: `new Target(targetDomNode, findTargetIndex(...))`. */
  function RebuiltTarget(root: Edge, path: seq<nat>, element: NodeId, host: Host): (t: Target)
    requires ValidPath(root, path)
    ensures t.element == element
    ensures t.index == AfterLast(Preceding(root, path, element), Kids(host, element))
  {
    Target(element, FindTargetIndex(root, path, element, Kids(host, element)))
  }

  // ---- the worked examples of the doc comments ---------------------------

  function Box(cs: seq<Edge>): Edge {
    Edge(SlotChild(Slot(NullType, None, None, [], [])), 0, cs, None, None, None, 0)
  }

  function Leaf(n: NodeId): Edge {
    Edge(Text("text"), 0, [], Some(n), None, None, 1)
  }

  /** The example tree of `findDomNodeIndex`: nodes y = 2, z = 3, t = 4 inside x = 1. */
  lemma FindDomNodeIndexExample()
    ensures var aa := Box([Leaf(2)]);
            var ab := Box([Leaf(3), Box([Leaf(4)])]);
            var ac := Box([Box([])]);
            && FindDomNodeIndex(aa, [2, 3, 4]) == Some(0)
            && FindDomNodeIndex(ab, [2, 3, 4]) == Some(2)
            && FindDomNodeIndex(ac, [2, 3, 4]).None?
  {
    var ab := Box([Leaf(3), Box([Leaf(4)])]);
    assert TopNodes(ab.children[1]) == [4];
    assert ChildrenNodes(ab, 2) == [3, 4];
  }

  /** "Tree 1" of `findTargetIndex`: A holds AA, AB, AC, each holding one text node of x = 1. */
  function TreeOne(): Edge {
    Box([Box([Leaf(2)]), Box([Leaf(3)]), Box([Leaf(4)])])
  }

  lemma FindTargetIndexTreeOneFirst()
    ensures FindTargetIndex(TreeOne(), [], 1, [2, 3, 4]) == 0
    ensures FindTargetIndex(TreeOne(), [0], 1, [2, 3, 4]) == 0
  {
    assert [0][..0] == [];
    assert Preceding(TreeOne(), [0], 1) == ChildrenNodes(TreeOne(), 0) == [];
  }

  lemma FindTargetIndexTreeOneSecond()
    ensures FindTargetIndex(TreeOne(), [1], 1, [2, 3, 4]) == 1
  {
    var a := TreeOne();
    assert [1][..0] == [];
    assert TopNodes(a.children[0]) == [2];
    assert Preceding(a, [1], 1) == ChildrenNodes(a, 1) == [2];
  }

  lemma FindTargetIndexTreeOneThird()
    ensures FindTargetIndex(TreeOne(), [2], 1, [2, 3, 4]) == 2
  {
    var a := TreeOne();
    assert [2][..0] == [];
    assert TopNodes(a.children[0]) == [2] && TopNodes(a.children[1]) == [3];
    assert ChildrenNodes(a, 1) == [2];
    assert Preceding(a, [2], 1) == ChildrenNodes(a, 2) == [2, 3];
  }

  /** "Tree 2": AA owns DOM node y = 2 and holds AAA, AAB, AAC, each holding one text node. */
  lemma FindTargetIndexTreeTwo()
    ensures var aa := Edge(SlotChild(Slot(ElementType("div"), None, None, [], [])), 0,
                           [Box([Leaf(3)]), Box([Leaf(4)]), Box([Leaf(5)])], Some(2), None, None, 1);
            var a := Box([aa]);
            var kids := [3, 4, 5];
            && FindTargetIndex(a, [0, 0], 2, kids) == 0
            && FindTargetIndex(a, [0, 1], 2, kids) == 1
            && FindTargetIndex(a, [0, 2], 2, kids) == 2
  {
    var aa := Edge(SlotChild(Slot(ElementType("div"), None, None, [], [])), 0,
                   [Box([Leaf(3)]), Box([Leaf(4)]), Box([Leaf(5)])], Some(2), None, None, 1);
    var a := Box([aa]);
    assert [0, 0][..1] == [0] && [0, 1][..1] == [0] && [0, 2][..1] == [0];
    assert At(a, [0]) == aa;
    assert ChildrenNodes(aa, 0) == [];
    assert ChildrenNodes(aa, 1) == [3];
    assert ChildrenNodes(aa, 2) == [3, 4];
  }
}

=== FILE: locations.dfy ===
/**
 * The pure decisions of the routers around the browser's location: the
 * normalised location path, whether an anchor click is intercepted (and
 * pushed onto the history) or left to the browser, and the `popstate`
 * registration flag of RouterHistory.js. The window's location and history
 * are parameters and results here.
 */
module Locations {
  import opened Wrappers

  // ---- getLocationPath ----------------------------------------------------

  /** `pathname.replace(/^\/|\/$/g, "")`: one leading and one trailing slash taken off. */
  function StripSlashes(pathname: string): (r: string)
    ensures |r| <= |pathname|
  {
    var rest := if |pathname| > 0 && pathname[0] == '/' then pathname[1..] else pathname;
    if |rest| > 0 && rest[|rest| - 1] == '/' then rest[..|rest| - 1] else rest
  }

  /**
   * `getLocationPath()` (RouterController.ts:80-82, Router.ts:99-101,
   * Router.js:61-63): a slash followed by the pathname with one leading
   * and one trailing slash removed.
   */
  function LocationPath(pathname: string): (r: string)
    ensures |r| > 0 && r[0] == '/' && r[1..] == StripSlashes(pathname)
  {
    "/" + StripSlashes(pathname)
  }

  /** The pathname `middle`, optionally with a slash before and after it. */
  function Wrap(middle: string, lead: bool, trail: bool): string {
    (if lead then "/" else "") + middle + (if trail then "/" else "")
  }

  /**
   * `LocationPath` undoes one optional slash on either side: any middle part
   * that does not itself start or end with a slash where none was added is
   * recovered exactly, behind a single slash.
   */
  lemma LocationPathUnwraps(middle: string, lead: bool, trail: bool)
    requires !lead && |middle| > 0 ==> middle[0] != '/'
    requires !trail && |middle| > 0 ==> middle[|middle| - 1] != '/'
    ensures LocationPath(Wrap(middle, lead, trail)) == "/" + middle
  {
    var p := Wrap(middle, lead, trail);
    var rest := if |p| > 0 && p[0] == '/' then p[1..] else p;
    if lead {
      assert rest == middle + (if trail then "/" else "");
    } else if |middle| == 0 && trail {
      assert p == "/" && rest == "";
    } else {
      assert rest == p;
    }
  }

  /** Only one slash goes at each end, and the bare and empty pathnames both give the root. */
  lemma LocationPathOneSlashOnly()
    ensures LocationPath("/a//") == "/a/"
    ensures LocationPath("/") == "/" && LocationPath("") == "/"
  {
    assert StripSlashes("/a//") == "a/" by {
      assert "/a//"[1..] == "a//";
      assert "a//"[..2] == "a/";
    }
    assert StripSlashes("/") == "" by {
      assert "/"[1..] == "";
    }
  }

  // ---- onClick --------------------------------------------------------------

  /** `url.split("#")[0]`: the URL before its first '#'. */
  function BeforeHash(url: string): (r: string)
    ensures r <= url && '#' !in r
    ensures '#' in url ==> |r| < |url| && url[|r|] == '#'
    ensures '#' !in url ==> r == url
    decreases |url|
  {
    if |url| == 0 then ""
    else if url[0] == '#' then ""
    else [url[0]] + BeforeHash(url[1..])
  }

  /** `url.includes("#")`. */
  predicate HasHash(url: string) {
    '#' in url
  }

  /** What the click handler sees of an anchor click. */
  datatype Click = Click(
    href: string,
    target: string,
    button: int,
    meta: bool,
    alt: bool,
    ctrl: bool,
    shift: bool)

  /** A click the router never intercepts: another browsing context, another button, or a modifier key. */
  predicate LeftToBrowser(c: Click) {
    !(c.target == "" || c.target == "_self") || c.button != 0 || c.meta || c.alt || c.ctrl || c.shift
  }

  /**
   * The handler's verdict: whether the browser goes on to handle the click
   * (`true` returned) and the URL pushed onto the history, if any.
   */
  datatype Handling = Handling(propagate: bool, pushed: Option<string>)

  /**
   * `onClick` of RouterController.ts (lines 244-295) and Router.ts (211-260):
   * foreign clicks are left alone; a different document (fragments
   * dropped) is pushed; so is a move off a fragment to a URL without one;
   * otherwise fragment links go to the browser and the rest is swallowed.
   */
  function OnClick(c: Click, location: string): (r: Handling)
    ensures r.pushed.Some? ==> r.pushed.value == c.href && !r.propagate
    ensures LeftToBrowser(c) ==> r == Handling(true, None)
    ensures !LeftToBrowser(c) && BeforeHash(location) != BeforeHash(c.href) ==> r.pushed.Some?
    ensures !LeftToBrowser(c) && BeforeHash(location) == BeforeHash(c.href) ==>
              (r.pushed.Some? <==> HasHash(location) && !HasHash(c.href))
    ensures r.pushed.None? ==> r.propagate == (LeftToBrowser(c) || HasHash(c.href))
  {
    if LeftToBrowser(c) then Handling(true, None)
    else if BeforeHash(location) != BeforeHash(c.href) then Handling(false, Some(c.href))
    else if HasHash(location) && !HasHash(c.href) then Handling(false, Some(c.href))
    else Handling(HasHash(c.href), None)
  }

  /**
   * Every plain click reaches its link: the router pushes `href`, or the
   * browser follows a fragment link, or the click is swallowed only because
   * the window is at `href` already.
   */
  lemma OnClickArrives(c: Click, location: string)
    requires !LeftToBrowser(c)
    ensures var r := OnClick(c, location);
            || r.pushed == Some(c.href)
            || (r.propagate && r.pushed.None? && HasHash(c.href))
            || (r == Handling(false, None) && location == c.href)
  {
    var r := OnClick(c, location);
    if r == Handling(false, None) {
      assert BeforeHash(location) == BeforeHash(c.href) && !HasHash(location) && !HasHash(c.href);
    }
  }

  /**
   * `onClick` of RouterHistory.js (lines 47-89): the same, without the rule
   * for leaving a fragment.
   */
  function OnClickLegacy(c: Click, location: string): (r: Handling)
    ensures r.pushed.Some? ==> r.pushed.value == c.href && !r.propagate
    ensures LeftToBrowser(c) ==> r == Handling(true, None)
    ensures !LeftToBrowser(c) ==> (r.pushed.Some? <==> BeforeHash(location) != BeforeHash(c.href))
    ensures r.pushed.None? ==> r.propagate == (LeftToBrowser(c) || HasHash(c.href))
  {
    var locationUrl := BeforeHash(location);
    var elementUrl := BeforeHash(c.href);
    if LeftToBrowser(c) then Handling(true, None)
    else if locationUrl != elementUrl then Handling(false, Some(c.href))
    else Handling(HasHash(c.href), None)
  }

  /** The two handlers differ only on a click from a fragment to the same URL without one. */
  lemma OnClickVariants(c: Click, location: string)
    ensures OnClickLegacy(c, location) != OnClick(c, location) <==>
              && !LeftToBrowser(c)
              && BeforeHash(location) == BeforeHash(c.href)
              && HasHash(location) && !HasHash(c.href)
    ensures OnClickLegacy(c, location) != OnClick(c, location) ==>
              OnClickLegacy(c, location) == Handling(false, None) && location != c.href
  {
  }

  /** The legacy handler swallows the link from "/p#top" back to "/p": the window stays where it is. */
  lemma OnClickLegacyStaysOnFragment()
    ensures var c := Click("/p", "", 0, false, false, false, false);
            && OnClickLegacy(c, "/p#top") == Handling(false, None)
            && OnClick(c, "/p#top") == Handling(false, Some("/p"))
  {
    assert BeforeHash("/p#top") == "/p" by {
      assert "/p#top"[1..] == "p#top" && "p#top"[1..] == "#top";
    }
    assert BeforeHash("/p") == "/p" by {
      assert "/p"[1..] == "p" && "p"[1..] == "";
    }
    assert "/p#top"[2] == '#';
  }

  // ---- RouterHistory.js init / reset ----------------------------------------

  /** `RouterHistory.initialized`, and whether the `popstate` listener is registered. */
  datatype History = History(initialized: bool, listening: bool)

  /** `RouterHistory.init()` (lines 18-26): register once, whatever the number of calls. */
  function Init(h: History): (r: History)
    ensures r.initialized && (h.initialized ==> r == h)
    ensures !h.initialized ==> r.listening
  {
    if h.initialized then h else History(true, true)
  }

  /** `RouterHistory.reset()` (lines 28-32): unregister and clear the flag. */
  function Reset(h: History): (r: History)
    ensures !r.initialized && !r.listening
  {
    History(false, false)
  }

  /** A second `init` changes nothing. */
  lemma InitIdempotent(h: History)
    ensures Init(Init(h)) == Init(h)
  {
  }

  /**
   * From a fresh start, `init` leaves the listener registered exactly when
   * the flag is set, and `reset` keeps that so: the flag tracks the listener.
   */
  lemma FlagTracksListener(h: History)
    requires h.initialized == h.listening
    ensures Init(h).initialized == Init(h).listening
    ensures Reset(h).initialized == Reset(h).listening
  {
  }

  /** Mounted routers by identity, and the one history state they all share. */
  datatype Routers = Routers(history: History, mounted: set<nat>)

  /** Router.js `handleMountHistory` (lines 21-25): `init()`, then the router's own `locationchange` listener. */
  function MountRouter(s: Routers, id: nat): (r: Routers)
    ensures r.history == Init(s.history) && r.mounted == s.mounted + {id}
  {
    Routers(Init(s.history), s.mounted + {id})
  }

  /** Router.js `handleUnmountHistory` (lines 27-31): `reset()`, then the router's listener goes. */
  function UnmountRouter(s: Routers, id: nat): (r: Routers)
    ensures r.history == Reset(s.history) && r.mounted == s.mounted - {id}
  {
    Routers(Reset(s.history), s.mounted - {id})
  }

  /** A back or forward navigation (`popstate`) reaches router `id`. */
  predicate Hears(s: Routers, id: nat) {
    id in s.mounted && s.history.listening
  }

  /** A router hears back and forward navigation as soon as it is mounted. */
  lemma MountedHears(s: Routers, id: nat)
    requires s.history.initialized == s.history.listening
    ensures Hears(MountRouter(s, id), id)
  {
  }

  /**
   * The flag is shared by every router: when one of two mounted routers
   * unmounts, the other stays mounted but no longer hears back and forward
   * navigation.
   */
  lemma SharedReset(s: Routers, a: nat, b: nat)
    requires a != b && s.history.initialized == s.history.listening
    ensures var both := MountRouter(MountRouter(s, a), b);
            && Hears(both, a) && Hears(both, b)
            && b in UnmountRouter(both, a).mounted
            && !Hears(UnmountRouter(both, a), b)
  {
  }
}

=== FILE: matching.dfy ===
/**
 * Children matching of Tree.ts `renderChildren` (lines 174-232): which
 * previous child edge each new child slot reuses, which reused children
 * are marked to move, and which previous children are unmounted. A
 * previous child is named by its index in the previous children.
 */
module Matching {
  import opened Wrappers
  import opened Slots

  /** The key scan from index `j` on: the first previous slot equal to `slot`. */
  function ScanFrom(slot: Child, prevSlots: seq<Child>, j: nat): (r: Option<nat>)
    requires j <= |prevSlots|
    ensures r.Some? ==> j <= r.value < |prevSlots| && IsEqual(slot, prevSlots[r.value])
                        && forall m :: j <= m < r.value ==> !IsEqual(slot, prevSlots[m])
    ensures r.None? ==> forall m :: j <= m < |prevSlots| ==> !IsEqual(slot, prevSlots[m])
    decreases |prevSlots| - j
  {
    if j == |prevSlots| then None
    else if IsEqual(slot, prevSlots[j]) then Some(j)
    else ScanFrom(slot, prevSlots, j + 1)
  }

  /**
   * The previous child the new slot at index `i` reuses (Tree.ts:180-204):
   * a keyed slot takes the first previous slot of equal type and key,
   * wherever it is, and never falls back; any other slot takes only the
   * previous child at its own index, and only if `IsEqual` holds.
   */
  function MatchOne(slot: Child, i: nat, prevSlots: seq<Child>): (r: Option<nat>)
    ensures r.Some? ==> r.value < |prevSlots| && IsEqual(slot, prevSlots[r.value])
    ensures IsKeyed(slot) ==>
              && (r.None? <==> forall j :: 0 <= j < |prevSlots| ==> !IsEqual(slot, prevSlots[j]))
              && (r.Some? ==> forall j :: 0 <= j < r.value ==> !IsEqual(slot, prevSlots[j]))
    ensures !IsKeyed(slot) ==>
              && (r.Some? <==> i < |prevSlots| && IsEqual(slot, prevSlots[i]))
              && (r.Some? ==> r.value == i)
  {
    if IsKeyed(slot) then ScanFrom(slot, prevSlots, 0)
    else if i < |prevSlots| && IsEqual(slot, prevSlots[i]) then Some(i)
    else None
  }

  /** For every new slot, the previous child it reuses. */
  function Match(slots: seq<Child>, prevSlots: seq<Child>): (m: seq<Option<nat>>)
    ensures |m| == |slots|
    ensures forall i :: 0 <= i < |slots| ==> m[i] == MatchOne(slots[i], i, prevSlots)
  {
    seq(|slots|, i requires 0 <= i < |slots| => MatchOne(slots[i], i, prevSlots))
  }

  /** Tree.ts:189-191: a keyed child found at another index is pushed onto `toMoveChildren`. */
  predicate Moved(slots: seq<Child>, m: seq<Option<nat>>, i: nat)
    requires |m| == |slots| && i < |slots|
  {
    IsKeyed(slots[i]) && m[i].Some? && m[i].value != i
  }

  /** The previous children no new slot reuses, in their previous order (the unmount loop). */
  function UnmatchedFrom(m: seq<Option<nat>>, n: nat, j: nat): (r: seq<nat>)
    requires j <= n
    ensures forall x :: x in r <==> j <= x < n && Some(x) !in m
    ensures forall a, b :: 0 <= a < b < |r| ==> r[a] < r[b]
    ensures forall a :: 0 <= a < |r| ==> j <= r[a] < n
    decreases n - j
  {
    if j == n then []
    else if Some(j) in m then UnmatchedFrom(m, n, j + 1)
    else [j] + UnmatchedFrom(m, n, j + 1)
  }

  function Unmatched(m: seq<Option<nat>>, n: nat): (r: seq<nat>)
    ensures forall a :: 0 <= a < |r| ==> r[a] < n
  {
    UnmatchedFrom(m, n, 0)
  }

  /**
   * With sibling keys unique, no previous child is reused twice: a keyed
   * previous child can only be found by the one keyed slot with its key,
   * and an unkeyed one only by the slot at its own index.
   */
  lemma MatchInjective(slots: seq<Child>, prevSlots: seq<Child>)
    requires DistinctKeys(slots)
    ensures var m := Match(slots, prevSlots);
            forall a, b :: 0 <= a < b < |slots| && m[a].Some? ==> m[a] != m[b]
  {
  }

  /**
   * Outside the unique-key domain: two keyed siblings of the same type and
   * key both find the one previous child their key scan meets first, so
   * the source hands the same edge object to both positions.
   */
  lemma DuplicateKeysShare(slots: seq<Child>, prevSlots: seq<Child>, a: nat, b: nat)
    requires a < b < |slots| && IsKeyed(slots[a]) && IsKeyed(slots[b]) && IsEqual(slots[a], slots[b])
    ensures var m := Match(slots, prevSlots);
            m[a] == m[b] && (m[a].Some? <==> exists j :: 0 <= j < |prevSlots| && IsEqual(slots[a], prevSlots[j]))
  {
    SameScan(slots[a], slots[b], prevSlots, 0);
  }

  /** Two keyed slots that compare equal scan alike. */
  lemma {:induction false} SameScan(x: Child, y: Child, prevSlots: seq<Child>, j: nat)
    requires j <= |prevSlots| && IsKeyed(x) && IsKeyed(y) && IsEqual(x, y)
    ensures ScanFrom(x, prevSlots, j) == ScanFrom(y, prevSlots, j)
    decreases |prevSlots| - j
  {
    if j < |prevSlots| {
      assert IsEqual(x, prevSlots[j]) <==> IsEqual(y, prevSlots[j]);
      SameScan(x, y, prevSlots, j + 1);
    }
  }

  /**
   * A previous child is unmounted exactly when no new slot reuses it; one that
   * is reused is compared equal to the slot that reuses it.
   */
  lemma UnmountedIffUnreused(slots: seq<Child>, prevSlots: seq<Child>, j: nat)
    requires j < |prevSlots|
    ensures var m := Match(slots, prevSlots);
            j in Unmatched(m, |prevSlots|) <==> forall i :: 0 <= i < |slots| ==> MatchOne(slots[i], i, prevSlots) != Some(j)
  {
    var m := Match(slots, prevSlots);
    if Some(j) in m {
      var i :| 0 <= i < |m| && m[i] == Some(j);
      assert MatchOne(slots[i], i, prevSlots) == Some(j);
    }
  }
}

=== FILE: moves.dfy ===
/**
 * Tree.ts `moveEdge` (lines 252-265): a moved subtree re-inserts its own host
 * node, or, when it has none, each child's footprint in order, through a
 * copy of the cursor.
 */
module Moves {
  import opened Seqs
  import opened Targets
  import opened Edges

  function MoveEdge(e: Edge, h: Host, t: Target): (r: Placed)
    ensures r.target == Target(t.element, t.index + |TopNodes(e)|)
    ensures PlacedAt(h, t, TopNodes(e)) ==> r.host == h
    ensures Fits(h, t, TopNodes(e)) ==> Arrived(h, t, TopNodes(e), r.host)
    decreases e, 1
  {
    if e.node.Some? then Reinsert(h, t, e.node.value) else MoveUpTo(e, |e.children|, h, t)
  }

  /** `target.insert(node)` for a node the cursor may already point at. */
  function Reinsert(h: Host, t: Target, node: NodeId): (r: Placed)
    ensures r.target == Target(t.element, t.index + 1)
    ensures PlacedAt(h, t, [node]) ==> r.host == h
    ensures Fits(h, t, [node]) ==> Arrived(h, t, [node], r.host)
  {
    var r := Insert(h, t, node);
    assert Fits(h, t, [node]) ==> Arrived(h, t, [node], r.host) by {
      if Fits(h, t, [node]) {
        ReinsertArrives(h, t, node);
      }
    }
    assert PlacedAt(h, t, [node]) ==> Kids(h, t.element)[t.index] == Kids(h, t.element)[t.index..t.index + 1][0];
    r
  }

  lemma ReinsertArrives(h: Host, t: Target, node: NodeId)
    requires Fits(h, t, [node])
    ensures Arrived(h, t, [node], Insert(h, t, node).host)
  {
    assert node in [node];
    InsertArrives(h, t, node);
  }

  /** The move of the first `k` children, in order. */
  function MoveUpTo(e: Edge, k: nat, h: Host, t: Target): (r: Placed)
    requires k <= |e.children|
    ensures r.target == Target(t.element, t.index + |ChildrenNodes(e, k)|)
    ensures PlacedAt(h, t, ChildrenNodes(e, k)) ==> r.host == h
    ensures Fits(h, t, ChildrenNodes(e, k)) ==> Arrived(h, t, ChildrenNodes(e, k), r.host)
    decreases e, 0, k
  {
    if k == 0 then Placed(h, t)
    else
      var c := e.children[k - 1];
      var before := MoveUpTo(e, k - 1, h, t);
      var r := MoveEdge(c, before.host, before.target);
      MoveAfter(h, t, ChildrenNodes(e, k - 1), TopNodes(c), before, r);
      assert Fits(h, t, ChildrenNodes(e, k)) ==> Arrived(h, t, ChildrenNodes(e, k), r.host) by {
        if Fits(h, t, ChildrenNodes(e, k)) {
          ArriveAfter(h, t, ChildrenNodes(e, k - 1), TopNodes(c), before, r);
        }
      }
      r
  }

  /** Two moves in a row: the cursor passes both footprints, and nodes already in place stay. */
  lemma MoveAfter(h: Host, t: Target, a: seq<NodeId>, b: seq<NodeId>, mid: Placed, r: Placed)
    requires mid.target == Target(t.element, t.index + |a|) && (PlacedAt(h, t, a) ==> mid.host == h)
    requires r.target == Target(t.element, mid.target.index + |b|) && (PlacedAt(mid.host, mid.target, b) ==> r.host == mid.host)
    ensures r.target == Target(t.element, t.index + |a + b|)
    ensures PlacedAt(h, t, a + b) ==> r.host == h
  {
    if PlacedAt(h, t, a + b) {
      PlacedSplit(h, t, a, b);
    }
  }

  /**
   * The nodes `ns` can be moved to the cursor: it lies within its parent, the
   * parent repeats no child, and `ns` are distinct and none of them sits
   * before the cursor (those are the nodes already placed by this render).
   */
  predicate Fits(h: Host, t: Target, ns: seq<NodeId>) {
    && 0 <= t.index <= |Kids(h, t.element)|
    && NoDup(Kids(h, t.element)) && NoDup(ns)
    && forall n :: n in ns ==> n !in Kids(h, t.element)[..t.index]
  }

  /**
   * After the move the parent starts with its old nodes before the cursor,
   * followed by `ns` in order, and still repeats no child.
   */
  predicate Arrived(h: Host, t: Target, ns: seq<NodeId>, h': Host) {
    && 0 <= t.index && t.index + |ns| <= |Kids(h', t.element)|
    && t.index <= |Kids(h, t.element)|
    && Kids(h', t.element)[..t.index + |ns|] == Kids(h, t.element)[..t.index] + ns
    && NoDup(Kids(h', t.element))
  }

  /** Two moves in a row land both footprints, one after the other, behind the untouched prefix. */
  lemma ArriveAfter(h: Host, t: Target, a: seq<NodeId>, b: seq<NodeId>, mid: Placed, r: Placed)
    requires Fits(h, t, a + b)
    requires mid.target == Target(t.element, t.index + |a|) && (Fits(h, t, a) ==> Arrived(h, t, a, mid.host))
    requires Fits(mid.host, mid.target, b) ==> Arrived(mid.host, mid.target, b, r.host)
    ensures Arrived(h, t, a + b, r.host)
  {
    var prefix := Kids(h, t.element)[..t.index];
    assert NoDup(a) by {
      assert forall i :: 0 <= i < |a| ==> a[i] == (a + b)[i];
    }
    assert forall n :: n in a ==> n in a + b;
    assert Arrived(h, t, a, mid.host);
    var midKids := Kids(mid.host, t.element);
    assert midKids[..t.index + |a|] == prefix + a;
    assert NoDup(b) by {
      assert forall i :: 0 <= i < |b| ==> b[i] == (a + b)[|a| + i];
    }
    forall n | n in b
      ensures n !in midKids[..t.index + |a|]
    {
      assert n in a + b;
      var j :| 0 <= j < |b| && b[j] == n;
      assert (a + b)[|a| + j] == n;
      assert forall i :: 0 <= i < |a| ==> a[i] == (a + b)[i] != (a + b)[|a| + j];
      assert n !in a && n !in prefix;
      assert n !in prefix + a;
    }
    assert Fits(mid.host, mid.target, b);
    var rKids := Kids(r.host, t.element);
    assert rKids[..t.index + |a| + |b|] == midKids[..t.index + |a|] + b;
    assert prefix + a + b == prefix + (a + b);
  }

  /** The nodes `ns` already sit in the cursor's parent from the cursor's index on. */
  predicate PlacedAt(h: Host, t: Target, ns: seq<NodeId>) {
    0 <= t.index && t.index + |ns| <= |Kids(h, t.element)|
    && Kids(h, t.element)[t.index..t.index + |ns|] == ns
  }

  lemma PlacedSplit(h: Host, t: Target, a: seq<NodeId>, b: seq<NodeId>)
    requires PlacedAt(h, t, a + b)
    ensures PlacedAt(h, t, a)
    ensures PlacedAt(h, Target(t.element, t.index + |a|), b)
  {
    var kids := Kids(h, t.element);
    assert kids[t.index..t.index + |a|] == (a + b)[..|a|];
    assert kids[t.index + |a|..t.index + |a| + |b|] == (a + b)[|a|..];
  }
}

=== FILE: patch.dfy ===
/**
 * Host-node patching (Tree.ts `patchNode`): bring an element's attributes,
 * handler properties and the `ref` it is published through in line with a
 * new props object, given the props it was last patched with.
 */
module Patch {
  import opened Wrappers
  import opened Slots
  import opened Targets

  /** What a `Ref` currently points at. */
  datatype Referent = ToOwner(owner: nat) | ToNode(node: NodeId)

  /** The `value` of every `Ref` object (`None` is `null`). */
  type Refs = map<nat, Option<Referent>>

  /** An element's attributes and its handler-valued properties (an absent handler is `null`). */
  datatype ElementState = ElementState(attributes: map<string, string>, handlers: map<string, nat>)

  /** The outcome of a patch: the element, the refs, and the keys whose `setAttribute` threw, in order. */
  datatype Patched = Patched(element: ElementState, refs: Refs, rejected: seq<string>)

  /** `attrs[name] ?? null`: the first property with that name, `NullValue` when there is none. */
  function Lookup(attrs: seq<Attr>, name: string): AttrValue
    decreases |attrs|
  {
    if |attrs| == 0 then NullValue
    else if attrs[0].name == name then attrs[0].value
    else Lookup(attrs[1..], name)
  }

  /** `name in attrs`. */
  predicate Has(attrs: seq<Attr>, name: string) {
    exists i :: 0 <= i < |attrs| && attrs[i].name == name
  }

  lemma {:induction false} LookupAbsent(attrs: seq<Attr>, name: string)
    requires !Has(attrs, name)
    ensures Lookup(attrs, name) == NullValue
    decreases |attrs|
  {
    if |attrs| > 0 {
      assert !Has(attrs[1..], name) by {
        forall i | 0 <= i < |attrs[1..]| ensures attrs[1..][i].name != name {
          assert attrs[1..][i] == attrs[i + 1];
        }
      }
      LookupAbsent(attrs[1..], name);
    }
  }

  /** The text `setAttribute` stores for a non-null, non-function value. */
  function Stringify(v: AttrValue): string {
    match v
    case Plain(s) => s
    case RefValue(_) => "[object Object]"
    case _ => ""
  }

  /** A slot's `ref` (`getRef()`), as the value the ref swap compares. */
  function RefOf(ref: Option<nat>): AttrValue {
    if ref.Some? then RefValue(ref.value) else NullValue
  }

  /**
   * The ref swap of Tree.ts:374-380 and 697-703: a previous `Ref` that is no
   * longer the current one is cleared, and a new `Ref` is pointed at `to`.
   */
  function SwapRef(refs: Refs, prevRef: AttrValue, ref: AttrValue, to: Referent): (r: Refs)
    ensures prevRef.RefValue? && prevRef != ref ==> prevRef.ref in r && r[prevRef.ref] == None
    ensures ref.RefValue? && ref != prevRef ==> ref.ref in r && r[ref.ref] == Some(to)
    ensures forall x :: x in refs && RefValue(x) != prevRef && RefValue(x) != ref ==> x in r && r[x] == refs[x]
    ensures forall x :: x in r ==> x in refs || RefValue(x) == prevRef || RefValue(x) == ref
    ensures prevRef == ref ==> r == refs
  {
    var cleared := if prevRef.RefValue? && prevRef != ref then refs[prevRef.ref := None] else refs;
    if ref.RefValue? && ref != prevRef then cleared[ref.ref := Some(to)] else cleared
  }

  /** The first loop's work for one key present in the new props (Tree.ts:683-755). */
  function SetOne(p: Patched, node: NodeId, key: string, value: AttrValue, prevValue: AttrValue,
                  rejects: (string, string) -> bool): Patched
  {
    var el := p.element;
    if key == "key" then p
    else if key == "ref" then p.(refs := SwapRef(p.refs, prevValue, value, ToNode(node)))
    else if value != NullValue then
      if value.Handler? then
        var el1 := if prevValue != NullValue && !prevValue.Handler? then el.(attributes := el.attributes - {key}) else el;
        var el2 := if value != prevValue then el1.(handlers := el1.handlers[key := value.fn]) else el1;
        p.(element := el2)
      else
        var el1 := if prevValue != NullValue && prevValue.Handler? then el.(handlers := el.handlers - {key}) else el;
        if value == prevValue then p.(element := el1)
        else if rejects(key, Stringify(value)) then p.(element := el1, rejected := p.rejected + [key])
        else p.(element := el1.(attributes := el1.attributes[key := Stringify(value)]))
    else if prevValue == NullValue then p
    else if prevValue.Handler? then p.(element := el.(handlers := el.handlers - {key}))
    else p.(element := el.(attributes := el.attributes - {key}))
  }

  /**
   * The second loop's work for a key only the previous props had (Tree.ts:770-795):
   * a `ref` is cleared and then, falling through, the key is removed like any other.
   */
  function ClearOne(p: Patched, key: string, prevValue: AttrValue): Patched {
    var p1 := if key == "ref" && prevValue.RefValue? then p.(refs := p.refs[prevValue.ref := None]) else p;
    var el := p1.element;
    if prevValue == NullValue then p1
    else if prevValue.Handler? then p1.(element := el.(handlers := el.handlers - {key}))
    else p1.(element := el.(attributes := el.attributes - {key}))
  }

  function SetFrom(p: Patched, node: NodeId, attrs: seq<Attr>, prev: seq<Attr>, i: nat,
                   rejects: (string, string) -> bool): Patched
    requires i <= |attrs|
    decreases |attrs| - i
  {
    if i == |attrs| then p
    else
      var key := attrs[i].name;
      SetFrom(SetOne(p, node, key, Lookup(attrs, key), Lookup(prev, key), rejects), node, attrs, prev, i + 1, rejects)
  }

  function ClearFrom(p: Patched, attrs: seq<Attr>, prev: seq<Attr>, j: nat): Patched
    requires j <= |prev|
    decreases |prev| - j
  {
    if j == |prev| then p
    else
      var key := prev[j].name;
      var p1 := if Has(attrs, key) then p else ClearOne(p, key, Lookup(prev, key));
      ClearFrom(p1, attrs, prev, j + 1)
  }

  /** Tree.ts `patchNode` for an element node: both loops, in order. */
  function PatchElement(el: ElementState, refs: Refs, node: NodeId, attrs: seq<Attr>, prev: seq<Attr>,
                        rejects: (string, string) -> bool): Patched
  {
    var p := SetFrom(Patched(el, refs, []), node, attrs, prev, 0, rejects);
    ClearFrom(p, attrs, prev, 0)
  }

  // ---- what an element looks like when it reflects a props object -------

  /** The attribute and handler an element holds under one key. */
  datatype KeyState = KeyState(attribute: Option<string>, handler: Option<nat>)

  function AtKey(el: ElementState, key: string): KeyState {
    KeyState(
      if key in el.attributes then Some(el.attributes[key]) else None,
      if key in el.handlers then Some(el.handlers[key]) else None)
  }

  /** Null leaves nothing, a function becomes the handler property, anything else the attribute. */
  function Expected(v: AttrValue): KeyState {
    match v
    case NullValue => KeyState(None, None)
    case Handler(f) => KeyState(None, Some(f))
    case _ => KeyState(Some(Stringify(v)), None)
  }

  /** Under `key` the element shows what `attrs` says; `key` and `ref` are not host attributes. */
  predicate ReflectsAt(el: ElementState, attrs: seq<Attr>, key: string) {
    key != "key" && key != "ref" ==> AtKey(el, key) == Expected(Lookup(attrs, key))
  }

  ghost predicate Reflects(el: ElementState, attrs: seq<Attr>) {
    forall key :: ReflectsAt(el, attrs, key)
  }

  /** The host refused the one `setAttribute` the patch makes under `key`. */
  predicate RejectedAt(attrs: seq<Attr>, prev: seq<Attr>, key: string, rejects: (string, string) -> bool) {
    var v := Lookup(attrs, key);
    && (v.Plain? || v.RefValue?)
    && v != Lookup(prev, key)
    && rejects(key, Stringify(v))
  }

  lemma SetOneAtKey(p: Patched, node: NodeId, k: string, value: AttrValue, prevValue: AttrValue,
                    rejects: (string, string) -> bool, key: string)
    ensures k != key ==> AtKey(SetOne(p, node, k, value, prevValue, rejects).element, key) == AtKey(p.element, key)
    ensures k == key && key != "key" && key != "ref" && !((value.Plain? || value.RefValue?) && value != prevValue && rejects(key, Stringify(value)))
            && (AtKey(p.element, key) == Expected(prevValue) || AtKey(p.element, key) == Expected(value))
            ==> AtKey(SetOne(p, node, k, value, prevValue, rejects).element, key) == Expected(value)
  {
  }

  lemma {:induction false} SetFromAtKey(p: Patched, node: NodeId, attrs: seq<Attr>, prev: seq<Attr>, i: nat,
                                        rejects: (string, string) -> bool, key: string)
    requires i <= |attrs|
    requires key != "key" && key != "ref" && !RejectedAt(attrs, prev, key, rejects)
    requires AtKey(p.element, key) == Expected(Lookup(prev, key)) || AtKey(p.element, key) == Expected(Lookup(attrs, key))
    requires Has(attrs[..i], key) ==> AtKey(p.element, key) == Expected(Lookup(attrs, key))
    ensures var q := SetFrom(p, node, attrs, prev, i, rejects);
            && (Has(attrs, key) ==> AtKey(q.element, key) == Expected(Lookup(attrs, key)))
            && (!Has(attrs, key) ==> AtKey(q.element, key) == AtKey(p.element, key))
    decreases |attrs| - i
  {
    if i == |attrs| {
      assert attrs[..i] == attrs;
    } else {
      var k := attrs[i].name;
      var p1 := SetOne(p, node, k, Lookup(attrs, k), Lookup(prev, k), rejects);
      SetOneAtKey(p, node, k, Lookup(attrs, k), Lookup(prev, k), rejects, key);
      assert Has(attrs[..i + 1], key) ==> AtKey(p1.element, key) == Expected(Lookup(attrs, key)) by {
        if Has(attrs[..i + 1], key) && k != key {
          var j :| 0 <= j < i + 1 && attrs[..i + 1][j].name == key;
          assert attrs[..i][j].name == key;
        }
      }
      SetFromAtKey(p1, node, attrs, prev, i + 1, rejects, key);
      if !Has(attrs, key) {
        assert k != key;
      }
    }
  }

  lemma {:induction false} ClearFromAtKey(p: Patched, attrs: seq<Attr>, prev: seq<Attr>, j: nat, key: string)
    requires j <= |prev|
    requires !Has(attrs, key) && key != "key" && key != "ref"
    requires AtKey(p.element, key) == Expected(Lookup(prev, key)) || AtKey(p.element, key) == KeyState(None, None)
    requires Has(prev[..j], key) ==> AtKey(p.element, key) == KeyState(None, None)
    ensures Has(prev, key) ==> AtKey(ClearFrom(p, attrs, prev, j).element, key) == KeyState(None, None)
    ensures !Has(prev, key) ==> AtKey(ClearFrom(p, attrs, prev, j).element, key) == AtKey(p.element, key)
    decreases |prev| - j
  {
    if j == |prev| {
      assert prev[..j] == prev;
    } else {
      var k := prev[j].name;
      var p1 := if Has(attrs, k) then p else ClearOne(p, k, Lookup(prev, k));
      assert Has(prev[..j + 1], key) ==> AtKey(p1.element, key) == KeyState(None, None) by {
        if Has(prev[..j + 1], key) && k != key {
          var m :| 0 <= m < j + 1 && prev[..j + 1][m].name == key;
          assert prev[..j][m].name == key;
        }
      }
      ClearFromAtKey(p1, attrs, prev, j + 1, key);
      if !Has(prev, key) {
        assert k != key;
      }
    }
  }

  lemma {:induction false} ClearFromOtherKey(p: Patched, attrs: seq<Attr>, prev: seq<Attr>, j: nat, key: string)
    requires j <= |prev| && Has(attrs, key)
    ensures AtKey(ClearFrom(p, attrs, prev, j).element, key) == AtKey(p.element, key)
    decreases |prev| - j
  {
    if j < |prev| {
      var k := prev[j].name;
      var p1 := if Has(attrs, k) then p else ClearOne(p, k, Lookup(prev, k));
      assert k == key ==> p1 == p;
      ClearFromOtherKey(p1, attrs, prev, j + 1, key);
    }
  }

  lemma {:induction false} SetFromUntouched(p: Patched, node: NodeId, attrs: seq<Attr>, prev: seq<Attr>, i: nat,
                                            rejects: (string, string) -> bool, key: string)
    requires i <= |attrs| && !Has(attrs, key)
    ensures AtKey(SetFrom(p, node, attrs, prev, i, rejects).element, key) == AtKey(p.element, key)
    decreases |attrs| - i
  {
    if i < |attrs| {
      var k := attrs[i].name;
      SetOneAtKey(p, node, k, Lookup(attrs, k), Lookup(prev, k), rejects, key);
      SetFromUntouched(SetOne(p, node, k, Lookup(attrs, k), Lookup(prev, k), rejects), node, attrs, prev, i + 1, rejects, key);
    }
  }

  lemma {:induction false} ClearFromUntouched(p: Patched, attrs: seq<Attr>, prev: seq<Attr>, j: nat, key: string)
    requires j <= |prev| && !Has(prev, key)
    ensures AtKey(ClearFrom(p, attrs, prev, j).element, key) == AtKey(p.element, key)
    decreases |prev| - j
  {
    if j < |prev| {
      var k := prev[j].name;
      assert k != key;
      ClearFromUntouched(if Has(attrs, k) then p else ClearOne(p, k, Lookup(prev, k)), attrs, prev, j + 1, key);
    }
  }

  /**
   * Patching an element that reflects the previous props leaves it reflecting
   * the new props under every key whose `setAttribute` the host accepted:
   * non-null non-function values are attributes, functions are handler
   * properties, null and removed keys are cleared. Keys neither object has
   * are untouched.
   */
  lemma PatchReflects(el: ElementState, refs: Refs, node: NodeId, attrs: seq<Attr>, prev: seq<Attr>,
                      rejects: (string, string) -> bool, key: string)
    requires ReflectsAt(el, prev, key)
    requires !RejectedAt(attrs, prev, key, rejects)
    ensures ReflectsAt(PatchElement(el, refs, node, attrs, prev, rejects).element, attrs, key)
    ensures !Has(attrs, key) && !Has(prev, key) ==>
              AtKey(PatchElement(el, refs, node, attrs, prev, rejects).element, key) == AtKey(el, key)
  {
    if key != "key" && key != "ref" {
      var p0 := Patched(el, refs, []);
      assert attrs[..0] == [];
      SetFromAtKey(p0, node, attrs, prev, 0, rejects, key);
      var p := SetFrom(p0, node, attrs, prev, 0, rejects);
      if Has(attrs, key) {
        ClearFromOtherKey(p, attrs, prev, 0, key);
      } else {
        LookupAbsent(attrs, key);
        assert prev[..0] == [];
        ClearFromAtKey(p, attrs, prev, 0, key);
        if !Has(prev, key) {
          LookupAbsent(prev, key);
        }
      }
    }
    if !Has(attrs, key) && !Has(prev, key) {
      var p := SetFrom(Patched(el, refs, []), node, attrs, prev, 0, rejects);
      SetFromUntouched(Patched(el, refs, []), node, attrs, prev, 0, rejects, key);
      ClearFromUntouched(p, attrs, prev, 0, key);
    }
  }

  // ---- refs and the `key` property ------------------------------------

  lemma {:induction false} SetFromRefs(p: Patched, node: NodeId, attrs: seq<Attr>, prev: seq<Attr>, i: nat,
                                       rejects: (string, string) -> bool, swapped: Refs)
    requires i <= |attrs|
    requires swapped == SwapRef(p.refs, Lookup(prev, "ref"), Lookup(attrs, "ref"), ToNode(node))
    requires Has(attrs[..i], "ref") ==> p.refs == swapped
    ensures var q := SetFrom(p, node, attrs, prev, i, rejects);
            && (Has(attrs, "ref") ==> q.refs == swapped)
            && (!Has(attrs, "ref") ==> q.refs == p.refs)
    decreases |attrs| - i
  {
    if i == |attrs| {
      assert attrs[..i] == attrs;
    } else {
      var k := attrs[i].name;
      var p1 := SetOne(p, node, k, Lookup(attrs, k), Lookup(prev, k), rejects);
      if k == "ref" {
        SwapRefTwice(p.refs, Lookup(prev, "ref"), Lookup(attrs, "ref"), ToNode(node));
      }
      assert Has(attrs[..i + 1], "ref") ==> p1.refs == swapped by {
        if Has(attrs[..i + 1], "ref") && k != "ref" {
          var j :| 0 <= j < i + 1 && attrs[..i + 1][j].name == "ref";
          assert attrs[..i][j].name == "ref";
        }
      }
      SetFromRefs(p1, node, attrs, prev, i + 1, rejects, swapped);
      if !Has(attrs, "ref") {
        assert k != "ref";
      }
    }
  }

  lemma SwapRefTwice(refs: Refs, prevRef: AttrValue, ref: AttrValue, to: Referent)
    ensures SwapRef(SwapRef(refs, prevRef, ref, to), prevRef, ref, to) == SwapRef(refs, prevRef, ref, to)
  {
  }

  lemma {:induction false} ClearFromRefs(p: Patched, attrs: seq<Attr>, prev: seq<Attr>, j: nat, base: Refs)
    requires j <= |prev| && !Has(attrs, "ref")
    requires p.refs == base || p.refs == SwapRef(base, Lookup(prev, "ref"), NullValue, ToNode(0))
    requires Has(prev[..j], "ref") ==> p.refs == SwapRef(base, Lookup(prev, "ref"), NullValue, ToNode(0))
    ensures Has(prev, "ref") ==> ClearFrom(p, attrs, prev, j).refs == SwapRef(base, Lookup(prev, "ref"), NullValue, ToNode(0))
    ensures !Has(prev, "ref") ==> ClearFrom(p, attrs, prev, j).refs == p.refs
    decreases |prev| - j
  {
    var cleared := SwapRef(base, Lookup(prev, "ref"), NullValue, ToNode(0));
    if j == |prev| {
      assert prev[..j] == prev;
    } else {
      var k := prev[j].name;
      var p1 := if Has(attrs, k) then p else ClearOne(p, k, Lookup(prev, k));
      assert k != "ref" ==> p1.refs == p.refs;
      assert k == "ref" ==> p1.refs == cleared;
      assert Has(prev[..j + 1], "ref") ==> p1.refs == cleared by {
        if Has(prev[..j + 1], "ref") && k != "ref" {
          var m :| 0 <= m < j + 1 && prev[..j + 1][m].name == "ref";
          assert prev[..j][m].name == "ref";
        }
      }
      ClearFromRefs(p1, attrs, prev, j + 1, base);
      if !Has(prev, "ref") {
        assert k != "ref";
      }
    }
  }

  lemma {:induction false} ClearFromKeepsRefs(p: Patched, attrs: seq<Attr>, prev: seq<Attr>, j: nat)
    requires j <= |prev| && Has(attrs, "ref")
    ensures ClearFrom(p, attrs, prev, j).refs == p.refs
    decreases |prev| - j
  {
    if j < |prev| {
      var k := prev[j].name;
      var p1 := if Has(attrs, k) then p else ClearOne(p, k, Lookup(prev, k));
      assert p1.refs == p.refs;
      ClearFromKeepsRefs(p1, attrs, prev, j + 1);
    }
  }

  /**
   * The refs after a patch: a `Ref` the previous props held under `ref`
   * that the new props no longer hold is cleared, a new one points at the
   * element, and no other `Ref` changes.
   */
  lemma PatchRefs(el: ElementState, refs: Refs, node: NodeId, attrs: seq<Attr>, prev: seq<Attr>,
                  rejects: (string, string) -> bool)
    ensures PatchElement(el, refs, node, attrs, prev, rejects).refs
            == SwapRef(refs, Lookup(prev, "ref"), Lookup(attrs, "ref"), ToNode(node))
  {
    var p0 := Patched(el, refs, []);
    var swapped := SwapRef(refs, Lookup(prev, "ref"), Lookup(attrs, "ref"), ToNode(node));
    assert attrs[..0] == [];
    SetFromRefs(p0, node, attrs, prev, 0, rejects, swapped);
    var p := SetFrom(p0, node, attrs, prev, 0, rejects);
    if Has(attrs, "ref") {
      ClearFromKeepsRefs(p, attrs, prev, 0);
    } else {
      LookupAbsent(attrs, "ref");
      assert prev[..0] == [];
      ClearFromRefs(p, attrs, prev, 0, p.refs);
      if !Has(prev, "ref") {
        LookupAbsent(prev, "ref");
      }
    }
  }

  lemma {:induction false} SetFromNeverSetsKey(p: Patched, node: NodeId, attrs: seq<Attr>, prev: seq<Attr>, i: nat,
                                               rejects: (string, string) -> bool)
    requires i <= |attrs|
    ensures AtKey(SetFrom(p, node, attrs, prev, i, rejects).element, "key") == AtKey(p.element, "key")
    decreases |attrs| - i
  {
    if i < |attrs| {
      var k := attrs[i].name;
      SetOneAtKey(p, node, k, Lookup(attrs, k), Lookup(prev, k), rejects, "key");
      SetFromNeverSetsKey(SetOne(p, node, k, Lookup(attrs, k), Lookup(prev, k), rejects), node, attrs, prev, i + 1, rejects);
    }
  }

  lemma {:induction false} ClearFromOnlyRemoves(p: Patched, attrs: seq<Attr>, prev: seq<Attr>, j: nat, key: string)
    requires j <= |prev|
    ensures var q := ClearFrom(p, attrs, prev, j).element;
            key in q.attributes ==> key in p.element.attributes && q.attributes[key] == p.element.attributes[key]
    decreases |prev| - j
  {
    if j < |prev| {
      var k := prev[j].name;
      ClearFromOnlyRemoves(if Has(attrs, k) then p else ClearOne(p, k, Lookup(prev, k)), attrs, prev, j + 1, key);
    }
  }

  /** The `key` prop is never written to the element: an attribute `key` can only disappear. */
  lemma PatchNeverSetsKey(el: ElementState, refs: Refs, node: NodeId, attrs: seq<Attr>, prev: seq<Attr>,
                          rejects: (string, string) -> bool)
    ensures var q := PatchElement(el, refs, node, attrs, prev, rejects).element;
            "key" in q.attributes ==> "key" in el.attributes && q.attributes["key"] == el.attributes["key"]
  {
    var p0 := Patched(el, refs, []);
    SetFromNeverSetsKey(p0, node, attrs, prev, 0, rejects);
    ClearFromOnlyRemoves(SetFrom(p0, node, attrs, prev, 0, rejects), attrs, prev, 0, "key");
  }
}

=== FILE: render.dfy ===
/**
 * One reconciliation pass of Tree.ts: `renderEdge` (lines 277-336) and the
 * per-kind renders it dispatches to (338-524), with `renderChildren`
 * (158-250) matching the new child slots against the previous children,
 * unmounting the unmatched ones and rendering the rest in order.
 *
 * `fuel` bounds the depth of the nested render calls and stands for the
 * JavaScript call stack: when it runs out, the edge fails with
 * `StackExhausted`, as a `RangeError` thrown inside the edge's `try` would.
 */
module Render {
  import opened Wrappers
  import opened Slots
  import opened Targets
  import opened Edges
  import opened Patch
  import opened Matching
  import opened Worlds
  import opened Moves
  import opened Teardown

  datatype Status = Skipped | Done | Failed(fault: Fault)

  /** An edge after its render, the cursor after it, and the world. */
  datatype Rendered = Rendered(edge: Edge, target: Target, world: World, status: Status)

  /** The rendered children of an edge, the cursor after them, and the world. */
  datatype Rendering = Rendering(children: seq<Edge>, target: Target, world: World)

  /**
   * The skip test of Tree.ts:282-306: a component edge with a previous
   * snapshot whose owner has no pending update and whose slot compares
   * equal to the previous one is not rendered again. An owner that was
   * never constructed counts as needing an update.
   */
  predicate Skips(e: Edge, prev: Edge, o: Oracle) {
    && e.slot.SlotChild?
    && (IsClass(e.slot) || IsFunction(e.slot))
    && (var owner := if IsClass(e.slot) then e.component else e.hookster;
        owner.Some? && !o.needsUpdate(owner.value))
    && o.compare(e.slot.slot, prev.slot)
  }

  /** A render keeps the component, hook runtime and host node an edge already has. */
  predicate Keeps(before: Edge, after: Edge) {
    && (before.component.Some? ==> after.component == before.component)
    && (before.hookster.Some? ==> after.hookster == before.hookster)
    && (before.node.Some? ==> after.node == before.node)
  }

  /** The owner a component edge's kind calls for: the component of a class, the hook runtime of a function. */
  function KindOwner(e: Edge): Option<OwnerId> {
    if IsClass(e.slot) then e.component else if IsFunction(e.slot) then e.hookster else None
  }

  predicate AllSound(cs: seq<Edge>) {
    forall j :: 0 <= j < |cs| ==> Sound(cs[j])
  }

  /** Every child of the previous snapshot is sound. */
  predicate Ready(prev: Option<Edge>) {
    prev.Some? ==> AllSound(prev.value.children)
  }

  /**
   * The `i`th new child `c` carries the `i`th slot; a matched child keeps the
   * previous child's depth, component, hook runtime and host node, and a new
   * one is one level deeper than its parent `e`.
   */
  predicate Follows(e: Edge, prevChildren: seq<Edge>, slots: seq<Child>, m: seq<Option<nat>>, i: nat, c: Edge)
    requires i < |slots| == |m| && (m[i].Some? ==> m[i].value < |prevChildren|)
  {
    && c.slot == slots[i]
    && (m[i].Some? ==> c.depth == prevChildren[m[i].value].depth && Keeps(prevChildren[m[i].value], c))
    && (m[i].None? ==> c.depth == e.depth + 1)
  }

  /** Every child in `cs` follows the matching at its position. */
  predicate AllFollow(e: Edge, prevChildren: seq<Edge>, slots: seq<Child>, m: seq<Option<nat>>, cs: seq<Edge>)
  {
    && |cs| <= |slots| == |m|
    && forall i :: 0 <= i < |cs| ==>
         (m[i].Some? ==> m[i].value < |prevChildren|) && Follows(e, prevChildren, slots, m, i, cs[i])
  }

  /** The caught-exception path: the cursor skips the old footprint and the error is reported. */
  function Fail(e: Edge, t: Target, w: World, f: Fault): (r: Rendered)
    ensures r.target == Target(t.element, t.index + e.count)
    ensures r.edge == e && r.status == Failed(f)
    ensures r.world == w.(log := w.log + [Reported(f)])
  {
    Rendered(e, Target(t.element, t.index + e.count), Report(w, f), Failed(f))
  }

  /** The edge takes its rendered children; its count becomes the cursor's advance. */
  function Finish(e: Edge, t: Target, rc: Rendering): (r: Rendered)
    ensures r.edge == e.(children := rc.children, count := rc.target.index - t.index)
    ensures r.target == rc.target && r.world == rc.world && r.status == Done
  {
    Rendered(e.(children := rc.children, count := rc.target.index - t.index), rc.target, rc.world, Done)
  }

  function SlotsOf(cs: seq<Edge>): (r: seq<Child>)
    ensures |r| == |cs| && forall j :: 0 <= j < |cs| ==> r[j] == cs[j].slot
  {
    seq(|cs|, j requires 0 <= j < |cs| => cs[j].slot)
  }

  /** `prevSlot?.getRef() ?? null`. */
  function PrevRef(prev: Option<Edge>): AttrValue {
    if prev.Some? && prev.value.slot.SlotChild? then RefOf(prev.value.slot.slot.ref) else NullValue
  }

  /** `(prevSlot as Slot | null)?.getAttributes() ?? {}`. */
  function PrevProps(prev: Option<Edge>): seq<Attr> {
    if prev.Some? && prev.value.slot.SlotChild? then prev.value.slot.slot.props else []
  }

  /**
   * The previous text of a text node: `${prevSlot}`, or null when there is no
   * previous slot or it is null or undefined.
   */
  function PrevText(prev: Option<Edge>): Option<string> {
    if prev.None? then None
    else match prev.value.slot
      case Text(s) => Some(s)
      case Ignored(which) => if which == FalseChild then Some("false") else None
      case SlotChild(_) => Some("[object Object]")
  }

  /**
   * Tree.ts `renderEdge`. Whatever happens, the cursor advances by the
   * edge's resulting count: the old count when the edge is skipped or its
   * render throws, the number of host nodes inserted otherwise. A sound
   * edge stays sound.
   */
  function RenderEdge(e: Edge, prev: Option<Edge>, t: Target, w: World, o: Oracle, fuel: nat): (r: Rendered)
    ensures r.target == Target(t.element, t.index + r.edge.count)
    ensures r.edge.slot == e.slot && r.edge.depth == e.depth && Keeps(e, r.edge)
    ensures w.log <= r.world.log
    ensures r.status.Skipped? <==> prev.Some? && Skips(e, prev.value, o)
    ensures r.status.Skipped? ==> r.edge == e && r.world == Unqueued(w, e)
    ensures r.status.Failed? ==>
              && r.edge == e.(component := r.edge.component, hookster := r.edge.hookster)
              && r.world.host == w.host
              && r.world.log == w.log + [Reported(r.status.fault)]
    ensures r.status.Done? && (IsClass(e.slot) || IsFunction(e.slot)) ==>
              KindOwner(r.edge).Some? && |r.world.log| > 0 && r.world.log[|r.world.log| - 1] == Settled(KindOwner(r.edge).value)
    ensures Sound(e) && Ready(prev) ==> Sound(r.edge)
    decreases fuel, 5
  {
    var w1 := Unqueued(w, e);
    if prev.Some? && Skips(e, prev.value, o) then
      Rendered(e, Target(t.element, t.index + e.count), w1, Skipped)
    else if fuel == 0 then
      Fail(e, t, w1, StackExhausted)
    else
      Dispatch(e, prev, t, w1, o, fuel)
  }

  /** The `instanceof Slot` / kind dispatch of Tree.ts:312-325. */
  function Dispatch(e: Edge, prev: Option<Edge>, t: Target, w: World, o: Oracle, fuel: nat): (r: Rendered)
    requires fuel > 0
    ensures r.target == Target(t.element, t.index + r.edge.count)
    ensures r.edge.slot == e.slot && r.edge.depth == e.depth && Keeps(e, r.edge)
    ensures w.log <= r.world.log
    ensures !r.status.Skipped?
    ensures r.status.Failed? ==>
              && r.edge == e.(component := r.edge.component, hookster := r.edge.hookster)
              && r.world.host == w.host
              && r.world.log == w.log + [Reported(r.status.fault)]
    ensures r.status.Done? && (IsClass(e.slot) || IsFunction(e.slot)) ==>
              KindOwner(r.edge).Some? && |r.world.log| > 0 && r.world.log[|r.world.log| - 1] == Settled(KindOwner(r.edge).value)
    ensures Sound(e) && Ready(prev) ==> Sound(r.edge)
    decreases fuel, 4
  {
    match e.slot
    case SlotChild(s) =>
      (match s.contentType
       case ClassType(_) => RenderClass(e, prev, s, t, w, o, fuel)
       case FunctionType(_) => RenderFunction(e, prev, s, t, w, o, fuel)
       case ElementType(tag) => RenderElement(e, prev, s, tag, t, w, o, fuel)
       case NullType => RenderNull(e, prev, s, t, w, o, fuel))
    case Text(text) => RenderText(e, prev, text, t, w)
    case Ignored(_) =>
      assert Sound(e) ==> Sound(e.(count := 0)) by {
        if Sound(e) {
          SameFootprint(e, e.(count := 0));
          SoundIntro(e.(count := 0));
        }
      }
      Rendered(e.(count := 0), t, w, Done)
  }

  /** A component or null edge with sound rendered children, finished, is sound. */
  lemma FinishSound(e: Edge, t: Target, rc: Rendering)
    requires e.node.None? && e.slot.SlotChild?
    requires e.component.Some? ==> IsClass(e.slot)
    requires e.hookster.Some? ==> IsFunction(e.slot)
    requires forall i :: 0 <= i < |rc.children| ==> Sound(rc.children[i])
    requires rc.target.index == t.index + |ChildrenNodes(e.(children := rc.children), |rc.children|)|
    ensures Sound(Finish(e, t, rc).edge)
  {
    var f := Finish(e, t, rc).edge;
    ChildrenNodesPrefix(f, e.(children := rc.children), |rc.children|);
    SoundIntro(f);
  }

  /** Giving a sound edge the owner its kind calls for keeps it sound. */
  lemma OwnerSetSound(e: Edge, e1: Edge)
    requires Sound(e)
    requires e1 == e.(component := e1.component, hookster := e1.hookster)
    requires e1.component.Some? ==> IsClass(e1.slot)
    requires e1.hookster.Some? ==> IsFunction(e1.slot)
    ensures Sound(e1)
  {
    SameFootprint(e, e1);
    SoundIntro(e1);
  }

  /** Tree.ts `renderClass`: construct or reuse the component, swap the ref, render, settle. */
  function RenderClass(e: Edge, prev: Option<Edge>, s: Slot, t: Target, w: World, o: Oracle, fuel: nat): (r: Rendered)
    requires fuel > 0 && e.slot == SlotChild(s) && s.contentType.ClassType?
    ensures r.target == Target(t.element, t.index + r.edge.count)
    ensures r.edge == e.(component := r.edge.component, children := r.edge.children, count := r.edge.count)
    ensures e.component.Some? ==> r.edge.component == e.component
    ensures r.edge.component.Some?
    ensures w.log <= r.world.log
    ensures r.status in {Done, Failed(RenderThrew(r.edge.component.value)), Failed(UpdateThrew(r.edge.component.value))}
    ensures r.status == Failed(UpdateThrew(r.edge.component.value)) <==>
              e.component.Some? && o.updateThrows(e.component.value, s)
    ensures r.status.Failed? && r.status.fault.UpdateThrew? ==> r.edge == e && r.world == Report(w, r.status.fault)
    ensures r.status.Failed? ==>
              && r.edge == e.(component := r.edge.component)
              && r.world.host == w.host
              && r.world.log == w.log + [Reported(r.status.fault)]
    ensures r.status.Done? ==> |r.world.log| > 0 && r.world.log[|r.world.log| - 1] == Settled(r.edge.component.value)
    ensures Sound(e) && Ready(prev) ==> Sound(r.edge)
    decreases fuel, 3
  {
    if e.component.Some? && o.updateThrows(e.component.value, s) then
      Fail(e, t, w, UpdateThrew(e.component.value))
    else
    var c := if e.component.Some? then e.component.value else w.next;
    var w1 := if e.component.Some? then w else w.(next := w.next + 1);
    var e1 := e.(component := Some(c));
    var w2 := w1.(refs := SwapRef(w1.refs, PrevRef(prev), RefOf(s.ref), ToOwner(c)));
    assert Sound(e) ==> Sound(e1) by {
      if Sound(e) {
        OwnerSetSound(e, e1);
      }
    }
    AfterRender(e1, prev, c, o.render(c, s), t, w2, o, fuel)
  }

  /** Tree.ts `renderFunction`: the same with a hook runtime and without a ref. */
  function RenderFunction(e: Edge, prev: Option<Edge>, s: Slot, t: Target, w: World, o: Oracle, fuel: nat): (r: Rendered)
    requires fuel > 0 && e.slot == SlotChild(s) && s.contentType.FunctionType?
    ensures r.target == Target(t.element, t.index + r.edge.count)
    ensures r.edge == e.(hookster := r.edge.hookster, children := r.edge.children, count := r.edge.count)
    ensures e.hookster.Some? ==> r.edge.hookster == e.hookster
    ensures r.edge.hookster.Some?
    ensures w.log <= r.world.log
    ensures r.status in {Done, Failed(RenderThrew(r.edge.hookster.value)), Failed(UpdateThrew(r.edge.hookster.value))}
    ensures r.status == Failed(UpdateThrew(r.edge.hookster.value)) <==>
              e.hookster.Some? && o.updateThrows(e.hookster.value, s)
    ensures r.status.Failed? && r.status.fault.UpdateThrew? ==> r.edge == e && r.world == Report(w, r.status.fault)
    ensures r.status.Failed? ==>
              && r.edge == e.(hookster := r.edge.hookster)
              && r.world.host == w.host
              && r.world.log == w.log + [Reported(r.status.fault)]
    ensures r.status.Done? ==> |r.world.log| > 0 && r.world.log[|r.world.log| - 1] == Settled(r.edge.hookster.value)
    ensures Sound(e) && Ready(prev) ==> Sound(r.edge)
    decreases fuel, 3
  {
    if e.hookster.Some? && o.updateThrows(e.hookster.value, s) then
      Fail(e, t, w, UpdateThrew(e.hookster.value))
    else
    var h := if e.hookster.Some? then e.hookster.value else w.next;
    var w1 := if e.hookster.Some? then w else w.(next := w.next + 1);
    var e1 := e.(hookster := Some(h));
    assert Sound(e) ==> Sound(e1) by {
      if Sound(e) {
        OwnerSetSound(e, e1);
      }
    }
    AfterRender(e1, prev, h, o.render(h, s), t, w1, o, fuel)
  }

  /**
   * What follows a component's render: a throw is caught and reported;
   * rendered children are reconciled, after which the owner settles
   * (`triggerRender`), so deeper owners settle first.
   */
  function AfterRender(e: Edge, prev: Option<Edge>, owner: OwnerId, out: Outcome, t: Target, w: World, o: Oracle,
                       fuel: nat): (r: Rendered)
    requires fuel > 0 && (IsClass(e.slot) || IsFunction(e.slot))
    ensures r.target == Target(t.element, t.index + r.edge.count)
    ensures r.edge == e.(children := r.edge.children, count := r.edge.count)
    ensures w.log <= r.world.log
    ensures out.Threw? ==>
              && r.status == Failed(RenderThrew(owner)) && r.edge == e
              && r.world.host == w.host && r.world.log == w.log + [Reported(RenderThrew(owner))]
    ensures out.Produced? ==>
              r.status == Done && |r.world.log| > 0 && r.world.log[|r.world.log| - 1] == Settled(owner)
    ensures Sound(e) && Ready(prev) ==> Sound(r.edge)
    decreases fuel, 2
  {
    match out
    case Threw => Fail(e, t, w, RenderThrew(owner))
    case Produced(kids) =>
      var rc := RenderChildren(e, prev, kids, t, w, o, fuel);
      assert Sound(e) && Ready(prev) ==> Sound(Finish(e, t, rc).edge) by {
        if Sound(e) && Ready(prev) {
          FinishSound(e, t, rc);
        }
      }
      var f := Finish(e, t, rc);
      f.(world := Settle(f.world, owner, o))
  }

  /** Tree.ts `renderNull`: a null slot renders its children in place and owns nothing. */
  function RenderNull(e: Edge, prev: Option<Edge>, s: Slot, t: Target, w: World, o: Oracle, fuel: nat): (r: Rendered)
    requires fuel > 0 && e.slot == SlotChild(s) && s.contentType.NullType?
    ensures r.target == Target(t.element, t.index + r.edge.count)
    ensures r.edge == e.(children := r.edge.children, count := r.edge.count)
    ensures w.log <= r.world.log
    ensures r.status == Done
    ensures Sound(e) && Ready(prev) ==> Sound(r.edge)
    decreases fuel, 2
  {
    var rc := RenderChildren(e, prev, s.children, t, w, o, fuel);
    var r := Finish(e, t, rc);
    assert rc.target.element == t.element && w.log <= rc.world.log;
    assert Sound(e) && Ready(prev) ==> Sound(r.edge) by {
      if Sound(e) && Ready(prev) {
        FinishSound(e, t, rc);
      }
    }
    r
  }

  /**
   * Tree.ts `renderElement`: create or reuse the element, patch its
   * attributes, render the children into it from index 0, then insert it at
   * the cursor.
   */
  function RenderElement(e: Edge, prev: Option<Edge>, s: Slot, tag: string, t: Target, w: World, o: Oracle,
                         fuel: nat): (r: Rendered)
    requires fuel > 0 && e.slot == SlotChild(s) && s.contentType == ElementType(tag)
    ensures r.target == Target(t.element, t.index + 1) && r.edge.count == 1
    ensures r.edge.slot == e.slot && r.edge.depth == e.depth && Keeps(e, r.edge)
    ensures r.edge.node.Some? && r.edge.component == e.component && r.edge.hookster == e.hookster
    ensures w.log <= r.world.log
    ensures r.status == Done
    ensures Sound(e) && Ready(prev) ==> Sound(r.edge)
    decreases fuel, 2
  {
    var n := if e.node.Some? then e.node.value else CreateElement(w, tag).0;
    var w1 := if e.node.Some? then w else CreateElement(w, tag).1;
    var e1 := e.(node := Some(n));
    var el := if n in w1.elements then w1.elements[n] else ElementState(map[], map[]);
    var p := PatchElement(el, w1.refs, n, s.props, PrevProps(prev), o.rejects);
    var w2 := w1.(elements := w1.elements[n := p.element], refs := p.refs, log := w1.log + Rejections(n, p.rejected));
    var rc := RenderChildren(e1, prev, s.children, NewTarget(n), w2, o, fuel);
    var ins := Insert(rc.world.host, t, n);
    var f := e1.(children := rc.children, count := 1);
    assert Sound(e) && Ready(prev) ==> Sound(f) by {
      if Sound(e) && Ready(prev) {
        SoundIntro(f);
      }
    }
    Rendered(f, ins.target, rc.world.(host := ins.host), Done)
  }

  /** Tree.ts `renderText`: create or reuse the text node, update its text if it changed, insert it. */
  function RenderText(e: Edge, prev: Option<Edge>, text: string, t: Target, w: World): (r: Rendered)
    requires e.slot == Text(text)
    ensures r.target == Target(t.element, t.index + 1) && r.edge.count == 1
    ensures r.edge == e.(node := r.edge.node, count := 1) && r.edge.node.Some? && Keeps(e, r.edge)
    ensures Some(text) != PrevText(prev) ==> r.edge.node.value in r.world.texts && r.world.texts[r.edge.node.value] == text
    ensures Some(text) == PrevText(prev) && e.node.Some? ==> r.world.texts == w.texts
    ensures r.world.log == w.log && r.status == Done
    ensures Sound(e) && Ready(prev) ==> Sound(r.edge)
  {
    var n := if e.node.Some? then e.node.value else CreateText(w).0;
    var w1 := if e.node.Some? then w else CreateText(w).1;
    var w2 := if Some(text) != PrevText(prev) then w1.(texts := w1.texts[n := text]) else w1;
    var ins := Insert(w2.host, t, n);
    Rendered(e.(node := Some(n), count := 1), ins.target, w2.(host := ins.host), Done)
  }

  /**
   * Tree.ts `renderChildren`: match the slots against the previous
   * children, unmount the unmatched ones, and render the new children in
   * order, moving the ones a key scan found elsewhere. With sound previous
   * children the result is sound and the cursor advances by the new
   * children's footprint.
   */
  function RenderChildren(e: Edge, prev: Option<Edge>, slots: seq<Child>, t: Target, w: World, o: Oracle,
                          fuel: nat): (r: Rendering)
    requires fuel > 0
    ensures r.target.element == t.element && |r.children| == |slots|
    ensures w.log <= r.world.log
    ensures var pcs := if prev.Some? then prev.value.children else [];
            w.log + TornDowns(OwnersAt(pcs, Unmatched(Match(slots, SlotsOf(pcs)), |pcs|))) <= r.world.log
    ensures Ready(prev) ==>
              && AllSound(r.children)
              && r.target.index == t.index + |ChildrenNodes(e.(children := r.children), |slots|)|
    decreases fuel, 1
  {
    var prevChildren := if prev.Some? then prev.value.children else [];
    var m := Match(slots, SlotsOf(prevChildren));
    var w1 := UnmountAll(prevChildren, Unmatched(m, |prevChildren|), t, w);
    RenderUpTo(e, prevChildren, slots, m, |slots|, t, w1, o, fuel)
  }

  /** The edge the `i`th slot renders into: the matched previous child with the new slot, or a new edge. */
  function ChildFor(e: Edge, prevChildren: seq<Edge>, slots: seq<Child>, m: seq<Option<nat>>, i: nat): (c: Edge)
    requires i < |slots| == |m| && (m[i].Some? ==> m[i].value < |prevChildren|)
    ensures m[i].Some? ==> c == prevChildren[m[i].value].(slot := slots[i])
    ensures m[i].None? ==> c == NewEdge(slots[i], e.depth + 1)
  {
    if m[i].Some? then prevChildren[m[i].value].(slot := slots[i]) else NewEdge(slots[i], e.depth + 1)
  }

  /** The previous snapshot the `i`th child renders against. */
  function PrevFor(prevChildren: seq<Edge>, m: seq<Option<nat>>, i: nat): (p: Option<Edge>)
    requires i < |m| && (m[i].Some? ==> m[i].value < |prevChildren|)
    ensures m[i].Some? ==> p == Some(prevChildren[m[i].value])
    ensures m[i].None? ==> p == None
  {
    if m[i].Some? then Some(prevChildren[m[i].value]) else None
  }

  /** The `i`th child of the render loop, after the move its key scan may call for. */
  function RenderOne(e: Edge, prevChildren: seq<Edge>, slots: seq<Child>, m: seq<Option<nat>>, i: nat,
                     t: Target, w: World, o: Oracle, fuel: nat): (r: Rendered)
    requires i < |slots| == |m|
    requires m[i].Some? ==> m[i].value < |prevChildren| && IsEqual(slots[i], prevChildren[m[i].value].slot)
    ensures r.target == Target(t.element, t.index + r.edge.count)
    ensures w.log <= r.world.log
    ensures Follows(e, prevChildren, slots, m, i, r.edge)
    ensures (m[i].Some? ==> Sound(prevChildren[m[i].value])) ==> Sound(r.edge)
    decreases fuel, 6
  {
    var child := ChildFor(e, prevChildren, slots, m, i);
    var prevChild := PrevFor(prevChildren, m, i);
    var host := if Moved(slots, m, i) then MoveEdge(child, w.host, t).host else w.host;
    assert m[i].Some? && Sound(prevChildren[m[i].value]) ==> Sound(child) && Ready(prevChild) by {
      if m[i].Some? && Sound(prevChildren[m[i].value]) {
        SlotSwapSound(prevChildren[m[i].value], slots[i]);
      }
    }
    RenderEdge(child, prevChild, t, w.(host := host), o, fuel)
  }

  /** One more sound child extends the footprint by its count. */
  lemma AppendSound(e: Edge, cs: seq<Edge>, c: Edge)
    requires AllSound(cs) && Sound(c)
    ensures AllSound(cs + [c])
    ensures |ChildrenNodes(e.(children := cs + [c]), |cs| + 1)| == |ChildrenNodes(e.(children := cs), |cs|)| + c.count
  {
    assert (cs + [c])[..|cs|] == cs;
    ChildrenNodesPrefix(e.(children := cs + [c]), e.(children := cs), |cs|);
  }

  /** The render loop of Tree.ts:236-249 over the first `k` new children. */
  function RenderUpTo(e: Edge, prevChildren: seq<Edge>, slots: seq<Child>, m: seq<Option<nat>>, k: nat,
                      t: Target, w: World, o: Oracle, fuel: nat): (r: Rendering)
    requires fuel > 0 && k <= |slots| && |m| == |slots|
    requires forall i :: 0 <= i < |m| && m[i].Some? ==>
               m[i].value < |prevChildren| && IsEqual(slots[i], prevChildren[m[i].value].slot)
    ensures r.target.element == t.element && |r.children| == k
    ensures w.log <= r.world.log
    ensures AllSound(prevChildren) ==>
              && AllSound(r.children)
              && r.target.index == t.index + |ChildrenNodes(e.(children := r.children), k)|
    decreases fuel, 0, k
  {
    if k == 0 then Rendering([], t, w)
    else
      var before := RenderUpTo(e, prevChildren, slots, m, k - 1, t, w, o, fuel);
      var r := RenderOne(e, prevChildren, slots, m, k - 1, before.target, before.world, o, fuel - 1);
      assert AllSound(prevChildren) ==>
               AllSound(before.children + [r.edge])
               && r.target.index == t.index + |ChildrenNodes(e.(children := before.children + [r.edge]), k)| by {
        if AllSound(prevChildren) {
          AppendSound(e, before.children, r.edge);
        }
      }
      Rendering(before.children + [r.edge], r.target, r.world)
  }

  /**
   * The children the loop renders follow the matching: each carries its slot,
   * a matched one keeps the previous child's depth, owners and host node,
   * and a new one is one level deeper than the parent.
   */
  lemma {:induction false} RenderUpToFollows(e: Edge, prevChildren: seq<Edge>, slots: seq<Child>, m: seq<Option<nat>>,
                                             k: nat, t: Target, w: World, o: Oracle, fuel: nat)
    requires fuel > 0 && k <= |slots| && |m| == |slots|
    requires forall i :: 0 <= i < |m| && m[i].Some? ==>
               m[i].value < |prevChildren| && IsEqual(slots[i], prevChildren[m[i].value].slot)
    ensures AllFollow(e, prevChildren, slots, m, RenderUpTo(e, prevChildren, slots, m, k, t, w, o, fuel).children)
    decreases k
  {
    if k > 0 {
      var before := RenderUpTo(e, prevChildren, slots, m, k - 1, t, w, o, fuel);
      RenderUpToFollows(e, prevChildren, slots, m, k - 1, t, w, o, fuel);
      var one := RenderOne(e, prevChildren, slots, m, k - 1, before.target, before.world, o, fuel - 1);
      var r := RenderUpTo(e, prevChildren, slots, m, k, t, w, o, fuel);
      assert r.children == before.children + [one.edge];
      forall i | 0 <= i < k
        ensures Follows(e, prevChildren, slots, m, i, r.children[i])
      {
        if i < k - 1 {
          assert r.children[i] == before.children[i];
        }
      }
    }
  }

  /**
   * Tree.ts:174-218 as the render pass carries it out: the `i`th new child is
   * the previous child the matching pairs it with, re-rendered, or a new edge
   * one level below the parent.
   */
  lemma RenderChildrenFollows(e: Edge, prev: Option<Edge>, slots: seq<Child>, t: Target, w: World, o: Oracle, fuel: nat)
    requires fuel > 0
    ensures var prevChildren := if prev.Some? then prev.value.children else [];
            AllFollow(e, prevChildren, slots, Match(slots, SlotsOf(prevChildren)),
                      RenderChildren(e, prev, slots, t, w, o, fuel).children)
  {
    var prevChildren := if prev.Some? then prev.value.children else [];
    var m := Match(slots, SlotsOf(prevChildren));
    var w1 := UnmountAll(prevChildren, Unmatched(m, |prevChildren|), t, w);
    assert RenderChildren(e, prev, slots, t, w, o, fuel) == RenderUpTo(e, prevChildren, slots, m, |slots|, t, w1, o, fuel);
    RenderUpToFollows(e, prevChildren, slots, m, |slots|, t, w1, o, fuel);
  }
}

=== FILE: routes.dfy ===
/**
 * The pure parts of the three routers around the external path matcher
 * (crossroads): the pattern each route is registered under, the filtering
 * of the matcher's parameter object, the choice between a matched, a
 * fallback and the default route, the location listener's skip rule, and
 * the page a router renders. The matcher is a parameter: for a registered
 * pattern and a location path it yields the parameter object, or nothing
 * when the path does not match.
 */
module Routes {
  import opened Wrappers
  import opened Locations

  /** One own property of a plain object, in the object's key order; values are opaque. */
  datatype Param = Param(key: string, value: string)

  /** A property that is missing, present but `undefined`, or set. */
  datatype Field<T> = Absent | Undefined | Given(value: T)

  /** `const { name = fallback } = object`: the default applies when the value is `undefined`. */
  function Or<T>(f: Field<T>, fallback: T): (r: T)
    ensures f.Given? ==> r == f.value
    ensures !f.Given? ==> r == fallback
  {
    match f
    case Given(v) => v
    case _ => fallback
  }

  // ---- the matcher's parameter object ---------------------------------------

  /** The characters `parseInt` skips before the number (white space and line terminators). */
  predicate IsSpace(ch: char) {
    || ch == ' ' || ch == '\t' || ch == '\n' || ch == '\r'
    || ch == '\U{000B}' || ch == '\U{000C}' || ch == '\U{00A0}' || ch == '\U{FEFF}'
    || ch == '\U{1680}' || ('\U{2000}' <= ch <= '\U{200A}') || ch == '\U{2028}' || ch == '\U{2029}'
    || ch == '\U{202F}' || ch == '\U{205F}' || ch == '\U{3000}'
  }

  function SkipSpace(s: string): (r: string)
    ensures |r| <= |s| && (|r| > 0 ==> !IsSpace(r[0]))
    decreases |s|
  {
    if |s| > 0 && IsSpace(s[0]) then SkipSpace(s[1..]) else s
  }

  predicate IsDigit(ch: char) {
    '0' <= ch <= '9'
  }

  predicate IsHexDigit(ch: char) {
    IsDigit(ch) || ('a' <= ch <= 'f') || ('A' <= ch <= 'F')
  }

  /**
   * `Number.isInteger(parseInt(key))`: after white space and one sign, a
   * "0x" prefix needs a hex digit after it, anything else a decimal digit
   * first; otherwise `parseInt` gives `NaN`.
   */
  predicate ParsesAsInteger(key: string) {
    var s := SkipSpace(key);
    var t := if |s| > 0 && (s[0] == '+' || s[0] == '-') then s[1..] else s;
    if |t| >= 2 && t[0] == '0' && (t[1] == 'x' || t[1] == 'X') then |t| > 2 && IsHexDigit(t[2])
    else |t| > 0 && IsDigit(t[0])
  }

  /** A property crossroads adds to the parameter object: its request, its values, or a positional capture. */
  predicate MatcherOwn(key: string) {
    key == "request_" || key == "vals_" || ParsesAsInteger(key)
  }

  /** The keys a route's `params` keep. */
  predicate Kept(key: string, nested: bool) {
    !MatcherOwn(key) && !(nested && key == "rest*")
  }

  /** `Object.keys(obj).filter(...).forEach(key => params[key] = obj[key])`. */
  function WithoutMatcherOwn(obj: seq<Param>): (r: seq<Param>)
    ensures forall p :: p in r <==> p in obj && !MatcherOwn(p.key)
    ensures |r| <= |obj|
    decreases |obj|
  {
    if |obj| == 0 then []
    else if MatcherOwn(obj[0].key) then WithoutMatcherOwn(obj[1..])
    else [obj[0]] + WithoutMatcherOwn(obj[1..])
  }

  /** `delete params[key]`. */
  function DeleteKey(params: seq<Param>, key: string): (r: seq<Param>)
    ensures forall p :: p in r <==> p in params && p.key != key
    ensures |r| <= |params|
    decreases |params|
  {
    if |params| == 0 then []
    else if params[0].key == key then DeleteKey(params[1..], key)
    else [params[0]] + DeleteKey(params[1..], key)
  }

  /**
   * The route handler's filtering (RouterController.ts:166-186): the
   * matcher's own properties go, and for a nested route so does the
   * catch-all "rest*" capture.
   */
  function FilterParams(obj: seq<Param>, nested: bool): (r: seq<Param>)
    ensures forall p :: p in r <==> p in obj && Kept(p.key, nested)
  {
    var params := WithoutMatcherOwn(obj);
    if nested then DeleteKey(params, "rest*") else params
  }

  /** An object of route placeholders only passes through whole, in its order. */
  lemma {:induction false} FilterParamsKeepsPlaceholders(obj: seq<Param>, nested: bool)
    requires forall i :: 0 <= i < |obj| ==> Kept(obj[i].key, nested)
    ensures FilterParams(obj, nested) == obj
  {
    KeepsOwn(obj, nested);
  }

  lemma {:induction false} KeepsOwn(obj: seq<Param>, nested: bool)
    requires forall i :: 0 <= i < |obj| ==> Kept(obj[i].key, nested)
    ensures WithoutMatcherOwn(obj) == obj
    ensures nested ==> DeleteKey(obj, "rest*") == obj
    decreases |obj|
  {
    if |obj| > 0 {
      KeepsOwn(obj[1..], nested);
      assert obj == [obj[0]] + obj[1..];
    }
  }

  /** The keys crossroads itself adds and every integer-looking key are never route parameters. */
  lemma MatcherKeysDropped()
    ensures MatcherOwn("request_") && MatcherOwn("vals_")
    ensures ParsesAsInteger("0") && ParsesAsInteger(" -12px") && ParsesAsInteger("0x1f")
    ensures !ParsesAsInteger("id") && !ParsesAsInteger("0x") && !ParsesAsInteger("rest*")
  {
    assert SkipSpace(" -12px") == "-12px" by {
      assert !IsSpace('-');
      assert " -12px"[1..] == "-12px";
    }
    assert "-12px"[1..] == "12px";
  }

  // ---- registering routes ---------------------------------------------------

  /**
   * The pattern a route is registered under (RouterController.ts:158-164):
   * the base unless it is "/", the route's path, and a catch-all tail for a
   * nested route.
   */
  function RoutePattern(base: string, path: string, nested: bool): (r: string)
    ensures base != "/" ==> base <= r
    ensures !nested ==> |r| >= |path| && r[|r| - |path|..] == path
    ensures base == "/" && !nested ==> r == path
    ensures base != "/" && !nested ==> r == base + path
    ensures nested ==> r == (if base != "/" then base else "") + path + "/:rest*:"
  {
    var prefix := if base != "/" then base else "";
    var pattern := prefix + path;
    var r := if nested then pattern + "/:rest*:" else pattern;
    assert prefix <= r by {
      assert r[..|prefix|] == prefix;
    }
    r
  }

  /** Under one base and nesting, different route paths register different patterns. */
  lemma RoutePatternInjective(base: string, p: string, q: string, nested: bool)
    requires RoutePattern(base, p, nested) == RoutePattern(base, q, nested)
    ensures p == q
  {
    var prefix := if base != "/" then base else "";
    var tail := if nested then "/:rest*:" else "";
    assert RoutePattern(base, p, nested) == prefix + p + tail;
    assert RoutePattern(base, q, nested) == prefix + q + tail;
    assert |p| == |q|;
    assert p == (prefix + p + tail)[|prefix|..|prefix| + |p|];
    assert q == (prefix + q + tail)[|prefix|..|prefix| + |q|];
  }

  // ---- choosing the route -----------------------------------------------

  /** A route's props: an object, or (Router.js only) a function of the route. */
  datatype Props = PropsObject(entries: seq<Param>) | PropsFunction(fn: nat)

  /** Router.js `uniqueKey`: the default `({ path }) => path`, another function, or a plain value. */
  datatype UniqueKey = KeyOfPath | KeyFunction(fn: nat) | KeyValue(key: string)

  /**
   * An entry of the `routes` prop. `props` is the entry's `props`
   * (RouterController.ts, Router.js) or `data` (Router.ts); only Router.js
   * reads `uniqueKey`.
   */
  datatype RouteDef = RouteDef(
    path: Option<string>,
    nested: Field<bool>,
    screen: Option<nat>,
    template: Field<Option<nat>>,
    props: Field<Props>,
    scroll: Field<bool>,
    uniqueKey: Field<UniqueKey>)

  /** `{ ...definition, params }`. */
  datatype Route = Route(def: RouteDef, params: seq<Param>)

  /** `{ path: null, Screen: null, params: {} }`: every other property is missing. */
  function DefaultRoute(): (r: Route)
    ensures r.def.path.None? && r.def.screen.None? && r.params == []
  {
    Route(RouteDef(None, Absent, None, Absent, Absent, Absent, Absent), [])
  }

  /** The crossroads matcher: the parameter object for a pattern and a location path, if they match. */
  type Matcher = (string, string) -> Option<seq<Param>>

  /** `routes.find(route => route.path === null)`. */
  function FindFallback(routes: seq<RouteDef>): (r: Option<nat>)
    ensures r.Some? ==> r.value < |routes| && routes[r.value].path.None?
    ensures r.Some? ==> forall j :: 0 <= j < r.value ==> routes[j].path.Some?
    ensures r.None? ==> forall j :: 0 <= j < |routes| ==> routes[j].path.Some?
    decreases |routes|
  {
    if |routes| == 0 then None
    else if routes[0].path.None? then Some(0)
    else match FindFallback(routes[1..])
         case Some(k) => Some(k + 1)
         case None => None
  }

  /** Whether the route at `i` is registered and its pattern matches the location path. */
  predicate Matches(base: string, routes: seq<RouteDef>, i: nat, locationPath: string, matcher: Matcher)
    requires i < |routes|
  {
    routes[i].path.Some?
    && matcher(RoutePattern(base, routes[i].path.value, Or(routes[i].nested, false)), locationPath).Some?
  }

  /**
   * The route crossroads runs the handler of: the first registered route,
   * from `i` on, whose pattern matches (routes share one priority, so the
   * order of `addRoute` decides, and only the first match runs).
   */
  function FirstMatch(base: string, routes: seq<RouteDef>, i: nat, locationPath: string, matcher: Matcher): (r: Option<nat>)
    requires i <= |routes|
    ensures r.Some? ==> i <= r.value < |routes| && Matches(base, routes, r.value, locationPath, matcher)
    ensures r.Some? ==> forall j :: i <= j < r.value ==> !Matches(base, routes, j, locationPath, matcher)
    ensures r.None? ==> forall j :: i <= j < |routes| ==> !Matches(base, routes, j, locationPath, matcher)
    decreases |routes| - i
  {
    if i == |routes| then None
    else if Matches(base, routes, i, locationPath, matcher) then Some(i)
    else FirstMatch(base, routes, i + 1, locationPath, matcher)
  }

  /**
   * `parseRoute()` (RouterController.ts:134-201, Router.ts:103-168,
   * Router.js:65-134): the first matching route with its filtered
   * parameters; without a match the first path-less route with no
   * parameters; without one of those the default route.
   */
  function ParseRoute(base: Field<string>, routes: seq<RouteDef>, locationPath: string, matcher: Matcher): (r: Route)
    ensures r.def.path.Some? <==> exists i :: 0 <= i < |routes| && Matches(Or(base, "/"), routes, i, locationPath, matcher)
    ensures r.def.path.Some? ==>
              exists i :: 0 <= i < |routes| && routes[i] == r.def && Matches(Or(base, "/"), routes, i, locationPath, matcher)
                && (forall j :: 0 <= j < i ==> !Matches(Or(base, "/"), routes, j, locationPath, matcher))
                && r.params == FilterParams(matcher(RoutePattern(Or(base, "/"), r.def.path.value, Or(r.def.nested, false)),
                                                    locationPath).value, Or(r.def.nested, false))
    ensures r.def.path.None? ==> r.params == []
    ensures r.def.path.None? && (exists i :: 0 <= i < |routes| && routes[i].path.None?) ==> r.def in routes
    ensures (forall i :: 0 <= i < |routes| ==> routes[i].path.Some?) && r.def.path.None? ==> r == DefaultRoute()
    ensures r.def.path.None? && FindFallback(routes).Some? ==> r == Route(routes[FindFallback(routes).value], [])
  {
    var b := Or(base, "/");
    var fallback := FindFallback(routes);
    var start := if fallback.Some? then Route(routes[fallback.value], []) else DefaultRoute();
    match FirstMatch(b, routes, 0, locationPath, matcher)
    case Some(i) =>
      var d := routes[i];
      var nested := Or(d.nested, false);
      Route(d, FilterParams(matcher(RoutePattern(b, d.path.value, nested), locationPath).value, nested))
    case None => start
  }

  // ---- the location listener ------------------------------------------------

  /** What a router instance remembers: `this.locationPath` and `this.route`. */
  datatype RouterState = RouterState(locationPath: Option<string>, route: Option<Route>)

  /**
   * The location listener (RouterController.ts:95-123, Router.ts:69-97,
   * Router.js:33-59), with whether it calls `update()`. An unchanged
   * location path is ignored; otherwise the route is parsed (which stores
   * the new path) and an update is skipped when the route's path and
   * parameters equal the rendered route's.
   */
  function Listen(st: RouterState, pathname: string, base: Field<string>, routes: seq<RouteDef>, matcher: Matcher): (r: (RouterState, bool))
    ensures r.0.route == st.route
    ensures r.0.locationPath == Some(LocationPath(pathname))
    ensures st.locationPath == Some(LocationPath(pathname)) ==> r == (st, false)
    ensures r.1 <==>
              && st.locationPath != Some(LocationPath(pathname))
              && var parsed := ParseRoute(base, routes, LocationPath(pathname), matcher);
                 (st.route.None? || parsed.def.path != st.route.value.def.path || parsed.params != st.route.value.params)
  {
    var locationPath := LocationPath(pathname);
    if st.locationPath == Some(locationPath) then (st, false)
    else
      var route := ParseRoute(base, routes, locationPath, matcher);
      var st' := st.(locationPath := Some(locationPath));
      if st.route.Some? && route.def.path == st.route.value.def.path && route.params == st.route.value.params then (st', false)
      else (st', true)
  }

  // ---- rendering: Router.ts and RouterController.ts -------------------------

  /** The `routes`, `base` and defaults a router is given. */
  datatype RouterProps = RouterProps(
    base: Field<string>,
    routes: seq<RouteDef>,
    template: Field<Option<nat>>,
    props: Field<Props>,
    scroll: Field<bool>,
    uniqueKey: Field<UniqueKey>)

  /** `{ path, params }`: the `route` prop a screen receives. */
  datatype RouteObj = RouteObj(path: Option<string>, params: seq<Param>)

  /**
   * The page Router.ts renders: `$(Template, $(scroll ? Scroller : null,
   * { key }, $(Screen, { ...props, route })))`; the key is the JSON text of
   * the route object, kept here as the object itself.
   */
  datatype View = View(template: Option<nat>, scroller: bool, key: RouteObj, screen: Option<nat>, props: Props, route: RouteObj)

  /** `if (route.x !== undefined) x = route.x`: a route overrides only with a defined value. */
  function OverrideDefined<T>(f: Field<T>, current: T): (r: T)
    ensures f.Given? ==> r == f.value
    ensures !f.Given? ==> r == current
  {
    if f.Given? then f.value else current
  }

  /**
   * `render()` of Router.ts (lines 170-207) and RouterController.ts
   * (203-240): the route's scroll, Template and data override the router's
   * (or the built-in defaults) only when defined; the render stores the
   * location path and the route.
   */
  function Render(p: RouterProps, pathname: string, matcher: Matcher): (r: (View, RouterState))
    ensures var route := ParseRoute(p.base, p.routes, LocationPath(pathname), matcher);
            && r.1 == RouterState(Some(LocationPath(pathname)), Some(route))
            && r.0.route == RouteObj(route.def.path, route.params) && r.0.key == r.0.route
            && r.0.screen == route.def.screen
            && r.0.scroller == (if route.def.scroll.Given? then route.def.scroll.value else Or(p.scroll, true))
            && r.0.template == (if route.def.template.Given? then route.def.template.value else Or(p.template, None))
            && r.0.props == (if route.def.props.Given? then route.def.props.value else Or(p.props, PropsObject([])))
  {
    var scroll := Or(p.scroll, true);
    var template := Or(p.template, None);
    var props := Or(p.props, PropsObject([]));
    var locationPath := LocationPath(pathname);
    var route := ParseRoute(p.base, p.routes, locationPath, matcher);
    var obj := RouteObj(route.def.path, route.params);
    (View(OverrideDefined(route.def.template, template), OverrideDefined(route.def.scroll, scroll), obj,
          route.def.screen, OverrideDefined(route.def.props, props), obj),
     RouterState(Some(locationPath), Some(route)))
  }

  /** Right after a render, the listener ignores the same location. */
  lemma RenderThenListenIsQuiet(p: RouterProps, pathname: string, matcher: Matcher)
    ensures var st := Render(p, pathname, matcher).1;
            Listen(st, pathname, p.base, p.routes, matcher) == (st, false)
  {
  }

  /**
   * A new location that parses to the rendered route's path and parameters
   * is remembered without an update; one that parses to another is rendered.
   */
  lemma ListenAfterRender(p: RouterProps, pathname: string, next: string, matcher: Matcher)
    requires LocationPath(next) != LocationPath(pathname)
    ensures var st := Render(p, pathname, matcher).1;
            var now := ParseRoute(p.base, p.routes, LocationPath(pathname), matcher);
            var later := ParseRoute(p.base, p.routes, LocationPath(next), matcher);
            Listen(st, next, p.base, p.routes, matcher).1 <==> (later.def.path != now.def.path || later.params != now.params)
  {
  }

  // ---- rendering: Router.js -------------------------------------------------

  /** `if ("x" in route) ({ x = fallback } = route)`: any present property overrides, `undefined` as the built-in default. */
  function OverridePresent<T>(f: Field<T>, current: T, fallback: T): (r: T)
    ensures f.Given? ==> r == f.value
    ensures f.Undefined? ==> r == fallback
    ensures f.Absent? ==> r == current
  {
    if f.Absent? then current else Or(f, fallback)
  }

  /**
   * The two override rules disagree exactly on a property that is present
   * but `undefined`, when the router's own setting is not the built-in default.
   */
  lemma OverrideVariants<T>(f: Field<T>, current: T, fallback: T)
    ensures OverridePresent(f, current, fallback) != OverrideDefined(f, current) <==> f.Undefined? && current != fallback
  {
  }

  /**
   * Router.js `routePath` (lines 172-178): null for a nested route; the
   * location path under the root base; "/" at the base itself; otherwise
   * the location path without as many leading characters as the base has.
   */
  function RoutePath(nested: bool, base: string, locationPath: string): (r: Option<string>)
    ensures nested <==> r.None?
    ensures !nested && base == "/" ==> r == Some(locationPath)
    ensures !nested && base != "/" && base == locationPath ==> r == Some("/")
    ensures !nested && base != "/" && base != locationPath ==>
              r == Some(if |base| <= |locationPath| then locationPath[|base|..] else "")
  {
    if nested then None
    else if base != "/" then
      if base != locationPath then Some(Slice(locationPath, |base|)) else Some("/")
    else Some(locationPath)
  }

  /** `s.slice(n)` for a non-negative `n`: empty once `n` passes the end. */
  function Slice(s: string, n: nat): (r: string)
    ensures n <= |s| ==> r == s[n..]
    ensures n > |s| ==> r == ""
  {
    if n <= |s| then s[n..] else ""
  }

  /** Under a base, a location inside it yields the rest of the path, which keeps its leading slash. */
  lemma RoutePathUnderBase(base: string, rest: string)
    requires base != "/" && |rest| > 0
    ensures RoutePath(false, base, base + rest) == Some(rest)
  {
    assert base + rest != base by {
      assert |base + rest| > |base|;
    }
    assert (base + rest)[|base|..] == rest;
  }

  /**
   * The slice does not check that the location is under the base: a
   * location elsewhere (which only the fallback route can be rendered for)
   * loses its first characters.
   */
  lemma RoutePathOutsideBase()
    ensures RoutePath(false, "/app", "/other/x") == Some("er/x")
  {
    assert "/other/x"[4..] == "er/x";
  }

  /** Router.js calls function-valued `props` and `uniqueKey` with the route object. */
  datatype Calls = Calls(props: (nat, RouteObj) -> seq<Param>, key: (nat, RouteObj) -> Option<string>)

  /** `typeof uniqueKey === "function" ? uniqueKey(routeObj) : uniqueKey` (lines 182-183). */
  function RouteKey(k: UniqueKey, obj: RouteObj, calls: Calls): (r: Option<string>)
    ensures k == KeyOfPath ==> r == obj.path
    ensures k.KeyValue? ==> r == Some(k.key)
  {
    match k
    case KeyOfPath => obj.path
    case KeyFunction(fn) => calls.key(fn, obj)
    case KeyValue(key) => Some(key)
  }

  /** `typeof props === "function" ? props(routeObj) : props` (line 185). */
  function RouteProps(p: Props, obj: RouteObj, calls: Calls): (r: seq<Param>)
    ensures p.PropsObject? ==> r == p.entries
  {
    match p
    case PropsObject(entries) => entries
    case PropsFunction(fn) => calls.props(fn, obj)
  }

  /** `$(Container, { key }, $(Screen, { ...props, route }))`, the container a scroller or the null component. */
  datatype Container = Container(scroller: bool, key: Option<string>, screen: Option<nat>, props: seq<Param>, route: RouteObj)

  /** Router.js's page: the container alone when Template is null, otherwise the container inside the Template. */
  datatype Page = Bare(container: Container) | Wrapped(template: nat, props: seq<Param>, route: RouteObj, container: Container)

  /**
   * Router.js `render()` (lines 136-200): defaults from the router's props,
   * overridden by any property the route has, even an `undefined` one; the
   * route path relative to the base; the key and props resolved against
   * the route object; and the Template wrapped around the container only
   * when there is one.
   */
  function LegacyRender(p: RouterProps, pathname: string, matcher: Matcher, calls: Calls): (r: (Page, RouterState))
    ensures var locationPath := LocationPath(pathname);
            var route := ParseRoute(p.base, p.routes, locationPath, matcher);
            var obj := RouteObj(RoutePath(Or(route.def.nested, false), Or(p.base, "/"), locationPath), route.params);
            var props := RouteProps(OverridePresent(route.def.props, Or(p.props, PropsObject([])), PropsObject([])), obj, calls);
            var template := OverridePresent(route.def.template, Or(p.template, None), None);
            && r.1 == RouterState(Some(locationPath), Some(route))
            && r.0.container.route == obj && r.0.container.props == props && r.0.container.screen == route.def.screen
            && r.0.container.scroller == OverridePresent(route.def.scroll, Or(p.scroll, true), true)
            && r.0.container.key == RouteKey(OverridePresent(route.def.uniqueKey, Or(p.uniqueKey, KeyOfPath), KeyOfPath), obj, calls)
            && (template.None? <==> r.0.Bare?)
            && (r.0.Wrapped? ==> r.0.template == template.value && r.0.props == props && r.0.route == obj)
  {
    var base := Or(p.base, "/");
    var locationPath := LocationPath(pathname);
    var route := ParseRoute(p.base, p.routes, locationPath, matcher);
    var scroll := OverridePresent(route.def.scroll, Or(p.scroll, true), true);
    var template := OverridePresent(route.def.template, Or(p.template, None), None);
    var props := OverridePresent(route.def.props, Or(p.props, PropsObject([])), PropsObject([]));
    var uniqueKey := OverridePresent(route.def.uniqueKey, Or(p.uniqueKey, KeyOfPath), KeyOfPath);
    var obj := RouteObj(RoutePath(Or(route.def.nested, false), base, locationPath), route.params);
    var routeProps := RouteProps(props, obj, calls);
    var container := Container(scroll, RouteKey(uniqueKey, obj, calls), route.def.screen, routeProps, obj);
    var page := if template.Some? then Wrapped(template.value, routeProps, obj, container) else Bare(container);
    (page, RouterState(Some(locationPath), Some(route)))
  }

  /** With no `uniqueKey` anywhere, a page is keyed by its route path. */
  lemma DefaultKeyIsRoutePath(p: RouterProps, pathname: string, matcher: Matcher, calls: Calls)
    requires !p.uniqueKey.Given?
    requires forall i :: 0 <= i < |p.routes| ==> !p.routes[i].uniqueKey.Given?
    ensures var page := LegacyRender(p, pathname, matcher, calls).0;
            page.container.key == page.container.route.path
  {
    var route := ParseRoute(p.base, p.routes, LocationPath(pathname), matcher);
    if route.def != DefaultRoute().def {
      assert route.def in p.routes;
    }
  }
}

=== FILE: scheduler.dfy ===
/**
 * The update queue of Tree.ts (lines 75-104): `queue` appends, `unqueue`
 * filters an entry out, and `rerender` sorts the stack by depth (a stable
 * sort, as JavaScript's `Array.prototype.sort` is) and renders its head.
 */
module Scheduler {
  import opened Seqs

  /** `stack.push(x)`. */
  function Queue<T>(stack: seq<T>, x: T): (r: seq<T>)
    ensures |r| == |stack| + 1 && r[..|stack|] == stack && r[|stack|] == x
  {
    stack + [x]
  }

  /** `stack.filter(y => y !== x)`. */
  function Unqueue<T(==,!new)>(stack: seq<T>, x: T): (r: seq<T>)
    ensures x !in r
    ensures forall y :: y in r <==> y in stack && y != x
    ensures x !in stack ==> r == stack
  {
    Without(stack, x)
  }

  /** Unqueueing an entry undoes every queueing of it, and nothing else. */
  lemma {:induction false} UnqueueAfterQueue<T(!new)>(stack: seq<T>, x: T)
    ensures Unqueue(Queue(stack, x), x) == Unqueue(stack, x)
  {
    WithoutAppend(stack, x);
  }

  lemma {:induction false} WithoutAppend<T(!new)>(s: seq<T>, x: T)
    ensures Without(s + [x], x) == Without(s, x)
    decreases |s|
  {
    if |s| == 0 {
      assert Without([x], x) == Without([x][1..], x);
    } else {
      assert (s + [x])[1..] == s[1..] + [x];
      WithoutAppend(s[1..], x);
    }
  }

  // ---- the depth sort ---------------------------------------------------

  /** Every entry is at least as deep as the one before it. */
  predicate SortedBy<T>(s: seq<T>, depth: T -> int) {
    forall a, b :: 0 <= a < b < |s| ==> depth(s[a]) <= depth(s[b])
  }

  /** Put `x` before the first entry that is not shallower than it. */
  function InsertByDepth<T>(x: T, s: seq<T>, depth: T -> int): (r: seq<T>)
    requires SortedBy(s, depth)
    ensures SortedBy(r, depth)
    ensures multiset(r) == multiset(s) + multiset{x}
    ensures |s| == 0 || depth(x) <= depth(s[0]) ==> r[0] == x
    ensures |s| > 0 && depth(x) > depth(s[0]) ==> r[0] == s[0]
    decreases |s|
  {
    if |s| == 0 || depth(x) <= depth(s[0]) then [x] + s
    else
      var rest := InsertByDepth(x, s[1..], depth);
      assert s == [s[0]] + s[1..];
      assert forall y :: y in multiset(rest) ==> y == x || y in multiset(s[1..]);
      assert forall a :: 0 <= a < |rest| ==> depth(s[0]) <= depth(rest[a]) by {
        forall a | 0 <= a < |rest|
          ensures depth(s[0]) <= depth(rest[a])
        {
          assert rest[a] in multiset(rest);
          if rest[a] != x {
            assert rest[a] in multiset(s[1..]);
            var b :| 0 <= b < |s[1..]| && s[1..][b] == rest[a];
            assert s[b + 1] == rest[a];
          }
        }
      }
      [s[0]] + rest
  }

  /**
   * `stack.sort((a, b) => a.depth - b.depth)`: a permutation of the stack in
   * ascending depth, whose head is the first of the shallowest entries.
   */
  function SortByDepth<T>(s: seq<T>, depth: T -> int): (r: seq<T>)
    ensures SortedBy(r, depth)
    ensures multiset(r) == multiset(s)
    ensures |r| == |s|
    ensures |s| > 0 ==> r[0] == s[Shallowest(s, depth)]
    decreases |s|
  {
    if |s| == 0 then []
    else
      assert s == [s[0]] + s[1..];
      var sorted := SortByDepth(s[1..], depth);
      var r := InsertByDepth(s[0], sorted, depth);
      assert |r| == |multiset(r)|;
      r
  }

  /**
   * The index of the first shallowest entry: nothing is shallower than it,
   * and every entry before it is strictly deeper.
   */
  function Shallowest<T>(s: seq<T>, depth: T -> int): (k: nat)
    requires |s| > 0
    ensures k < |s|
    ensures forall j :: 0 <= j < |s| ==> depth(s[k]) <= depth(s[j])
    ensures forall j :: 0 <= j < k ==> depth(s[j]) > depth(s[k])
    decreases |s|
  {
    if |s| == 1 then 0
    else
      var k := Shallowest(s[1..], depth);
      if depth(s[0]) <= depth(s[1..][k]) then 0 else k + 1
  }
}

=== FILE: seqs.dfy ===
/** Sequence helpers shared by the reconciler model. */
module Seqs {

  /** Sum of a sequence of integers, left to right. */
  function Sum(s: seq<int>): int
    decreases |s|
  {
    if |s| == 0 then 0 else Sum(s[..|s| - 1]) + s[|s| - 1]
  }

  lemma {:induction false} SumAppend(a: seq<int>, b: seq<int>)
    ensures Sum(a + b) == Sum(a) + Sum(b)
    decreases |b|
  {
    if |b| == 0 {
      assert a + b == a;
    } else {
      assert (a + b)[..|a + b| - 1] == a + b[..|b| - 1];
      SumAppend(a, b[..|b| - 1]);
    }
  }

  /** Concatenation of a sequence of sequences. */
  function Flatten<T>(ss: seq<seq<T>>): seq<T>
    decreases |ss|
  {
    if |ss| == 0 then [] else Flatten(ss[..|ss| - 1]) + ss[|ss| - 1]
  }

  lemma {:induction false} FlattenAppend<T>(a: seq<seq<T>>, b: seq<seq<T>>)
    ensures Flatten(a + b) == Flatten(a) + Flatten(b)
    decreases |b|
  {
    if |b| == 0 {
      assert a + b == a;
    } else {
      assert (a + b)[..|a + b| - 1] == a + b[..|b| - 1];
      FlattenAppend(a, b[..|b| - 1]);
    }
  }

  /** `s` with every occurrence of `x` taken out, the rest kept in order. */
  function Without<T(==,!new)>(s: seq<T>, x: T): (r: seq<T>)
    ensures x !in r
    ensures forall y :: y in r <==> y in s && y != x
    ensures x !in s ==> r == s
    ensures |r| <= |s|
    decreases |s|
  {
    if |s| == 0 then []
    else if s[0] == x then Without(s[1..], x)
    else [s[0]] + Without(s[1..], x)
  }

  /** Position of the first occurrence of `x` in `s`, or -1 (JavaScript `indexOf`). */
  function IndexOf<T(==)>(s: seq<T>, x: T): (r: int)
    ensures -1 <= r < |s|
    ensures r == -1 <==> x !in s
    ensures 0 <= r ==> s[r] == x && x !in s[..r]
    decreases |s|
  {
    if |s| == 0 then -1
    else if s[0] == x then 0
    else
      var k := IndexOf(s[1..], x);
      assert s[1..][..(if k < 0 then 0 else k)] == s[1..1 + (if k < 0 then 0 else k)];
      if k == -1 then -1 else k + 1
  }

  /** No element occurs twice. */
  predicate NoDup<T(==)>(s: seq<T>) {
    forall i, j :: 0 <= i < j < |s| ==> s[i] != s[j]
  }

  /** `s` with every member of `xs` taken out, the rest kept in order. */
  function Minus<T(==,!new)>(s: seq<T>, xs: set<T>): (r: seq<T>)
    ensures forall y :: y in r <==> y in s && y !in xs
    decreases |s|
  {
    if |s| == 0 then []
    else if s[0] in xs then Minus(s[1..], xs)
    else [s[0]] + Minus(s[1..], xs)
  }

  lemma {:induction false} MinusNothing<T(!new)>(s: seq<T>)
    ensures Minus(s, {}) == s
    decreases |s|
  {
    if |s| > 0 {
      MinusNothing(s[1..]);
      assert s == [s[0]] + s[1..];
    }
  }

  /** Taking out one more element after a set of them is taking out their union. */
  lemma {:induction false} MinusThenWithout<T(!new)>(s: seq<T>, xs: set<T>, x: T)
    ensures Without(Minus(s, xs), x) == Minus(s, xs + {x})
    decreases |s|
  {
    if |s| > 0 {
      MinusThenWithout(s[1..], xs, x);
      if s[0] !in xs {
        assert ([s[0]] + Minus(s[1..], xs))[1..] == Minus(s[1..], xs);
      }
    }
  }

  lemma {:induction false} MinusMinus<T(!new)>(s: seq<T>, a: set<T>, b: set<T>)
    ensures Minus(Minus(s, a), b) == Minus(s, a + b)
    decreases |s|
  {
    if |s| > 0 {
      MinusMinus(s[1..], a, b);
      if s[0] !in a {
        assert ([s[0]] + Minus(s[1..], a))[1..] == Minus(s[1..], a);
      }
    }
  }
}

=== FILE: slots.dfy ===
/**
 * Slots: the immutable descriptions the reconciler consumes, and the
 * type-and-key comparison that decides whether an existing edge may be
 * reused for a new child (Tree.ts `isEqual`).
 */
module Slots {
  import opened Wrappers

  /** Slot keys; the source compares them with `===`. */
  type Key = string

  /** What a slot renders: a class component, a function component, a host tag, or the null passthrough. */
  datatype ContentType =
    | ClassType(cls: nat)
    | FunctionType(fn: nat)
    | ElementType(tag: string)
    | NullType

  /**
   * A prop / attribute value as the host patching sees it. `NullValue` covers
   * both `null` and `undefined` (the source reads `value ?? null`); a `Handler`
   * is a function value, a `RefValue` a `Ref` object, `Plain` anything else.
   */
  datatype AttrValue = NullValue | Handler(fn: nat) | RefValue(ref: nat) | Plain(text: string)

  /** One own property of a props object, in the object's key order. */
  datatype Attr = Attr(name: string, value: AttrValue)

  datatype Slot = Slot(
    contentType: ContentType,
    key: Option<Key>,
    ref: Option<nat>,
    props: seq<Attr>,
    children: seq<Child>)

  /** The three values `renderEdge` ignores. */
  datatype Ignorable = NullChild | UndefinedChild | FalseChild

  /** A child position: a slot, an ignorable value, or a text-like value (string, number, `true`). */
  datatype Child = SlotChild(slot: Slot) | Ignored(which: Ignorable) | Text(text: string)

  predicate IsClass(c: Child) { c.SlotChild? && c.slot.contentType.ClassType? }
  predicate IsFunction(c: Child) { c.SlotChild? && c.slot.contentType.FunctionType? }
  predicate IsElement(c: Child) { c.SlotChild? && c.slot.contentType.ElementType? }
  predicate IsNull(c: Child) { c.SlotChild? && c.slot.contentType.NullType? }

  /** A slot carrying a non-null key: the children matcher scans for it by key. */
  predicate IsKeyed(c: Child) { c.SlotChild? && c.slot.key.Some? }

  /**
   * The logical unit a child stands for, as an independent reference for
   * `IsEqual`: a slot is identified by its content type and key, every
   * ignorable value is the same unit, and every text-like value is the same unit.
   */
  datatype Identity = Unit(contentType: ContentType, key: Option<Key>) | Nothing | AnyText

  function IdentityOf(c: Child): Identity {
    match c
    case SlotChild(s) => Unit(s.contentType, s.key)
    case Ignored(_) => Nothing
    case Text(_) => AnyText
  }

  /**
   * Tree.ts `isEqual`: may the edge that held `prevSlot` be reused for `slot`?
   * Equal exactly when both children denote the same logical unit.
   */
  function IsEqual(slot: Child, prevSlot: Child): (r: bool)
    ensures r <==> IdentityOf(slot) == IdentityOf(prevSlot)
  {
    match slot
    case SlotChild(s) =>
      prevSlot.SlotChild? && s.contentType == prevSlot.slot.contentType && s.key == prevSlot.slot.key
    case Ignored(_) => prevSlot.Ignored?
    case Text(_) => !prevSlot.SlotChild? && !prevSlot.Ignored?
  }

  /** Two keyed children that compare equal carry the same key. */
  lemma EqualKeyedShareKey(a: Child, b: Child)
    requires IsKeyed(a) && IsEqual(a, b)
    ensures IsKeyed(b) && b.slot.key == a.slot.key && b.slot.contentType == a.slot.contentType
  {
  }

  /** Siblings are keyed uniquely: no two keyed children share content type and key. */
  predicate DistinctKeys(cs: seq<Child>) {
    forall a, b :: 0 <= a < b < |cs| && IsKeyed(cs[a]) && IsKeyed(cs[b]) ==> !IsEqual(cs[a], cs[b])
  }
}

=== FILE: targets.dfy ===
/**
 * The host tree and the insertion cursor over one host parent (Target.ts).
 * The host is a map from node id to that node's ordered child sequence.
 */
module Targets {
  import opened Seqs

  type NodeId = nat

  /** Each host node's `childNodes`; a node absent from the map has none. */
  type Host = map<NodeId, seq<NodeId>>

  function Kids(h: Host, n: NodeId): seq<NodeId> {
    if n in h then h[n] else []
  }

  /** A cursor: the host parent it inserts into and the running insertion index. */
  datatype Target = Target(element: NodeId, index: int)

  /** A host state together with the cursor after an operation. */
  datatype Placed = Placed(host: Host, target: Target)

  /** `new Target(element)`: the index defaults to 0. */
  function NewTarget(element: NodeId): (t: Target)
    ensures t.element == element && t.index == 0
  {
    Target(element, 0)
  }

  /** `child` taken out of every parent's child sequence (a DOM node has one parent). */
  function Detach(h: Host, child: NodeId): (r: Host)
    ensures r.Keys == h.Keys
    ensures forall p :: p in h ==> r[p] == Without(h[p], child)
  {
    map p | p in h :: Without(h[p], child)
  }

  /** `insertBefore(child, ref)` inside one child sequence: detach `child`, then place it right before `ref`. */
  function BeforeNode(kids: seq<NodeId>, child: NodeId, ref: NodeId): (r: seq<NodeId>)
    requires ref != child && ref in kids
    ensures exists k :: 0 <= k < |r| - 1 && r[k] == child && r[k + 1] == ref
    ensures Without(r, child) == Without(kids, child)
    ensures |r| == |Without(r, child)| + 1
  {
    var rest := Without(kids, child);
    var p := IndexOf(rest, ref);
    SpliceBefore(rest, p, child);
    rest[..p] + [child] + rest[p..]
  }

  /** Splicing a node that is not yet present into a sequence, before position `p`. */
  lemma SpliceBefore(rest: seq<NodeId>, p: nat, child: NodeId)
    requires p < |rest| && child !in rest
    ensures var r := rest[..p] + [child] + rest[p..];
            && r[p] == child && r[p + 1] == rest[p]
            && Without(r, child) == rest
  {
    var a: seq<NodeId> := rest[..p];
    var b: seq<NodeId> := rest[p..];
    assert rest == a + b;
    assert child !in a && child !in b by {
      assert forall y :: y in a ==> y in rest;
      assert forall y :: y in b ==> y in rest;
    }
    WithoutSplit(a, b, child);
  }

  lemma {:induction false} WithoutSplit(a: seq<NodeId>, b: seq<NodeId>, x: NodeId)
    requires x !in a && x !in b
    ensures Without(a + [x] + b, x) == a + b
  {
    assert a + [x] + b == a + ([x] + b);
    WithoutConcat(a, [x] + b, x);
    WithoutConcat([x], b, x);
    assert [x][1..] == [];
    assert Without([x], x) == [];
  }

  lemma {:induction false} WithoutConcat(a: seq<NodeId>, b: seq<NodeId>, x: NodeId)
    ensures Without(a + b, x) == Without(a, x) + Without(b, x)
    decreases |a|
  {
    if |a| > 0 {
      assert (a + b)[1..] == a[1..] + b;
      assert (a + b)[0] == a[0];
      WithoutConcat(a[1..], b, x);
    } else {
      assert a + b == b;
    }
  }

  /**
   * Target.ts `insert`: place `child` at the cursor and advance it by one.
   * In range, the node already at the index is the reference node of an
   * `insertBefore` (nothing happens when it is `child` itself); out of range,
   * the child is appended. A negative index reads `childNodes[index]` as
   * `undefined`, which `insertBefore` treats like `null`: an append too.
   */
  function Insert(h: Host, t: Target, child: NodeId): (r: Placed)
    ensures r.target == Target(t.element, t.index + 1)
    ensures 0 <= t.index < |Kids(h, t.element)| && Kids(h, t.element)[t.index] == child ==> r.host == h
    ensures !(0 <= t.index < |Kids(h, t.element)|) ==>
              Kids(r.host, t.element) == Without(Kids(h, t.element), child) + [child]
    ensures 0 <= t.index < |Kids(h, t.element)| && Kids(h, t.element)[t.index] != child ==>
              var before, after := Kids(h, t.element), Kids(r.host, t.element);
              && (exists k :: 0 <= k < |after| - 1 && after[k] == child && after[k + 1] == before[t.index])
              && |after| == |Without(after, child)| + 1
              && Without(after, child) == Without(before, child)
    ensures forall p :: p != t.element && p in h ==> Kids(r.host, p) == Kids(h, p) || Kids(r.host, p) == Without(Kids(h, p), child)
    ensures forall p :: p != t.element && p !in h ==> p !in r.host
  {
    var kids := Kids(h, t.element);
    var next := Target(t.element, t.index + 1);
    if 0 <= t.index < |kids| then
      var current := kids[t.index];
      if current == child then Placed(h, next)
      else
        var d := Detach(h, child);
        assert Kids(d, t.element) == Without(kids, child);
        Placed(d[t.element := BeforeNode(Kids(d, t.element), child, current)], next)
    else
      var d := Detach(h, child);
      Placed(d[t.element := Kids(d, t.element) + [child]], next)
  }

  /**
   * In a parent without repeated children, inserting a node that is not
   * among the nodes before the cursor keeps those nodes and puts the child
   * right after them, at the cursor's index.
   */
  lemma InsertArrives(h: Host, t: Target, child: NodeId)
    requires 0 <= t.index <= |Kids(h, t.element)| && NoDup(Kids(h, t.element))
    requires child !in Kids(h, t.element)[..t.index]
    ensures var after := Kids(Insert(h, t, child).host, t.element);
            && t.index < |after|
            && after[..t.index + 1] == Kids(h, t.element)[..t.index] + [child]
            && NoDup(after)
  {
    var kids, i := Kids(h, t.element), t.index;
    if i < |kids| && kids[i] == child {
      assert kids[..i + 1] == kids[..i] + [kids[i]];
    } else if i < |kids| {
      InsertInRange(h, t, child);
      SpliceArrives(kids, i, child);
    } else {
      InsertPastEnd(h, t, child);
      assert kids[..i] == kids;
      assert (kids + [child])[..i + 1] == kids + [child];
    }
  }

  /** In range and not already there, `Insert` is an `insertBefore` of the node at the index. */
  lemma InsertInRange(h: Host, t: Target, child: NodeId)
    requires 0 <= t.index < |Kids(h, t.element)| && Kids(h, t.element)[t.index] != child
    ensures var kids := Kids(h, t.element);
            Kids(Insert(h, t, child).host, t.element) == BeforeNode(Without(kids, child), child, kids[t.index])
  {
  }

  /** At the end, `Insert` appends the child. */
  lemma InsertPastEnd(h: Host, t: Target, child: NodeId)
    requires t.index == |Kids(h, t.element)| && child !in Kids(h, t.element)
    ensures Kids(Insert(h, t, child).host, t.element) == Kids(h, t.element) + [child]
  {
  }

  /** The `insertBefore` of a node absent from the prefix lands right after the prefix. */
  lemma SpliceArrives(kids: seq<NodeId>, i: nat, child: NodeId)
    requires i < |kids| && NoDup(kids) && kids[i] != child && child !in kids[..i]
    ensures var r := BeforeNode(Without(kids, child), child, kids[i]);
            i < |r| && r[..i + 1] == kids[..i] + [child] && NoDup(r)
  {
    var rest := Without(kids, child);
    assert kids == kids[..i] + kids[i..];
    WithoutConcat(kids[..i], kids[i..], child);
    assert kids[i..] == [kids[i]] + kids[i + 1..];
    assert Without(kids[i..], child) == [kids[i]] + Without(kids[i + 1..], child);
    assert rest[..i] == kids[..i] && rest[i] == kids[i];
    WithoutNoDup(kids, child);
    assert IndexOf(rest, kids[i]) == i;
    assert rest == rest[..i] + rest[i..];
    NoDupSplice(rest[..i], child, rest[i..]);
  }

  lemma {:induction false} WithoutNoDup(s: seq<NodeId>, x: NodeId)
    requires NoDup(s)
    ensures NoDup(Without(s, x))
    decreases |s|
  {
    if |s| > 0 {
      WithoutNoDup(s[1..], x);
      if s[0] != x {
        var w := Without(s[1..], x);
        assert forall k :: 0 <= k < |s| - 1 ==> s[1..][k] == s[k + 1];
        assert s[0] !in w;
        assert Without(s, x) == [s[0]] + w;
        forall a, b | 0 <= a < b < |[s[0]] + w|
          ensures ([s[0]] + w)[a] != ([s[0]] + w)[b]
        {
          if a > 0 {
            assert ([s[0]] + w)[a] == w[a - 1];
          }
          assert ([s[0]] + w)[b] == w[b - 1];
        }
      }
    }
  }

  lemma NoDupSplice(a: seq<NodeId>, x: NodeId, b: seq<NodeId>)
    requires NoDup(a + b) && x !in a + b
    ensures NoDup(a + [x] + b)
  {
    var s := a + [x] + b;
    forall i, j | 0 <= i < j < |s|
      ensures s[i] != s[j]
    {
      var ab := a + b;
      if i == |a| {
        assert s[j] == ab[j - 1];
      } else if j == |a| {
        assert s[i] == ab[i];
      } else {
        var i' := if i < |a| then i else i - 1;
        var j' := if j < |a| then j else j - 1;
        assert s[i] == ab[i'] && s[j] == ab[j'];
      }
    }
  }

  /** Target.ts `remove`: take `child` out of the cursor's parent; the index does not move. */
  function Remove(h: Host, t: Target, child: NodeId): (r: Placed)
    ensures r.target == t
    ensures Kids(r.host, t.element) == Without(Kids(h, t.element), child)
    ensures forall p :: p != t.element ==> Kids(r.host, p) == Kids(h, p)
  {
    Placed(h[t.element := Without(Kids(h, t.element), child)], t)
  }
}

=== FILE: teardown.dfy ===
/**
 * Tree.ts `unmountEdge` (lines 526-614): remove the subtree's topmost host
 * nodes, null its refs, tear the children down in order and only then the
 * edge's own component and hook runtime, unqueueing each.
 */
module Teardown {
  import opened Wrappers
  import opened Seqs
  import opened Slots
  import opened Targets
  import opened Edges
  import opened Patch
  import opened Scheduler
  import opened Worlds

  /** The members of a sequence of node ids. */
  function Elems(s: seq<NodeId>): set<NodeId> {
    set n | n in s
  }

  /** `triggerUnmount` for one owner, after it left the queue. */
  function TearDown(w: World, owner: OwnerId): (r: World)
    ensures r.log == w.log + [TornDown(owner)]
    ensures Dropped(w.stack, r.stack, [owner])
  {
    w.(stack := Unqueue(w.stack, owner), log := w.log + [TornDown(owner)])
  }

  /** Going from `before` to `after`, the queue lost exactly the owners in `gone`. */
  ghost predicate Dropped(before: seq<OwnerId>, after: seq<OwnerId>, gone: seq<OwnerId>) {
    forall x :: x in after <==> x in before && x !in gone
  }

  /** Dropping two batches of owners one after the other drops both. */
  lemma DroppedStep(s0: seq<OwnerId>, s1: seq<OwnerId>, s2: seq<OwnerId>, a: seq<OwnerId>, b: seq<OwnerId>)
    requires Dropped(s0, s1, a) && Dropped(s1, s2, b)
    ensures Dropped(s0, s2, a + b)
  {
  }

  /** Refs only ever lose their referent. */
  predicate OnlyNulled(before: Refs, after: Refs) {
    && (forall x :: x in before ==> x in after)
    && (forall x :: x in after ==> after[x].None? || (x in before && after[x] == before[x]))
  }

  /**
   * Tear down `e`, whose host nodes sit in the cursor's parent. Every owner
   * of the subtree is torn down in post-order and leaves the queue, and
   * exactly the subtree's top host nodes leave the parent; hosts outside the
   * subtree keep their children.
   */
  function UnmountEdge(e: Edge, t: Target, w: World): (r: World)
    ensures r.log == w.log + TornDowns(PostOrder(e))
    ensures Dropped(w.stack, r.stack, PostOrder(e))
    ensures r.next == w.next && r.tags == w.tags && r.elements == w.elements && r.texts == w.texts
    ensures OnlyNulled(w.refs, r.refs)
    ensures RefNulled(e, r.refs)
    ensures Framed(w.host, r.host, t.element, AllNodes(e))
    ensures Shaped(e) && t.element !in AllNodes(e) ==> Lost(w.host, r.host, t.element, TopNodes(e))
    decreases e, 2
  {
    var inside := UnmountInside(e, t, w);
    var r := TearDownOwners(e, inside);
    TornDownsAppend(ChildrenOwners(e, |e.children|), OwnList(e));
    DroppedStep(w.stack, inside.stack, r.stack, ChildrenOwners(e, |e.children|), OwnList(e));
    r
  }

  /** Everything of `UnmountEdge` before the edge's own owners: its node, its ref, and its children in order. */
  function UnmountInside(e: Edge, t: Target, w: World): (r: World)
    ensures r.log == w.log + TornDowns(ChildrenOwners(e, |e.children|))
    ensures Dropped(w.stack, r.stack, ChildrenOwners(e, |e.children|))
    ensures r.next == w.next && r.tags == w.tags && r.elements == w.elements && r.texts == w.texts
    ensures OnlyNulled(w.refs, r.refs)
    ensures RefNulled(e, r.refs)
    ensures Framed(w.host, r.host, t.element, AllNodes(e))
    ensures Shaped(e) && t.element !in AllNodes(e) ==> Lost(w.host, r.host, t.element, TopNodes(e))
    decreases e, 1
  {
    var w0 := RemoveOwnNode(e, t, w);
    var w1 := ClearRef(e, w0);
    var r := UnmountUpTo(e, |e.children|, Inner(e, t), w1);
    EdgeHostStep(e, t, w.host, w0.host, r.host);
    NulledStep(w.refs, w1.refs, r.refs);
    StaysNulled(w1.refs, r.refs, e);
    r
  }

  /** The `Ref` of the edge's slot, if it has one, holds no referent. */
  predicate RefNulled(e: Edge, refs: Refs) {
    e.slot.SlotChild? && e.slot.slot.ref.Some? ==>
      e.slot.slot.ref.value in refs && refs[e.slot.slot.ref.value].None?
  }

  /** Losing referents twice only loses referents. */
  lemma NulledStep(a: Refs, b: Refs, c: Refs)
    requires OnlyNulled(a, b) && OnlyNulled(b, c)
    ensures OnlyNulled(a, c)
  {
  }

  /** The slot's ref, once without a referent, keeps none. */
  lemma StaysNulled(a: Refs, b: Refs, e: Edge)
    requires OnlyNulled(a, b)
    ensures RefNulled(e, a) ==> RefNulled(e, b)
  {
  }

  /** The cursor the children are torn down through: a fresh one inside an element's own node. */
  function Inner(e: Edge, t: Target): Target {
    if e.node.Some? && IsElement(e.slot) then NewTarget(e.node.value) else t
  }

  /** `target.remove(node)` when the edge owns a host node. */
  function RemoveOwnNode(e: Edge, t: Target, w: World): (r: World)
    ensures r == w.(host := r.host)
    ensures e.node.Some? ==> Kids(r.host, t.element) == Without(Kids(w.host, t.element), e.node.value)
    ensures e.node.None? ==> r == w
    ensures forall p :: p != t.element ==> Kids(r.host, p) == Kids(w.host, p)
  {
    if e.node.Some? then w.(host := Remove(w.host, t, e.node.value).host) else w
  }

  /** The slot's own `Ref` loses its referent. */
  function ClearRef(e: Edge, w: World): (r: World)
    ensures r == w.(refs := r.refs)
    ensures OnlyNulled(w.refs, r.refs)
    ensures RefNulled(e, r.refs)
  {
    if e.slot.SlotChild? && e.slot.slot.ref.Some? then w.(refs := w.refs[e.slot.slot.ref.value := None]) else w
  }

  /** The component, then the hook runtime, is unqueued and torn down. */
  function TearDownOwners(e: Edge, w: World): (r: World)
    ensures r == w.(stack := r.stack, log := r.log)
    ensures r.log == w.log + TornDowns(OwnList(e))
    ensures Dropped(w.stack, r.stack, OwnList(e))
  {
    var cs := if e.component.Some? then [e.component.value] else [];
    var hs := if e.hookster.Some? then [e.hookster.value] else [];
    var w1 := if e.component.Some? then TearDown(w, e.component.value) else w;
    var r := if e.hookster.Some? then TearDown(w1, e.hookster.value) else w1;
    TornDownsAppend(cs, hs);
    DroppedStep(w.stack, w1.stack, r.stack, cs, hs);
    r
  }

  /** Tear down the first `k` children, in order. */
  function UnmountUpTo(e: Edge, k: nat, t: Target, w: World): (r: World)
    requires k <= |e.children|
    ensures r.log == w.log + TornDowns(ChildrenOwners(e, k))
    ensures Dropped(w.stack, r.stack, ChildrenOwners(e, k))
    ensures r.next == w.next && r.tags == w.tags && r.elements == w.elements && r.texts == w.texts
    ensures OnlyNulled(w.refs, r.refs)
    ensures Framed(w.host, r.host, t.element, NodesUpTo(e, k))
    ensures ShapedUpTo(e, k) && t.element !in NodesUpTo(e, k) ==> Lost(w.host, r.host, t.element, ChildrenNodes(e, k))
    decreases e, 0, k
  {
    if k == 0 then
      LostNothing(w.host, t.element);
      w
    else
      var before := UnmountUpTo(e, k - 1, t, w);
      var r := UnmountEdge(e.children[k - 1], t, before);
      TornDownsAppend(ChildrenOwners(e, k - 1), PostOrder(e.children[k - 1]));
      DroppedStep(w.stack, before.stack, r.stack, ChildrenOwners(e, k - 1), PostOrder(e.children[k - 1]));
      UpToHostStep(e, k, t.element, w.host, before.host, r.host);
      r
  }

  /**
   * The unmount loop of `renderChildren` (Tree.ts:224-232): the previous
   * children at positions `js` are torn down, in that order.
   */
  function UnmountAll(cs: seq<Edge>, js: seq<nat>, t: Target, w: World): (r: World)
    requires forall a :: 0 <= a < |js| ==> js[a] < |cs|
    ensures r.log == w.log + TornDowns(OwnersAt(cs, js))
    ensures Dropped(w.stack, r.stack, OwnersAt(cs, js))
    ensures r.next == w.next && r.tags == w.tags && r.elements == w.elements && r.texts == w.texts
    ensures OnlyNulled(w.refs, r.refs)
    ensures Framed(w.host, r.host, t.element, NodesAt(cs, js))
    ensures ShapedAt(cs, js) && t.element !in NodesAt(cs, js) ==> Lost(w.host, r.host, t.element, TopsAt(cs, js))
    decreases |js|
  {
    if |js| == 0 then
      LostNothing(w.host, t.element);
      w
    else
      var init := js[..|js| - 1];
      var c := cs[js[|js| - 1]];
      assert forall a :: 0 <= a < |init| ==> init[a] == js[a];
      var before := UnmountAll(cs, init, t, w);
      var r := UnmountEdge(c, t, before);
      AllOwnersStep(cs, js, w, before, r);
      AllHostStep(cs, js, t.element, w.host, before.host, r.host);
      r
  }

  /** The world bookkeeping of one more subtree torn down after those at `js[..|js| - 1]`. */
  lemma AllOwnersStep(cs: seq<Edge>, js: seq<nat>, w0: World, w1: World, w2: World)
    requires |js| > 0 && forall a :: 0 <= a < |js| ==> js[a] < |cs|
    requires var init := js[..|js| - 1];
             && w1.log == w0.log + TornDowns(OwnersAt(cs, init))
             && Dropped(w0.stack, w1.stack, OwnersAt(cs, init))
             && OnlyNulled(w0.refs, w1.refs)
    requires var c := cs[js[|js| - 1]];
             && w2.log == w1.log + TornDowns(PostOrder(c))
             && Dropped(w1.stack, w2.stack, PostOrder(c))
             && OnlyNulled(w1.refs, w2.refs)
    ensures w2.log == w0.log + TornDowns(OwnersAt(cs, js))
    ensures Dropped(w0.stack, w2.stack, OwnersAt(cs, js))
    ensures OnlyNulled(w0.refs, w2.refs)
  {
    var init := js[..|js| - 1];
    var c := cs[js[|js| - 1]];
    assert OwnersAt(cs, js) == OwnersAt(cs, init) + PostOrder(c);
    TornDownsAppend(OwnersAt(cs, init), PostOrder(c));
    DroppedStep(w0.stack, w1.stack, w2.stack, OwnersAt(cs, init), PostOrder(c));
  }

  /** The host nodes of the subtrees `cs[js[0]]`, `cs[js[1]]`, .... */
  function NodesAt(cs: seq<Edge>, js: seq<nat>): set<NodeId>
    requires forall a :: 0 <= a < |js| ==> js[a] < |cs|
    decreases |js|
  {
    if |js| == 0 then {} else NodesAt(cs, js[..|js| - 1]) + AllNodes(cs[js[|js| - 1]])
  }

  /** The top host nodes of those subtrees, one subtree after the other. */
  function TopsAt(cs: seq<Edge>, js: seq<nat>): seq<NodeId>
    requires forall a :: 0 <= a < |js| ==> js[a] < |cs|
    decreases |js|
  {
    if |js| == 0 then [] else TopsAt(cs, js[..|js| - 1]) + TopNodes(cs[js[|js| - 1]])
  }

  predicate ShapedAt(cs: seq<Edge>, js: seq<nat>) {
    forall a :: 0 <= a < |js| && js[a] < |cs| ==> Shaped(cs[js[a]])
  }

  /** The host bookkeeping of one more step of `UnmountAll`. */
  lemma AllHostStep(cs: seq<Edge>, js: seq<nat>, x: NodeId, h0: Host, h1: Host, h2: Host)
    requires |js| > 0 && forall a :: 0 <= a < |js| ==> js[a] < |cs|
    requires var init := js[..|js| - 1];
             && Framed(h0, h1, x, NodesAt(cs, init))
             && (ShapedAt(cs, init) && x !in NodesAt(cs, init) ==> Lost(h0, h1, x, TopsAt(cs, init)))
    requires var c := cs[js[|js| - 1]];
             && Framed(h1, h2, x, AllNodes(c))
             && (Shaped(c) && x !in AllNodes(c) ==> Lost(h1, h2, x, TopNodes(c)))
    ensures Framed(h0, h2, x, NodesAt(cs, js))
    ensures ShapedAt(cs, js) && x !in NodesAt(cs, js) ==> Lost(h0, h2, x, TopsAt(cs, js))
  {
    var init := js[..|js| - 1];
    var c := cs[js[|js| - 1]];
    assert NodesAt(cs, js) == NodesAt(cs, init) + AllNodes(c);
    assert TopsAt(cs, js) == TopsAt(cs, init) + TopNodes(c);
    FrameJoin(h0, h1, h2, x, NodesAt(cs, init), AllNodes(c));
    if ShapedAt(cs, js) && x !in NodesAt(cs, js) {
      assert forall a :: 0 <= a < |init| ==> init[a] == js[a];
      assert ShapedAt(cs, init);
      assert Shaped(c);
      LostStep(h0, h1, h2, x, TopsAt(cs, init), TopNodes(c));
    }
  }

  /** The owners of the subtrees `cs[js[0]]`, `cs[js[1]]`, ..., each in post-order. */
  function OwnersAt(cs: seq<Edge>, js: seq<nat>): seq<OwnerId>
    requires forall a :: 0 <= a < |js| ==> js[a] < |cs|
    decreases |js|
  {
    if |js| == 0 then [] else OwnersAt(cs, js[..|js| - 1]) + PostOrder(cs[js[|js| - 1]])
  }

  /**
   * The host bookkeeping of `UnmountEdge`: its own node leaves the cursor's
   * parent, or, without one, its children's top nodes do; the children's
   * teardown through the inner cursor touches only hosts inside the subtree.
   */
  lemma EdgeHostStep(e: Edge, t: Target, h0: Host, h1: Host, h2: Host)
    requires e.node.Some? ==> Kids(h1, t.element) == Without(Kids(h0, t.element), e.node.value)
    requires e.node.None? ==> h1 == h0
    requires forall p :: p != t.element ==> Kids(h1, p) == Kids(h0, p)
    requires Framed(h1, h2, Inner(e, t).element, NodesUpTo(e, |e.children|))
    requires ShapedUpTo(e, |e.children|) && Inner(e, t).element !in NodesUpTo(e, |e.children|) ==>
               Lost(h1, h2, Inner(e, t).element, ChildrenNodes(e, |e.children|))
    ensures Framed(h0, h2, t.element, AllNodes(e))
    ensures Shaped(e) && t.element !in AllNodes(e) ==> Lost(h0, h2, t.element, TopNodes(e))
  {
    var n := |e.children|;
    NodesUpToWithin(e, n);
    assert Inner(e, t).element == t.element || Inner(e, t).element in AllNodes(e);
    if Shaped(e) && t.element !in AllNodes(e) {
      if e.node.None? {
        assert TopNodes(e) == ChildrenNodes(e, n);
      } else {
        if Inner(e, t) == t {
          assert n == 0 && ChildrenNodes(e, 0) == [];
          MinusNothing(Kids(h1, t.element));
          assert Elems([]) == {};
        }
        assert Kids(h2, t.element) == Kids(h1, t.element);
        WithoutIsMinus(Kids(h0, t.element), e.node.value);
        assert Elems([e.node.value]) == {e.node.value};
      }
    }
  }

  /** The host bookkeeping of `UnmountUpTo`: the frames and the losses of the first `k - 1` children and of the `k`-th add up. */
  lemma UpToHostStep(e: Edge, k: nat, x: NodeId, h0: Host, h1: Host, h2: Host)
    requires 0 < k <= |e.children|
    requires Framed(h0, h1, x, NodesUpTo(e, k - 1)) && Framed(h1, h2, x, AllNodes(e.children[k - 1]))
    requires ShapedUpTo(e, k - 1) && x !in NodesUpTo(e, k - 1) ==> Lost(h0, h1, x, ChildrenNodes(e, k - 1))
    requires Shaped(e.children[k - 1]) && x !in AllNodes(e.children[k - 1]) ==> Lost(h1, h2, x, TopNodes(e.children[k - 1]))
    ensures Framed(h0, h2, x, NodesUpTo(e, k))
    ensures ShapedUpTo(e, k) && x !in NodesUpTo(e, k) ==> Lost(h0, h2, x, ChildrenNodes(e, k))
  {
    var c := e.children[k - 1];
    FrameJoin(h0, h1, h2, x, NodesUpTo(e, k - 1), AllNodes(c));
    if ShapedUpTo(e, k) && x !in NodesUpTo(e, k) {
      assert ShapedUpTo(e, k - 1) && Shaped(c);
      LostStep(h0, h1, h2, x, ChildrenNodes(e, k - 1), TopNodes(c));
    }
  }

  /** Nothing torn down, nothing lost. */
  lemma LostNothing(h: Host, x: NodeId)
    ensures Lost(h, h, x, [])
  {
    MinusNothing(Kids(h, x));
    assert Elems([]) == {};
  }

  /** The host nodes of the first `k` children's subtrees. */
  function NodesUpTo(e: Edge, k: nat): set<NodeId>
    requires k <= |e.children|
  {
    if k == 0 then {} else NodesUpTo(e, k - 1) + AllNodes(e.children[k - 1])
  }

  /** The children's host nodes are the edge's. */
  lemma {:induction false} NodesUpToWithin(e: Edge, k: nat)
    requires k <= |e.children|
    ensures NodesUpTo(e, k) <= AllNodes(e)
  {
    if k > 0 {
      NodesUpToWithin(e, k - 1);
      ChildNodesWithin(e);
    }
  }

  /** Every host node other than `x` and outside `nodes` kept its children. */
  ghost predicate Framed(before: Host, after: Host, x: NodeId, nodes: set<NodeId>) {
    forall p :: p != x && p !in nodes ==> Kids(after, p) == Kids(before, p)
  }

  /** Two frames one after the other make the frame of the union. */
  lemma FrameJoin(h0: Host, h1: Host, h2: Host, x: NodeId, a: set<NodeId>, b: set<NodeId>)
    requires Framed(h0, h1, x, a) && Framed(h1, h2, x, b)
    ensures Framed(h0, h2, x, a + b)
  {
  }

  /** Going from `before` to `after`, host node `n` lost exactly the nodes `gone`, order kept. */
  predicate Lost(before: Host, after: Host, n: NodeId, gone: seq<NodeId>) {
    Kids(after, n) == Minus(Kids(before, n), Elems(gone))
  }

  /** Losing two batches of nodes one after the other loses their union. */
  lemma LostStep(h0: Host, h1: Host, h2: Host, n: NodeId, a: seq<NodeId>, b: seq<NodeId>)
    requires Lost(h0, h1, n, a) && Lost(h1, h2, n, b)
    ensures Lost(h0, h2, n, a + b)
  {
    assert Elems(a + b) == Elems(a) + Elems(b);
    MinusMinus(Kids(h0, n), Elems(a), Elems(b));
  }

  predicate ShapedUpTo(e: Edge, k: nat) {
    forall i :: 0 <= i < k && i < |e.children| ==> Shaped(e.children[i])
  }

  lemma ChildNodesWithin(e: Edge)
    ensures forall i :: 0 <= i < |e.children| ==> AllNodes(e.children[i]) <= AllNodes(e)
  {
  }

  lemma WithoutIsMinus(s: seq<NodeId>, x: NodeId)
    ensures Without(s, x) == Minus(s, {x})
  {
    MinusNothing(s);
    MinusThenWithout(s, {}, x);
  }
}

=== FILE: tree.dfy ===
/**
 * The `Tree` object of Tree.ts: `mount`/`unmount` (lines 24-70), the update
 * queue `queue`/`unqueue` (75-91) and the flush `rerender` (93-135). The
 * `setTimeout` batching is left out: a flush is an explicit call, bounded by
 * a number of steps because a component may keep asking for updates.
 */
module Trees {
  import opened Wrappers
  import opened Slots
  import opened Targets
  import opened Edges
  import opened Scheduler
  import opened Worlds
  import opened Teardown
  import opened Render
  import opened Accounting

  /** The root edge (`this.edge`), the world, and the host element the tree renders into. */
  datatype Tree = Tree(root: Option<Edge>, world: World, element: NodeId)

  /** The cached counts and the structural invariant hold for the whole tree. */
  predicate Valid(tr: Tree) {
    tr.root.Some? ==> Sound(tr.root.value)
  }

  // ---- mount / unmount ---------------------------------------------------

  /**
   * `unmount()`: nothing at all without a root (the queue is kept);
   * otherwise the root is torn down from a fresh cursor on the tree element,
   * and root and queue are cleared.
   */
  function Unmount(tr: Tree): (r: Tree)
    ensures r.root.None? && r.element == tr.element
    ensures tr.root.None? ==> r == tr
    ensures tr.root.Some? ==> r.world.stack == []
    ensures tr.root.Some? ==> r.world.log == tr.world.log + TornDowns(PostOrder(tr.root.value))
    ensures tr.root.Some? ==> r.world.next == tr.world.next
  {
    if tr.root.None? then tr
    else
      var w := UnmountEdge(tr.root.value, NewTarget(tr.element), tr.world);
      Tree(None, w.(stack := []), tr.element)
  }

  /**
   * `unmount` on the host: exactly the root's top host nodes leave the tree
   * element, and every host node outside the old tree keeps its children.
   */
  lemma UnmountHost(tr: Tree)
    requires tr.root.Some? && Shaped(tr.root.value) && tr.element !in AllNodes(tr.root.value)
    ensures Lost(tr.world.host, Unmount(tr).world.host, tr.element, TopNodes(tr.root.value))
    ensures forall p :: p != tr.element && p !in AllNodes(tr.root.value) ==>
              Kids(Unmount(tr).world.host, p) == Kids(tr.world.host, p)
  {
    var w := UnmountEdge(tr.root.value, NewTarget(tr.element), tr.world);
    assert Unmount(tr).world.host == w.host;
  }

  /**
   * `mount(slot)`: unmount a previous root first, then render a new root
   * edge at depth 0 from a fresh cursor on the tree element.
   */
  function Mount(tr: Tree, s: Slot, o: Oracle, fuel: nat): (r: Tree)
    ensures r.root.Some? && r.element == tr.element && Valid(r)
    ensures r.root.value.slot == SlotChild(s) && r.root.value.depth == 0
    ensures tr.root.Some? ==> tr.world.log + TornDowns(PostOrder(tr.root.value)) <= r.world.log
    ensures tr.root.None? ==> tr.world.log <= r.world.log
    ensures var rd := RenderEdge(NewEdge(SlotChild(s), 0), None, NewTarget(tr.element), Cleared(tr), o, fuel);
            r.root.value == rd.edge && r.world == rd.world
  {
    var e := NewEdge(SlotChild(s), 0);
    var rendered := RenderEdge(e, None, NewTarget(tr.element), Cleared(tr), o, fuel);
    Tree(Some(rendered.edge), rendered.world, tr.element)
  }

  /** The world `mount` renders into: the previous root, if any, is unmounted first. */
  function Cleared(tr: Tree): (w: World)
    ensures tr.root.Some? ==> w.stack == [] && w.log == tr.world.log + TornDowns(PostOrder(tr.root.value))
    ensures tr.root.None? ==> w == tr.world
  {
    if tr.root.Some? then Unmount(tr).world else tr.world
  }

  /**
   * What `mount` promises through `renderEdge`: the new root is never
   * skipped, and a component or hook root that rendered settles last,
   * otherwise the render ended in exactly one report; the root's count is
   * the number of host nodes it placed from index 0 of the tree element.
   */
  lemma MountRenders(tr: Tree, s: Slot, o: Oracle, fuel: nat)
    ensures var rd := RenderEdge(NewEdge(SlotChild(s), 0), None, NewTarget(tr.element), Cleared(tr), o, fuel);
            && !rd.status.Skipped?
            && rd.target == Target(tr.element, Mount(tr, s, o, fuel).root.value.count)
            && (rd.status.Failed? ==> Mount(tr, s, o, fuel).world.log == Cleared(tr).log + [Reported(rd.status.fault)])
            && (rd.status.Done? && (IsClass(SlotChild(s)) || IsFunction(SlotChild(s))) ==>
                  var log := Mount(tr, s, o, fuel).world.log;
                  |log| > 0 && log[|log| - 1] == Settled(KindOwner(Mount(tr, s, o, fuel).root.value).value))
  {
  }

  // ---- the update queue --------------------------------------------------

  /** `queue(edge)`, called back by a component or hook runtime that wants to update. */
  function Request(tr: Tree, owner: OwnerId): (r: Tree)
    ensures r == tr.(world := r.world) && r.world == tr.world.(stack := r.world.stack)
    ensures |r.world.stack| == |tr.world.stack| + 1 && r.world.stack[..|tr.world.stack|] == tr.world.stack
    ensures r.world.stack[|tr.world.stack|] == owner
  {
    tr.(world := tr.world.(stack := Queue(tr.world.stack, owner)))
  }

  /** The first edge of the tree, in pre-order, whose component or hook runtime is `owner`. */
  function FindOwner(e: Edge, owner: OwnerId): (r: Option<seq<nat>>)
    ensures r.Some? ==> ValidPath(e, r.value) && OwnerOf(At(e, r.value)) == Some(owner)
    decreases e, 1
  {
    if OwnerOf(e) == Some(owner) then Some([]) else FindAmong(e, owner, 0)
  }

  /** The search of `FindOwner` through the children from position `i` on. */
  function FindAmong(e: Edge, owner: OwnerId, i: nat): (r: Option<seq<nat>>)
    ensures r.Some? ==> ValidPath(e, r.value) && OwnerOf(At(e, r.value)) == Some(owner)
    decreases e, 0, |e.children| - i
  {
    if i >= |e.children| then None
    else
      match FindOwner(e.children[i], owner)
      case Some(p) =>
        assert ([i] + p)[0] == i && ([i] + p)[1..] == p;
        Some([i] + p)
      case None => FindAmong(e, owner, i + 1)
  }

  /** The search misses no edge: every owner somewhere in the tree is found. */
  lemma {:induction false} FindOwnerComplete(e: Edge, owner: OwnerId, p: seq<nat>)
    requires ValidPath(e, p) && OwnerOf(At(e, p)) == Some(owner)
    ensures FindOwner(e, owner).Some?
    decreases |p|
  {
    if OwnerOf(e) != Some(owner) {
      assert |p| > 0;
      FindOwnerComplete(e.children[p[0]], owner, p[1..]);
      FindAmongComplete(e, owner, 0, p[0]);
    }
  }

  lemma {:induction false} FindAmongComplete(e: Edge, owner: OwnerId, i: nat, j: nat)
    requires i <= j < |e.children| && FindOwner(e.children[j], owner).Some?
    ensures FindAmong(e, owner, i).Some?
    decreases j - i
  {
    if FindOwner(e.children[i], owner).None? {
      FindAmongComplete(e, owner, i + 1, j);
    }
  }

  /** The depth the queue is sorted by: that of the owner's edge (0 for one no longer in the tree). */
  function DepthIn(root: Option<Edge>): OwnerId -> int {
    (x: OwnerId) =>
      if root.None? then 0
      else
        match FindOwner(root.value, x)
        case Some(p) => At(root.value, p).depth
        case None => 0
  }

  /** What one flush step did. */
  datatype Step = Idle | Dropped(owner: OwnerId) | Rerendered(owner: OwnerId, path: seq<nat>, status: Status)

  /**
   * One pass of `rerender()`: sort the queue by depth, take its head, and
   * render that edge again through the cursor `createTarget` rebuilds, with
   * its own snapshot as the previous edge; a changed count is then
   * propagated to the ancestors. A head whose edge is no longer in the tree
   * is dropped from the queue.
   */
  function RerenderStep(tr: Tree, o: Oracle, fuel: nat): (r: (Tree, Step))
    ensures |tr.world.stack| == 0 <==> r.1 == Idle
    ensures r.1 == Idle ==> r.0 == tr
    ensures r.1.Rerendered? || r.1.Dropped? ==>
              && r.1.owner in tr.world.stack
              && forall x :: x in tr.world.stack ==> DepthIn(tr.root)(r.1.owner) <= DepthIn(tr.root)(x)
    ensures r.1.Rerendered? ==>
              && tr.root.Some? && ValidPath(tr.root.value, r.1.path)
              && OwnerOf(At(tr.root.value, r.1.path)) == Some(r.1.owner)
    ensures r.1.Dropped? ==> r.0.root == tr.root && r.1.owner !in r.0.world.stack
    ensures r.0.element == tr.element && tr.world.log <= r.0.world.log
    ensures Valid(tr) ==> Valid(r.0)
    ensures r.1.Rerendered? ==>
              var root := tr.root.value;
              var e := At(root, r.1.path);
              var rd := RenderEdge(e, Some(e), CreateTarget(root, r.1.path, tr.element, 0),
                                   tr.world.(stack := SortByDepth(tr.world.stack, DepthIn(tr.root))), o, fuel);
              && r.0.root.Some? && ValidPath(r.0.root.value, r.1.path)
              && At(r.0.root.value, r.1.path) == rd.edge
              && r.1.status == rd.status && r.0.world == rd.world
  {
    if |tr.world.stack| == 0 then (tr, Idle)
    else
      var depth := DepthIn(tr.root);
      var sorted := SortByDepth(tr.world.stack, depth);
      assert sorted[0] in multiset(sorted);
      var owner := sorted[0];
      var w := tr.world.(stack := sorted);
      var found := if tr.root.Some? then FindOwner(tr.root.value, owner) else None;
      if found.None? then
        (tr.(world := w.(stack := Unqueue(sorted, owner))), Dropped(owner))
      else
        var root := tr.root.value;
        var path := found.value;
        var e := At(root, path);
        var t := CreateTarget(root, path, tr.element, 0);
        var rendered := RenderEdge(e, Some(e), t, w, o, fuel);
        var root' := Reattach(root, path, rendered.edge);
        assert Sound(root) ==> Sound(root') by {
          if Sound(root) {
            AtReady(root, path);
          }
        }
        (Tree(Some(root'), rendered.world, tr.element), Rerendered(owner, path, rendered.status))
  }

  /**
   * The re-rendered edge put back into the tree (Tree.ts renders the edge
   * object in place), then `propagateTargetNodesCountDifference` when its
   * count changed: a sound tree stays sound.
   */
  function Reattach(root: Edge, path: seq<nat>, sub: Edge): (r: Edge)
    requires ValidPath(root, path)
    ensures ValidPath(r, path) && At(r, path) == sub
    ensures Sound(root) && Sound(sub) ==> Sound(r)
  {
    var replaced := ReplaceAt(root, path, sub);
    var difference := sub.count - At(root, path).count;
    var r := if difference != 0 then Propagate(replaced, path, difference) else replaced;
    assert Sound(root) && Sound(sub) ==> Sound(r) by {
      if Sound(root) && Sound(sub) {
        ReattachSound(root, path, sub);
        PropagateIsLift(replaced, path, difference);
        if difference == 0 {
          LiftZero(replaced, path);
        }
      }
    }
    r
  }

  /** An edge of a sound tree is sound and so is its snapshot's every child. */
  lemma AtReady(root: Edge, path: seq<nat>)
    requires Sound(root) && ValidPath(root, path)
    ensures Sound(At(root, path)) && Ready(Some(At(root, path)))
  {
    AtSound(root, path);
  }

  /** Every edge of a sound tree is sound. */
  lemma {:induction false} AtSound(root: Edge, path: seq<nat>)
    requires Sound(root) && ValidPath(root, path)
    ensures Sound(At(root, path))
    decreases |path|
  {
    if |path| > 0 {
      AtSound(root.children[path[0]], path[1..]);
    }
  }

  /** A zero difference changes nothing. */
  lemma {:induction false} LiftZero(root: Edge, path: seq<nat>)
    requires ValidPath(root, path)
    ensures Lift(root, path, 0) == root
    decreases |path|
  {
    if |path| > 0 {
      LiftZero(root.children[path[0]], path[1..]);
      assert root.children[path[0] := root.children[path[0]]] == root.children;
    }
  }

  /**
   * `rerender()` called until the queue is empty, for at most `steps`
   * passes; `left` is the number of passes not needed.
   */
  function Flush(tr: Tree, o: Oracle, fuel: nat, steps: nat): (r: (Tree, nat))
    ensures r.1 <= steps
    ensures r.1 > 0 ==> |r.0.world.stack| == 0
    ensures |tr.world.stack| == 0 ==> r == (tr, steps)
    ensures r.0.element == tr.element && tr.world.log <= r.0.world.log
    ensures Valid(tr) ==> Valid(r.0)
    decreases steps
  {
    if |tr.world.stack| == 0 then (tr, steps)
    else if steps == 0 then (tr, 0)
    else Flush(RerenderStep(tr, o, fuel).0, o, fuel, steps - 1)
  }
}

=== FILE: world.dfy ===
/**
 * What a render pass reads and changes besides the edges: the host tree and
 * the state of its nodes, the `Ref` objects, the update queue and the log of
 * lifecycle notifications and reported errors. The "untrue" collaborators a
 * render calls into (component and hook lifecycles, `Comparer.compare`, the
 * browser's `setAttribute` validation) are the fields of an `Oracle`.
 */
module Worlds {
  import opened Wrappers
  import opened Slots
  import opened Targets
  import opened Edges
  import opened Patch
  import opened Scheduler

  /** What a component's render (or a function component's call) produces. */
  datatype Outcome = Produced(children: seq<Child>) | Threw

  datatype Oracle = Oracle(
    /** `component.needsUpdate()` / `hookster.needsUpdate()`. */
    needsUpdate: OwnerId -> bool,
    /** `Comparer.compare(slot, prevSlot)`. */
    compare: (Slot, Child) -> bool,
    /** The children a component renders for a slot, or an exception. */
    render: (OwnerId, Slot) -> Outcome,
    /** Whether `component.updateProps(props)` / `hookster.performUpdate()` throws for an existing owner. */
    updateThrows: (OwnerId, Slot) -> bool,
    /** Whether the owner's `triggerRender` listeners request another update. */
    requeues: OwnerId -> bool,
    /** Whether `setAttribute(name, value)` throws. */
    rejects: (string, string) -> bool)

  /** An error the reconciler catches and hands to the error handler. */
  datatype Fault =
    | RenderThrew(owner: OwnerId)
    | UpdateThrew(owner: OwnerId)
    | StackExhausted
    | AttributeRejected(node: NodeId, name: string)

  datatype Event =
    | Settled(owner: OwnerId)   // `triggerRender` after the owner's subtree rendered
    | TornDown(owner: OwnerId)  // `triggerUnmount`
    | Reported(fault: Fault)    // `ErrorHandler.handle`

  datatype World = World(
    host: Host,
    tags: map<NodeId, string>,
    elements: map<NodeId, ElementState>,
    texts: map<NodeId, string>,
    refs: Refs,
    /** The next unused identity, for host nodes and owners alike. */
    next: nat,
    /** The update queue (`this.stack`). */
    stack: seq<OwnerId>,
    log: seq<Event>)

  /** `this.unqueue(edge)`, done only for an edge that owns a component or hook runtime. */
  function Unqueued(w: World, e: Edge): (r: World)
    ensures OwnerOf(e).Some? ==> r == w.(stack := Unqueue(w.stack, OwnerOf(e).value))
    ensures OwnerOf(e).None? ==> r == w
  {
    if OwnerOf(e).Some? then w.(stack := Unqueue(w.stack, OwnerOf(e).value)) else w
  }

  function Report(w: World, f: Fault): World {
    w.(log := w.log + [Reported(f)])
  }

  /** `triggerRender`: the owner settles, and its listeners may queue it again. */
  function Settle(w: World, owner: OwnerId, o: Oracle): (r: World)
    ensures r.log == w.log + [Settled(owner)]
    ensures r.stack == if o.requeues(owner) then Queue(w.stack, owner) else w.stack
    ensures r.host == w.host && r.next == w.next
  {
    w.(log := w.log + [Settled(owner)], stack := if o.requeues(owner) then Queue(w.stack, owner) else w.stack)
  }

  /** `document.createElement(tag)`: a new node with no children and no attributes. */
  function CreateElement(w: World, tag: string): (r: (NodeId, World))
    ensures r.0 == w.next && r.1.next == w.next + 1
    ensures Kids(r.1.host, r.0) == [] && r.0 in r.1.tags && r.1.tags[r.0] == tag
    ensures r.0 in r.1.elements && r.1.elements[r.0] == ElementState(map[], map[])
    ensures r.1.stack == w.stack && r.1.log == w.log
  {
    var n := w.next;
    (n, w.(next := n + 1, host := w.host[n := []], tags := w.tags[n := tag],
           elements := w.elements[n := ElementState(map[], map[])]))
  }

  /** `document.createTextNode("")`. */
  function CreateText(w: World): (r: (NodeId, World))
    ensures r.0 == w.next && r.1.next == w.next + 1
    ensures Kids(r.1.host, r.0) == [] && r.0 in r.1.texts && r.1.texts[r.0] == ""
    ensures r.1.stack == w.stack && r.1.log == w.log
  {
    var n := w.next;
    (n, w.(next := n + 1, host := w.host[n := []], texts := w.texts[n := ""]))
  }

  /** One report per attribute whose `setAttribute` threw, in order. */
  function Rejections(node: NodeId, names: seq<string>): (r: seq<Event>)
    ensures |r| == |names|
    ensures forall i :: 0 <= i < |names| ==> r[i] == Reported(AttributeRejected(node, names[i]))
  {
    seq(|names|, i requires 0 <= i < |names| => Reported(AttributeRejected(node, names[i])))
  }

  /** One teardown notification per owner, in order. */
  function TornDowns(owners: seq<OwnerId>): (r: seq<Event>)
    ensures |r| == |owners|
    ensures forall i :: 0 <= i < |owners| ==> r[i] == TornDown(owners[i])
  {
    seq(|owners|, i requires 0 <= i < |owners| => TornDown(owners[i]))
  }

  lemma TornDownsAppend(a: seq<OwnerId>, b: seq<OwnerId>)
    ensures TornDowns(a + b) == TornDowns(a) + TornDowns(b)
  {
  }
}

=== FILE: wrappers.dfy ===
/** The optional value the source writes as `null` (or `undefined`). */
module Wrappers {

  datatype Option<+T> = None | Some(value: T) {

    /** Returns the encapsulated value, or `default` when there is none. */
    function GetOr(default: T): T {
      match this
      case Some(v) => v
      case None => default
    }
  }
}
